=== FILE: README.md ===
# pomoc, modelled in Dafny

pomoc is a terminal pomodoro timer written in C. A study phase alternates
with a short break. After a set number of study sessions the study phase is
followed by a long break instead. The timer draws its state in bordered text
windows made of ANSI escape sequences. It reads single keys to pause, skip,
change the quote or toggle the help panel, and asks yes/no questions in
small dialogs. A Python script, `quotes.py`, normalises the list of quotes
the timer shows.

This project models the sequential, integer-only core of the program as
pure Dafny functions over immutable records and proves what that code
promises. The modules follow the program's structure:

- `CInt`: C's truncating `/` and `%`, and `_clamp`.
- `Decimal`: `printf("%i")`, `printf("%02d")` and `atoi`.
- `Text`: splitting and joining on a separator, used to read formatted text back.
- `CStrings`: the string helpers of `terminal.c`. These are
  `_stringCopyNBytes` (inclusive end index), `_stringFindFirstSpace`,
  `_stringPad` and `_stringTrim`.
- `Colors`: the `RGB`, `HSL`, `Rectangle` and `Position` records, the
  clamping constructors, and the named style codes.
- `Escapes`: the escape-sequence builders as strings. These are CUP and SGR
  (ECMA-48 sections 8.3.21 and 8.3.117), direct colour, `erase_at`, and the
  glyph `_windowDrawBorder` puts in each cell.
- `Keys`: `poll_special_keypress` as a fold over the bytes read. It returns a
  one-hot key mask.
- `Windows`: the `Window` record and its operations:
  - the validated setters;
  - the line buffer (`windowAddLine` and friends);
  - sizing and alignment;
  - the greedy line wrapper `_windowLinesWrap`;
  - `windowAutoResize`;
  - the layout part of `windowShow`.
- `Dialogs`: `createDialog`, centring, `dialogShow`, the button and text
  setters, and `dialogWaitResponse` as a step function folded over key masks.
- `Formats`: `format_elapsed_time`, and the quote/author split of
  `place_random_quote`.
- `Timer`: the phase graph of `init_phases`, plus:
  - `next_phase`, `pause_time`, `start_time` and `reset_current_time`;
  - one pass of `advance_routine` as a function of the current time;
  - one pass of `keypress_routine`;
  - `init_windows` and the start-up sequence of `main`.
- `Quotes`: the line cleaning of `quotes.py`, then the removal of duplicates
  and the sort.

Strings are `seq<char>` without the C terminator. The terminator sits at
index `|s|`. The current time, the bytes typed, the terminal size, the
settings file's lines and the quote line that the random pick reads are all
parameters.

Where the code and its documentation disagree, the model follows the code.
For example, `next_phase` moves to the long break when
`completed >= repetitions && repetitions != 0`. The test is "non-zero", not
"positive", so a negative session count sends every study phase to the long
break (`Timer.NegativeSessionsAlwaysLong`).

## Model

| member | source | states |
|---|---|---|
| CInt.CDiv | src/terminal.c:393-405 | C division truncates toward zero: the quotient's magnitude is the floor of the magnitudes' quotient, and its sign is negative exactly when the operands' signs differ |
| CInt.CRem | src/main.c:784-804 | the C remainder completes the truncating quotient back to the numerator, is smaller than the divisor in magnitude and has the numerator's sign |
| CInt.CDivNonNegative | src/main.c:784-804 | on a non-negative numerator and a positive divisor, C and Euclidean division agree |
| CInt.CDivRoundsTowardZero | src/terminal.c:1716 | `(-3) / 2` is `-1` in C, where the Euclidean quotient is `-2` |
| CInt.CDivByTwo | src/terminal.c:1716-1728 | halving in C leaves the remainder on the side of zero |
| CInt.Clamp | src/terminal.c:139-142 | `_clamp` lands in `[lo, hi]`, keeps in-range values, and maps values below and above to the bounds |
| Decimal.NatToString | src/terminal.c:828-834 | the `%i` digits of a natural number are non-empty decimal digits without a leading zero |
| Decimal.IntToString | src/terminal.c:828-834 | `%i` of a negative number is a minus sign followed by digits |
| Decimal.TwoDigits | src/main.c:784-804 | `%02d` of 0..99 is exactly two digits |
| Decimal.ParseIntToString | src/terminal.c:828-834 | reading back what `%i` prints gives the number printed, negatives included |
| Decimal.TwoDigitsValue | src/main.c:784-804 | the `%02d` digits of a natural number have that number as their value |
| Decimal.AtoiIntToString | src/main.c:508-516 | `atoi` of a `%i` numeral is the number, so a duration written on the command line is read as itself |
| Text.SplitJoin | src/main.c:784-804 | splitting a join on its separator gives the parts back when no part contains the separator |
| CStrings.CopyNBytes | src/terminal.c:156-176 | `_stringCopyNBytes` succeeds iff `0 <= start <= len` and `start < end` once -1 and ends past the string are read as the terminator; it copies `start..end` inclusive and reports `end - start` |
| CStrings.CopyNBytesInclusive | src/terminal.c:156-176 | with an end inside the string one more character is copied than the count reported, and the last one is `source[end]` |
| CStrings.CopyWhole | src/terminal.c:187-190 | `_stringCopy` (a copy from 0 to -1) copies a non-empty string whole |
| CStrings.FindFirstSpace | src/terminal.c:200-215 | `_stringFindFirstSpace` returns a space at or before the start, or -1; from -1 or past the end it finds the terminator |
| CStrings.FindFirstSpaceNearest | src/terminal.c:200-215 | the space found is the nearest one: no space lies between it and the start of the scan |
| CStrings.Pad | src/terminal.c:225-240 | `_stringPad` puts exactly `chars` spaces on each side of the unchanged source |
| CStrings.Trim | src/terminal.c:250-282 | `_stringTrim` yields a contiguous slice starting at the first non-space; an all-space string is kept as it is; a trimmed text starts with a non-space and keeps at most one trailing space |
| CStrings.TrimNoSpaces | src/terminal.c:250-282 | a string without spaces trims to itself |
| CStrings.TrimKeepsTail | src/terminal.c:250-282 | when the last two characters are not spaces only leading spaces go |
| CStrings.TrimDropsLoneLastChar | src/terminal.c:269-276 | the end scan tests `source[i-1]`, so `"x y"` trims to `"x "` |
| CStrings.PadThenTrim | src/terminal.c:225-282 | padding a word and trimming it again gives the word followed by one space, not the word |
| CStrings.TrimPadded | src/terminal.c:250-282 | any string shaped like a padded word trims to the word and one space |
| Colors.NamedStylesValid | src/terminal.h:25-71 | every named foreground, background and text code passes the guard of its own setter, and no foreground code passes the background guard or the reverse |
| Colors.CreateRGB | src/terminal.c:516-523 | `createRGBcolor` clamps each channel into 0..255 and returns in-range channels unchanged |
| Colors.CreateHSL | src/terminal.c:533-539 | `createHSLcolor` clamps hue into 0..359 and saturation and lightness into 0..99, keeping in-range values |
| Colors.CreateRGBIdempotent | src/terminal.c:516-523 | building a colour again from a built colour's channels changes nothing |
| Colors.CreateRectangle | src/terminal.c:548-554 | `createRectangle` keeps non-negative sizes and turns any negative dimension into the -1 x -1 marker |
| Escapes.Csi | src/terminal.c:828-834 | a control sequence is ESC `[`, the parameters, then the final byte |
| Escapes.ParseNumeralsOfNumerals | src/terminal.c:938-953 | a list of `%i` numerals separated by `;` reads back as the numbers |
| Escapes.ParseCsiOfCsi | src/terminal.c:828-953 | a control sequence reads back as the parameters and final byte it was built from |
| Escapes.MoveCursorToParses | src/terminal.c:828-834 | `move_cursor_to(x, y)` emits CUP naming row `y + 1` and column `x + 1` |
| Escapes.SetFg | src/terminal.c:874-879 | `set_fg` emits SGR with the code iff the code is a foreground colour, and nothing otherwise |
| Escapes.SetBg | src/terminal.c:886-891 | `set_bg` emits SGR with the code iff the code is a background colour |
| Escapes.SetTextMode | src/terminal.c:898-902 | `set_textmode` emits SGR with the mode iff it is 0..9 |
| Escapes.ResetStyles | src/terminal.c:840-846 | `reset_styles` always emits the three default SGRs, because the defaults pass their own guards |
| Escapes.SetFgRgb | src/terminal.c:938-942 | `set_fg_RGB` emits SGR 38;2;r;g;b |
| Escapes.SetBgRgb | src/terminal.c:949-953 | `set_bg_RGB` emits SGR 48;2;r;g;b |
| Escapes.RunSplit | src/terminal.c:999-1008 | a run of `a + b` cells is the run of `a` cells followed by the run of `b` |
| Escapes.EraseAt | src/terminal.c:999-1008 | `erase_at` emits nothing for a non-positive length, and otherwise starts by moving to (x, y) and writing a space |
| Escapes.EraseAtSplit | src/terminal.c:999-1008 | erasing `a + b` cells is erasing `a` cells and then the `b` cells after them |
| Escapes.BorderGlyph | src/terminal.c:339-382 | `_windowDrawBorder` writes exactly on the frame: corners at the four corners, the horizontal glyph on the top and bottom rows, the vertical glyph on the sides, nothing inside |
| Keys.AsChar | src/terminal.c:1033-1042 | a byte read into a signed `char` is negative from 128 up |
| Keys.Step | src/terminal.c:1044-1103 | ESC sets the escape state, `[` after ESC the bracket state, and `A`..`D` after both set one arrow bit and reset; any other byte resets both states and sets its plain key bit (none for a byte that names no key); every step sets at most one key bit |
| Keys.InterruptedArrowLost | src/terminal.c:1044-1103 | from any state, ESC, a byte that names no key, `[` and an arrow letter give no key at all: the byte in between resets the escape state, so the arrow is not recognised |
| Keys.PollFrom | src/terminal.c:1031-1111 | decoding stops with no key on an empty read, a 0 byte or a negative `char`, consumes at least one byte, and returns 0 or exactly one key bit |
| Keys.PollKeyBytes | src/terminal.c:1031-1111 | from any state the bytes a terminal sends for a key decode to exactly that key, consuming exactly those bytes |
| Keys.PollSkipsNoise | src/terminal.c:1031-1111 | a byte that names no key before a key's bytes is skipped and the key is still found |
| Keys.PollStopsOnHighByte | src/terminal.c:1031-1111 | a first byte from 128 up ends the poll with no key |
| Keys.ArrowSplitLost | src/terminal.c:1031-1111 | each poll starts from the reset state, so an arrow split over two polls gives no key |
| Windows.CreateWindow | src/terminal.c:575-598 | `createWindow` gives a valid 1 x 1 visible, auto-sized, wrapping, left-aligned window with padding 1 and no lines |
| Windows.SetSize | src/terminal.c:1158-1167 | `windowSetSize` ignores negative dimensions and otherwise sets both |
| Windows.SetWidth | src/terminal.c:1175-1187 | a negative width is ignored; otherwise only the width changes |
| Windows.SetHeight | src/terminal.c:1195-1207 | a negative height is ignored; otherwise only the height changes |
| Windows.SetVisibility | src/terminal.c:1215-1221 | only 0 and 1 are accepted |
| Windows.ToggleVisibility | src/terminal.c:1229-1234 | the toggle flips visibility, changes nothing else, and returns the new visibility as 0/1 |
| Windows.ToggleTwice | src/terminal.c:1229-1234 | toggling twice restores the window |
| Windows.GetSize | src/terminal.c:1242-1248 | a hidden window reports 0 x 0, and a visible one its size |
| Windows.SetPosition | src/terminal.c:1257-1269 | a coordinate passed as -1 keeps its old value; nothing but the position changes |
| Windows.MoveBy | src/terminal.c:1278-1282 | `windowMoveBy` shifts the position by the displacement and changes nothing else |
| Windows.MoveByInverse | src/terminal.c:1278-1282 | moving by a displacement and back restores the window |
| Windows.GetBottomRight | src/terminal.c:1301-1307 | the bottom-right point is the position plus the size |
| Windows.SetPadding | src/terminal.c:1315-1321 | only positive padding is accepted |
| Windows.SetAlignment | src/terminal.c:1329-1335 | only -1, 0 and 1 are accepted |
| Windows.SetAutoSize | src/terminal.c:1343-1350 | only 0 and 1 are accepted, and they set both automatic dimensions |
| Windows.SettersIdempotent | src/terminal.c:1158-1350 | each setter applied twice with the same argument is the setter applied once |
| Windows.AddLine | src/terminal.c:1469-1478 | corrected `windowAddLine`: a full buffer refuses (-1) and is unchanged; otherwise the line is appended at the end |
| Windows.AddLineAsWritten | src/terminal.c:1469-1478 | as written, the line is refused only when the count already exceeds MAX_LINES |
| Windows.AddLineAsWrittenOverflows | src/terminal.c:1469-1478 | as written, a full buffer takes an eleventh line, which no valid window holds |
| Windows.AddLineFull | src/terminal.c:1469-1478 | on a window filled to MAX_LINES the corrected operation refuses and the written one accepts |
| Windows.ChangeLine | src/terminal.c:1488-1496 | an index past the count is refused; an index inside replaces exactly that line |
| Windows.DeleteLine | src/terminal.c:1505-1516 | an index at or past the count is refused; otherwise that line goes, the later ones shift down in order and the new count is returned |
| Windows.DeleteAfterAdd | src/terminal.c:1469-1516 | deleting the line just added gives the window back |
| Windows.DeleteAllLines | src/terminal.c:1524-1528 | `windowDeleteAllLines` empties the text buffer, returns 0, and changes nothing else |
| Windows.Longest | src/terminal.c:291-304 | `_windowCalculateLongestLine` is an upper bound on every line's length and is attained by some line (0 for no lines) |
| Windows.AutoWidth | src/terminal.c:313-317 | automatic width leaves exactly the longest line between the padding and the border columns |
| Windows.AutoHeight | src/terminal.c:325-329 | automatic height is the line count plus the two border rows |
| Windows.Spacing | src/terminal.c:393-405 | right alignment ends the line at the interior's edge; centring halves the slack rounding toward zero, so an odd positive slack leaves the extra column after the line and an odd negative one before it; any other alignment gives 0 |
| Windows.SpacingCentredOverflow | src/terminal.c:393-405 | a centred line one column wider than the interior starts at column 0 of it, because C division truncates |
| Windows.SegmentOf | src/terminal.c:447-448 | a segment is copied exactly when `_stringCopyNBytes` accepts it |
| Windows.WrapFrom | src/terminal.c:428-454 | the inner wrap loop gives at least one segment, each no longer than the line |
| Windows.ShortLineOneSegment | src/terminal.c:421-461 | a line that fits the interior once trimmed becomes exactly one display line, its trimmed self |
| Windows.WrapNoSpace | src/terminal.c:435-440 | with no space from the current position on, the whole remainder is one display line; there is no hard cut at the width |
| Windows.WrapCutsAtLastSpace | src/terminal.c:428-454 | a long line is cut before the last space at or before `pos + width`, the space is dropped and scanning resumes after it |
| Windows.WrapFits | src/terminal.c:428-454 | every display line except the last is at most the interior width |
| Windows.WrapJoin | src/terminal.c:421-454 | when every segment is copied, joining the display lines with single spaces gives the trimmed line back |
| Windows.AllSegmentsShort | src/terminal.c:414-461 | lines that fit once trimmed are not broken: the segments are the trimmed lines, in order |
| Windows.FitCount | src/terminal.c:465-470 | with automatic height every wrapped line is kept; otherwise the count is the number of lines or `height - 2`, whichever is smaller, and it is negative exactly for a window under two rows without automatic height |
| Windows.KeptSegments | src/terminal.c:414-477 | the display lines the wrapper fills are the first MAX_LINES of all the lines' segments, in order, and all of them when they fit |
| Windows.WrapSlotsAsWritten | src/terminal.c:414-477 | as written, the wrapper writes one display slot per segment, with no bound |
| Windows.LinesWrap | src/terminal.c:414-477 | `_windowLinesWrap`, capped at MAX_LINES slots: the display buffer holds the kept segments over its old contents, the text buffer becomes the first `count` display lines with the source's count returned, the width and every other field stay, and an auto-height window grows to fit |
| Windows.LinesWrapJoin | src/terminal.c:414-477 | a single line too long for an auto-height window, wrapped in full, comes back when the displayed lines are joined with single spaces |
| Windows.Unbuffer | src/terminal.c:486-492 | `_windowLinesUnbuffer` copies the text buffer to the first display slots and leaves the rest |
| Windows.LinesWrapShort | src/terminal.c:414-477 | with automatic height and short lines, wrapping just trims every line and keeps them all |
| Windows.AutoResize | src/terminal.c:1399-1413 | `windowAutoResize` fits the interior to the longest line and the height to the lines, touching nothing else |
| Windows.AutoResizeTrims | src/terminal.c:1399-1413 | a window auto-sized both ways trims its lines, keeps all of them and is two rows taller than their count |
| Windows.Placements | src/terminal.c:1577-1590 | line `i` is drawn on row `y + i + 1` at column `x + padding + spacing + 1` |
| Windows.ShowSized | src/terminal.c:1541-1548 | the sizing before drawing: with automatic width the interior becomes the longest line, with automatic height the height becomes the line count plus the two border rows; a size that is not automatic and every other field are kept |
| Windows.Show | src/terminal.c:1535-1594 | a hidden window is untouched and draws nothing; a visible one is sized, then wrapped when its longest line reaches the width less both paddings (two columns more than the interior) and wrapping is on, otherwise its text buffer is copied to the display; line `i` is drawn at row `y + i + 1`, column `x + padding + spacing + 1`, with its display text; with automatic height every line lies inside the border |
| Windows.ShowAutoWidthNoWrap | src/terminal.c:1541-1563 | with automatic width no line is wrapped: each is shown as it is in the text buffer |
| Windows.ShowTriggerMismatch | src/terminal.c:1551-1552 | the wrap test uses two more columns than the wrapper, so a line one column wider than the interior is shown unwrapped |
| Windows.WrapOverflowAsWritten | src/terminal.c:414-462 | as written, ten lines that each wrap in two need twenty display slots, ten past the last |
| Windows.WrapOverflowCapped | src/terminal.c:414-477 | with the cap, the same window keeps MAX_LINES lines and stays valid |
| Dialogs.Button | src/terminal.c:1615-1657 | a button is a centred, auto-sized window with one line; the padding 0 asked for is refused, so it stays 1 |
| Dialogs.CreateDialog | src/terminal.c:1615-1657 | `createDialog` gives a 40 x 10 window, the "NO" button at `(x + 4, y + 6)`, the "YES" button at `(x + 25, y + 6)`, with "NO" active |
| Dialogs.ButtonsInsideDialog | src/terminal.c:1615-1657 | once shown, both buttons of a new dialog lie inside its border and do not overlap |
| Dialogs.DialogCenter | src/terminal.c:1681-1690 | both flags must be 0 or 1, or nothing changes |
| Dialogs.Centre | src/terminal.c:1700-1736 | each axis asked for moves the window to half the leftover space (C division); the buttons keep their offsets |
| Dialogs.CentreMargins | src/terminal.c:1712-1722 | a centred window that fits has side margins that differ by at most one column |
| Dialogs.CentreIdempotent | src/terminal.c:1700-1736 | centring twice is centring once |
| Dialogs.DialogShow | src/terminal.c:1697-1745 | centres only when asked and the terminal size is known, moving the window and both buttons by the same offset, so each button keeps its offset from the window; then the window and both buttons are the results of showing them, with only the active button reversed |
| Dialogs.ShowButton | src/terminal.c:1740-1744 | a button is shown in place with the reversed style when it is the active one and the default style otherwise |
| Dialogs.DialogSetButtons | src/terminal.c:1767-1790 | new labels padded by two spaces; the right button is resized and ends four columns before the dialog's right edge |
| Dialogs.SetButtonsTrimsRightLabel | src/terminal.c:1767-1790 | the right label is trimmed by the resize to the word and one space, while the left keeps its padding |
| Dialogs.DialogSetPadding | src/terminal.c:1798-1804 | only positive padding reaches the dialog window |
| Dialogs.AddBlankLines | src/terminal.c:1813-1822 | `n` blank lines are added until the buffer is full |
| Dialogs.DialogSetText | src/terminal.c:1813-1822 | the text comes after `v_padding` blank lines; a text with no room left is refused (this rests on the corrected `Windows.AddLine`: with `v_padding >= 10` the guard as written stores an eleventh line) |
| Dialogs.Respond | src/terminal.c:1831-1850 | bit 2 selects button 1, bit 3 button 0, tab swaps, enter answers with the active button; the active button stays 0 or 1 |
| Dialogs.WaitResponse | src/terminal.c:1831-1850 | over a run of masks the dialog answers iff an enter came, and answers with the final active button |
| Dialogs.WaitDialog | src/terminal.c:1831-1850 | the loop on the dialog itself agrees with `WaitResponse` on the active button and the answer; after any key other than enter the dialog is redrawn, so once a redraw happened exactly the active button is in reverse video; with no redraw the dialog is returned unchanged |
| Dialogs.DialogWaitResponse | src/terminal.c:1831-1850 | the dialog answers the bytes typed iff they hold an enter, with the final active button; the buttons' styles follow the active button once a key other than enter was read, and nothing changes otherwise |
| Dialogs.EventsOfKeys | src/terminal.c:1031-1111 | two keys typed in a row poll as those two keys |
| Dialogs.RightArrowThenEnterAnswersOne | src/terminal.c:1831-1850 | the right-arrow byte then enter answers 1 whatever was highlighted, and the redraw leaves the right button reversed and the left one not |
| Dialogs.EnterOnNewDialogAnswersZero | src/terminal.c:1649 | enter straight away on a new dialog answers 0 |
| Dialogs.TabTwice | src/terminal.c:1831-1850 | two tabs put the highlight back |
| Formats.ClockFields | src/main.c:784-804 | hours, minutes and seconds add back up to the elapsed time, with minutes and seconds below 60 |
| Formats.FormatElapsed | src/main.c:784-804 | under an hour the text is `MM:SS`; from one hour up to a hundred it is `HH:MM:SS` |
| Formats.ParseFormatElapsed | src/main.c:784-804 | the printed time of a non-negative count reads back as that count |
| Formats.FormatUnderAnHour | src/main.c:784-804 | under an hour only minutes and seconds are printed |
| Formats.LastIndexOf | src/main.c:884-892 | the scan finds the last `@`, or reports none |
| Formats.SplitQuote | src/main.c:873-909 | the quote and the author joined by `@` are the line, and the author holds no `@` |
| Formats.SplitQuoteJoin | src/main.c:873-909 | a quote and an author without `@` are split back apart |
| Timer.Next | src/main.c:534-561 | the `next` pointer: study goes to a break, and both breaks go to study |
| Timer.NextAfter | src/main.c:535 | study's `next_after` is the long break, which is not its `next` |
| Timer.LoadSettings | src/main.c:354-379 | the four durations are `atoi` of the first four settings lines |
| Timer.OverrideFrom | src/main.c:513-514 | arguments 1 to 4, as far as they go, replace the durations in order |
| Timer.InitDurations | src/main.c:498-523 | arguments other than "reset" override the defaults; without arguments a settings file is read; otherwise the defaults stay |
| Timer.ArgumentsOverride | src/main.c:508-516 | four numbers on the command line become the study, short break, long break and session values |
| Timer.MakePhases | src/main.c:526-564 | the three phases get their ids, durations and study flag; only study repeats, and nothing is completed |
| Timer.ResetCurrentTime | src/main.c:713-716 | the current phase starts now, and nothing else changes |
| Timer.StartTime | src/main.c:723-726 | only the pause flag is cleared |
| Timer.PauseTime | src/main.c:733-737 | pausing records the seconds the phase has run |
| Timer.NextPhase | src/main.c:744-776 | one more completion; a study phase adds to the study count and banks its time; the timer goes to `next_after` (counter reset) when the repetitions have ended, else to `next`; the phase that ended and the target are the only phases that change |
| Timer.NextPhaseKeepsCounter | src/main.c:763-767 | from a counter below the session count, `next_phase` leaves it below, so the display shows 1..sessions |
| Timer.NegativeSessionsAlwaysLong | src/main.c:763-767 | a negative session count sends every study phase to the long break |
| Timer.Visits | src/main.c:744-776 | successive phase changes never stay in the same phase |
| Timer.StudyRound | src/main.c:744-776 | from study, two changes return to study via a short break with the counter up by one, or via the long break with the counter reset |
| Timer.FourSessionCycle | src/main.c:526-564 | with four sessions from a fresh start the phases run S,b,S,b,S,b,S,B,S |
| Timer.PlaceRandomQuote | src/main.c:842-920 | the quote window holds the quote and the author of the line read; without the file, the two fixed lines are added |
| Timer.ToneAfter | src/main.c:1122-1134 | three slow beeps after study, five fast ones after a break |
| Timer.UpdateTimes | src/main.c:1114-1140 | a running tick sets the phase time to the seconds since the phase started and the study time to the banked time plus the phase time when it is a study phase; nothing about the phases changes |
| Timer.Tick | src/main.c:1103-1158 | paused, the phase's start moves so the frozen time stays; running, the times are updated and the phase changes iff its whole minutes reach the duration; on a change the study time includes the phase just ended and is banked, the target is the long break once the repetitions end and `next` otherwise, the new phase starts now, the tone is chosen by the old phase and a new quote is placed |
| Timer.PauseResumeKeepsElapsed | src/main.c:723-737 | pausing and resuming later loses no time |
| Timer.PausedTickKeepsPhase | src/main.c:1108-1112 | paused ticks never change the phase or the frozen time |
| Timer.TickKeepsCounter | src/main.c:1142-1151 | a phase change from a tick keeps the counter in range |
| Timer.Confirm | src/main.c:1212-1215 | the question dialog has padding 4, the question under one blank line, and horizontal centring |
| Timer.Ask | src/main.c:1216-1217 | the dialog's answer is 0 or 1 |
| Timer.AskIsDialogAnswer | src/main.c:1285-1286 | showing the question dialog in a terminal of any size and waiting gives `Ask`'s answer: the redraws never move the highlight |
| Timer.SetWindowsVisibility | src/main.c:929-936 | every window but the controls gets the visibility asked for |
| Timer.Lower | src/main.c:1252-1253 | A..Z are folded to lower case; other keys are kept |
| Timer.HandleSignals | src/main.c:1198-1242 | on an interrupt the loop stops iff the answer is yes; a resize only asks for a redraw |
| Timer.Skip | src/main.c:1265-1309 | after the skip dialog the timer resumes with one beep queued; a non-zero answer moves to exactly where `next_phase` would, a zero answer leaves the phases alone with the paused time recorded |
| Timer.HandleKey | src/main.c:1255-1321 | `p` toggles the pause; `s` pauses, moves on to the next phase iff the answer is yes, then resumes; `q` replaces the quote; `i` toggles the controls; each asks for a redraw; no key stops the loop |
| Timer.NextPhaseIgnoresPanels | src/main.c:744-776 | where `next_phase` goes depends only on the phases, not on the windows, the pause state or the loop flag |
| Timer.KeyIgnoresSignals | src/main.c:1192-1321 | where a key sends the timer does not depend on the windows, the loop flag or a pending redraw |
| Timer.Keypress | src/main.c:1192-1328 | the phase reached and the pause state are those the key alone gives; without a signal the pass is just the key; a yes to the exit question stops the loop and nothing else does |
| Timer.PauseTwiceResumes | src/main.c:1255-1264 | pressing `p` twice resumes with the phase where it was |
| Timer.KeyCaseInsensitive | src/main.c:1252-1253 | upper- and lower-case keys act alike |
| Timer.SkipCountsStudy | src/main.c:1290-1293 | skipping a study phase counts it as completed, exactly like reaching its end |
| Timer.InitWindows | src/main.c:575-634 | the panels' positions, padding and auto-size flags as `init_windows` sets them |
| Timer.InitSession | src/main.c:1342-1407 | start-up gives a running, unpaused session in study starting now, with the chosen durations and nothing completed |
| Timer.DefaultStart | src/main.c:498-564 | a default start runs 45/15/30 minutes with four sessions, in the order S,b,S,b,S,b,S,B,S |
| Quotes.ReplaceAll | quotes.py:17 | `str.replace` by a shorter replacement never lengthens the text, and shortens it when the pattern occurs |
| Quotes.ReplaceAbsent | quotes.py:17 | replacing a pattern that does not occur changes nothing |
| Quotes.RemoveChar | quotes.py:20-22 | replacing a character by nothing removes every occurrence |
| Quotes.NoDashLeft | quotes.py:25 | after `" -"` becomes `"@~"` no `" -"` remains |
| Quotes.Collapse | quotes.py:16-17 | after the collapse loop no two spaces are adjacent, and the line is no longer |
| Quotes.CollapseIdempotent | quotes.py:16-17 | collapsing twice is collapsing once |
| Quotes.RemoveQuotes | quotes.py:20-22 | no `"`, left or right double quotation mark remains |
| Quotes.StripBounds | quotes.py:28 | the slice `strip` keeps neither starts nor ends with white space |
| Quotes.StripOutside | quotes.py:28 | everything `strip` cuts off is white space |
| Quotes.Strip | quotes.py:28 | a stripped line neither starts nor ends with white space |
| Quotes.Clean | quotes.py:8-31 | empty lines and lines shorter than 30 characters are skipped; every other line comes out free of quotation marks and `" -"`, stripped, and no longer |
| Quotes.CleanTextClean | quotes.py:15-28 | the cleaning steps leave no quotation marks and no `" -"` |
| Quotes.CleanKeepsCleanLine | quotes.py:8-31 | a line of at least 30 characters without quotation marks, double spaces or `" -"` and without white space at its ends is written out unchanged |
| Quotes.CleanDrawsFromLine | quotes.py:15-28 | cleaning adds no character: anything in the result other than a space, `@` or `~` was in the raw line |
| Quotes.RemoveQuotesAbsent | quotes.py:19-22 | removing quotation marks from a line without any leaves it unchanged |
| Quotes.StripUnspaced | quotes.py:28 | `strip` leaves a line with no white space at either end unchanged |
| Quotes.QuoteRemovalCanJoinSpaces | quotes.py:15-22 | removing quotation marks after the collapse can bring two spaces together again |
| Quotes.BlankLineKept | quotes.py:8-31 | a line of thirty spaces passes the length test and is written as an empty line |
| Quotes.LexTransitive | quotes.py:36 | the string order `sort` uses is transitive |
| Quotes.LexTotal | quotes.py:36 | any two different strings are ordered one way or the other |
| Quotes.Insert | quotes.py:34-36 | putting a line into a strictly ascending list keeps it strictly ascending, with that line added |
| Quotes.CleanAll | quotes.py:6-31 | the loop keeps exactly the cleaned lines, in input order |
| Quotes.SortUnique | quotes.py:34-36 | `list(set(...))` then `sort()` gives a strictly ascending list holding exactly the lines given |
| Quotes.Normalise | quotes.py:1-40 | the written list is strictly ascending (so has no duplicates) and holds exactly the cleaned lines |
| Quotes.WrittenLinesClean | quotes.py:8-40 | every written quote comes from some raw line, has no quotation marks or `" -"`, and is stripped |

## Left out

- Terminal I/O is not modelled, only the strings and values it would
  produce. This covers `printf`/`fflush`, raw mode, cursor hiding,
  `get_terminal_size` (a parameter here), `read`-based
  `poll_keypress`/`await_keypress`/`await_enter`, `terminal_beep` and
  `_windowClearUnbuffered`.
- Concurrency is not modelled: the threads, the terminal mutex,
  `check_routines`, sleeps and the loop structure of `main`. Each routine is
  one step function. The signal handlers only set the flags that
  `Timer.Input` carries.
- The clock and randomness are parameters: `now` for `time(NULL)`, and the
  line the random pick reads for `random()` and the file scan.
- Time does not pass within one keypress pass: one `now` serves the whole
  pass.
- File I/O is not modelled: the save file, the settings check and save,
  `file_read_line` and `file_count_lines`. The settings file enters only as
  its lines.
- `show_routine` is not modelled: its window layout and the text it prints.
- Floating-point colour maths is not modelled (`HSLtoRGB`, `RGBtoHSL`,
  `HUEtoRGB`, `set_fg_HSL`/`set_bg_HSL`, the beep delay). Dafny here has
  no floating point.
- Memory management is not modelled (`deleteWindow`, `deleteDialog`,
  `delete_parameters`). Records are values.
- `windowGetVisibility` is called by `main.c` but not defined in the files
  modelled.
- `src/structures.h` is a stale copy of types that `main.c` defines itself.
- The file handling of `quotes.py` is not modelled: reading with
  `splitlines` and writing the output file. The model starts from the list
  of lines and ends with the sorted list.
- CStrings.Pad: requires the padded text to fit the MAX_WIDTH buffer,
  because the source writes it there without a terminator.
- CStrings.Trim: an empty string is returned as it is, because the source's
  `_stringLength` pre-increments its index and reads `s[1]`, past the
  terminator, on an empty input.
- CStrings.CopyWhole: copying an empty string is taken to give the empty
  string wherever a line is copied (`Windows.AddLine`,
  `Dialogs.AddBlankLines`, the unbuffering of the text and the short-line
  copy of the wrapper). The source's `_stringCopy` of `""` asks
  `_stringCopyNBytes` for 0 to -1, which it refuses, leaving the old bytes
  of the destination in place.
- Formats.SplitQuote: requires the line to hold an `@` and no newline,
  because otherwise the source reads uninitialised indices.
- C `int` width is not modelled: integers are unbounded. `atoi` overflow
  (for example `pomoc 3000000000`, which stores a wrapped duration),
  overflow of the elapsed-time sums and wrap-around of the counters are
  not represented, so `Timer.InitDurations` and `Timer.ArgumentsOverride`
  keep such values as given.
- CStrings.FindFirstSpace: a start past the terminator is read as the
  terminator, where the source reads stale bytes beyond it.
- Windows.AddLine: requires a line shorter than MAX_WIDTH, because the
  source's `_stringCopy` would overrun the 250-byte slot; the same holds
  for Windows.ChangeLine and Windows.AddLineAsWritten.
- Timer.Ask: requires an enter among the typed bytes, because
  `dialogWaitResponse` blocks until one arrives.
- Timer.NextAfter: defined for the study phase only, because the breaks
  never set `next_after` and `next_phase` never follows it from a break.
- Windows.ChangeLine: an index equal to the line count writes a slot past
  the text, which the model does not keep, because that slot is never
  shown. A negative index is excluded: the source writes
  `text_buffer[index]` before the array, which is undefined behaviour. A
  line of MAX_WIDTH characters or more is excluded as in Windows.AddLine.
- Windows.DeleteLine: a negative index is excluded, because the source then
  copies `text_buffer[index + 1]` into `text_buffer[index]` starting before
  the array, which is undefined behaviour.
- Windows.FitCount: the count returned is the source's, which is negative
  for a window under two rows without automatic height. The text buffer,
  a sequence here, is empty in that case; in the source it keeps a
  negative line count.
- Keys.AsChar: assumes plain `char` is signed, as on x86-64. With an
  unsigned `char` a byte from 128 up resets the state and polling goes on,
  so `Keys.PollStopsOnHighByte` and the stop on a read `<= 0` hold for a
  signed `char` only.
- Windows.LinesWrap: models the wrapper with the display slots capped at
  MAX_LINES. The uncapped code is `Windows.WrapSlotsAsWritten` (see
  Findings).
- Formats.FormatElapsed: states the two shapes only below 100 hours. Above
  that `%02d` prints more digits. The round trip
  `Formats.ParseFormatElapsed` holds for every non-negative time.

## Findings

| source | as written | input that shows it | evidently intended | confidence | as-written member | corrected member |
|---|---|---|---|---|---|---|
| src/terminal.c:1469-1478 | `windowAddLine` refuses only when `lines > MAX_LINES` | a window already holding 10 lines is given one more | refuse once `lines >= MAX_LINES`, so the 10-slot buffer never overflows | not executed | Windows.AddLineAsWrittenOverflows | Windows.AddLine |
| src/terminal.c:414-477 | `_windowLinesWrap` writes one display slot per segment with no bound | 10 lines `"ab cd"` in a 6-wide window need 20 slots of a 10-slot buffer | stop at the last display slot | not executed | Windows.WrapOverflowAsWritten | Windows.LinesWrap |

=== FILE: cint.dfy ===
/** Integer operations with the C semantics the program relies on.

    Dafny's `/` and `%` are Euclidean; C's `/` truncates toward zero and
    `%` takes the sign of the dividend.  The layout code divides possibly
    negative differences by two, so it uses `CDiv` instead of `/`.
 */
module CInt {

  function Abs(a: int): nat {
    if a < 0 then -a else a
  }

  /** C division: the quotient truncated toward zero. */
  function CDiv(a: int, b: int): (q: int)
    requires b != 0
    ensures Abs(q) * Abs(b) <= Abs(a) < (Abs(q) + 1) * Abs(b)
    ensures q != 0 ==> ((q < 0) <==> ((a < 0) != (b < 0)))
  {
    var m := Abs(a) / Abs(b);
    DivBounds(Abs(a), Abs(b));
    if (a < 0) != (b < 0) then -m else m
  }

  lemma DivBounds(n: nat, d: nat)
    requires d > 0
    ensures (n / d) * d <= n < (n / d + 1) * d
  {
    assert n == (n / d) * d + n % d;
  }

  /** C remainder: what is left after `CDiv`; it has the sign of `a`. */
  function CRem(a: int, b: int): (r: int)
    requires b != 0
    ensures CDiv(a, b) * b + r == a
    ensures Abs(r) < Abs(b)
    ensures r != 0 ==> ((r < 0) <==> (a < 0))
  {
    a - CDiv(a, b) * b
  }

  /** On non-negative operands C and Euclidean division agree. */
  lemma CDivNonNegative(a: int, b: int)
    requires a >= 0 && b > 0
    ensures CDiv(a, b) == a / b && CRem(a, b) == a % b
  {
  }

  /** On a negative odd numerator C division rounds up, not down:
      `(-3) / 2` is `-1` in C where the Euclidean quotient is `-2`. */
  lemma CDivRoundsTowardZero()
    ensures CDiv(-3, 2) == -1 && -3 / 2 == -2
  {
  }

  /** Halving a difference in C: twice the result is within one of it,
      on the side of zero. */
  lemma CDivByTwo(a: int)
    ensures a >= 0 ==> 2 * CDiv(a, 2) <= a <= 2 * CDiv(a, 2) + 1
    ensures a < 0 ==> 2 * CDiv(a, 2) - 1 <= a <= 2 * CDiv(a, 2)
  {
  }

  /** The `_clamp` helper, on integers. */
  function Clamp(v: int, lo: int, hi: int): (r: int)
    requires lo <= hi
    ensures lo <= r <= hi
    ensures lo <= v <= hi ==> r == v
    ensures v < lo ==> r == lo
    ensures v > hi ==> r == hi
  {
    if v < lo then lo else if v > hi then hi else v
  }
}

=== FILE: colors.dfy ===
/** The toolkit's value types: colours, rectangles, positions and the
    numeric style codes of the SGR control function (section 8.3.117 of
    ECMA-48). */
module Colors {

  import opened CInt

  // ---------------------------------------------------------------------
  // Style codes

  const FG_BLACK: int := 30
  const FG_RED: int := 31
  const FG_GREEN: int := 32
  const FG_YELLOW: int := 33
  const FG_BLUE: int := 34
  const FG_MAGENTA: int := 35
  const FG_CYAN: int := 36
  const FG_WHITE: int := 37
  const FG_DEFAULT: int := 39
  const FG_BRIGHT_BLACK: int := 90
  const FG_BRIGHT_RED: int := 91
  const FG_BRIGHT_GREEN: int := 92
  const FG_BRIGHT_YELLOW: int := 93
  const FG_BRIGHT_BLUE: int := 94
  const FG_BRIGHT_MAGENTA: int := 95
  const FG_BRIGHT_CYAN: int := 96
  const FG_BRIGHT_WHITE: int := 97

  const BG_BLACK: int := 40
  const BG_RED: int := 41
  const BG_GREEN: int := 42
  const BG_YELLOW: int := 43
  const BG_BLUE: int := 44
  const BG_MAGENTA: int := 45
  const BG_CYAN: int := 46
  const BG_WHITE: int := 47
  const BG_DEFAULT: int := 49
  const BG_BRIGHT_BLACK: int := 100
  const BG_BRIGHT_RED: int := 101
  const BG_BRIGHT_GREEN: int := 102
  const BG_BRIGHT_YELLOW: int := 103
  const BG_BRIGHT_BLUE: int := 104
  const BG_BRIGHT_MAGENTA: int := 105
  const BG_BRIGHT_CYAN: int := 106
  const BG_BRIGHT_WHITE: int := 107

  const TEXT_BOLD: int := 1
  const TEXT_FAINT: int := 2
  const TEXT_ITALIC: int := 3
  const TEXT_UNDERLINE: int := 4
  const TEXT_BLINKING: int := 5
  const TEXT_REVERSE: int := 7
  const TEXT_HIDDEN: int := 8
  const TEXT_STRIKETHROUGH: int := 9
  const TEXT_DEFAULT: int := 0

  const NAMED_FG: seq<int> := [
    FG_BLACK, FG_RED, FG_GREEN, FG_YELLOW, FG_BLUE, FG_MAGENTA, FG_CYAN,
    FG_WHITE, FG_DEFAULT, FG_BRIGHT_BLACK, FG_BRIGHT_RED, FG_BRIGHT_GREEN,
    FG_BRIGHT_YELLOW, FG_BRIGHT_BLUE, FG_BRIGHT_MAGENTA, FG_BRIGHT_CYAN,
    FG_BRIGHT_WHITE]
  const NAMED_BG: seq<int> := [
    BG_BLACK, BG_RED, BG_GREEN, BG_YELLOW, BG_BLUE, BG_MAGENTA, BG_CYAN,
    BG_WHITE, BG_DEFAULT, BG_BRIGHT_BLACK, BG_BRIGHT_RED, BG_BRIGHT_GREEN,
    BG_BRIGHT_YELLOW, BG_BRIGHT_BLUE, BG_BRIGHT_MAGENTA, BG_BRIGHT_CYAN,
    BG_BRIGHT_WHITE]
  const NAMED_TEXT: seq<int> := [
    TEXT_BOLD, TEXT_FAINT, TEXT_ITALIC, TEXT_UNDERLINE, TEXT_BLINKING,
    TEXT_REVERSE, TEXT_HIDDEN, TEXT_STRIKETHROUGH, TEXT_DEFAULT]

  /** The guard of `set_fg`. */
  predicate ValidFg(c: int) {
    (30 <= c <= 39) || (90 <= c <= 97)
  }

  /** The guard of `set_bg`. */
  predicate ValidBg(c: int) {
    (40 <= c <= 49) || (100 <= c <= 107)
  }

  /** The guard of `set_textmode`. */
  predicate ValidTextMode(m: int) {
    0 <= m <= 9
  }

  /** Every named code passes the guard of the setter it belongs to, and no
      foreground code is accepted as a background code or the reverse. */
  lemma NamedStylesValid()
    ensures forall i | 0 <= i < |NAMED_FG| :: ValidFg(NAMED_FG[i]) && !ValidBg(NAMED_FG[i])
    ensures forall i | 0 <= i < |NAMED_BG| :: ValidBg(NAMED_BG[i]) && !ValidFg(NAMED_BG[i])
    ensures forall i | 0 <= i < |NAMED_TEXT| :: ValidTextMode(NAMED_TEXT[i])
  {
  }

  // ---------------------------------------------------------------------
  // Colours

  datatype RGB = RGB(r: int, g: int, b: int)

  datatype HSL = HSL(h: int, s: int, l: int)

  predicate ValidRGB(c: RGB) {
    0 <= c.r <= 255 && 0 <= c.g <= 255 && 0 <= c.b <= 255
  }

  predicate ValidHSL(c: HSL) {
    0 <= c.h <= 359 && 0 <= c.s <= 99 && 0 <= c.l <= 99
  }

  /** `createRGBcolor`: each channel clamped into 0..255. */
  function CreateRGB(r: int, g: int, b: int): (c: RGB)
    ensures ValidRGB(c)
    ensures ValidRGB(RGB(r, g, b)) ==> c == RGB(r, g, b)
    ensures r < 0 ==> c.r == 0
    ensures r > 255 ==> c.r == 255
    ensures g < 0 ==> c.g == 0
    ensures g > 255 ==> c.g == 255
    ensures b < 0 ==> c.b == 0
    ensures b > 255 ==> c.b == 255
  {
    RGB(Clamp(r, 0, 255), Clamp(g, 0, 255), Clamp(b, 0, 255))
  }

  /** `createHSLcolor`: hue clamped into 0..359, the others into 0..99. */
  function CreateHSL(h: int, s: int, l: int): (c: HSL)
    ensures ValidHSL(c)
    ensures ValidHSL(HSL(h, s, l)) ==> c == HSL(h, s, l)
    ensures h < 0 ==> c.h == 0
    ensures h > 359 ==> c.h == 359
    ensures s < 0 ==> c.s == 0
    ensures s > 99 ==> c.s == 99
    ensures l < 0 ==> c.l == 0
    ensures l > 99 ==> c.l == 99
  {
    HSL(Clamp(h, 0, 359), Clamp(s, 0, 99), Clamp(l, 0, 99))
  }

  /** Building a colour from a colour's own channels gives it back. */
  lemma CreateRGBIdempotent(c: RGB)
    ensures CreateRGB(CreateRGB(c.r, c.g, c.b).r, CreateRGB(c.r, c.g, c.b).g,
                      CreateRGB(c.r, c.g, c.b).b) == CreateRGB(c.r, c.g, c.b)
  {
  }

  // ---------------------------------------------------------------------
  // Geometry

  datatype Rectangle = Rectangle(width: int, height: int)

  datatype Position = Position(x: int, y: int)

  /** `createRectangle`: a negative dimension gives the -1 x -1 marker. */
  function CreateRectangle(w: int, h: int): (r: Rectangle)
    ensures (r.width >= 0) <==> (r.height >= 0)
    ensures w >= 0 && h >= 0 ==> r.width == w && r.height == h
    ensures (w < 0 || h < 0) ==> r.width == -1 && r.height == -1
  {
    if w < 0 || h < 0 then Rectangle(-1, -1) else Rectangle(w, h)
  }
}

=== FILE: cstrings.dfy ===
/** The toolkit's own string helpers (`_stringCopyNBytes`,
    `_stringFindFirstSpace`, `_stringPad`, `_stringTrim`).

    A C string is modelled by its characters before the terminator: the
    terminator sits at index |s|, so `_stringLength(s)` is |s| and reading
    index |s| reads the terminator.  `_stringCopy(dest, s)` of a non-empty
    `s` leaves `dest` equal to `s` (`CopyWhole`).  On an empty `s` the copy
    from 0 to -1 is refused and `dest` keeps what it held; the window and
    dialog operations that copy lines treat that copy as giving the empty
    string.
 */
module CStrings {

  /** Bytes in one line buffer, terminator included. */
  const MAX_WIDTH: nat := 250

  predicate NoSpaces(s: string) {
    forall i | 0 <= i < |s| :: s[i] != ' '
  }

  predicate AllSpaces(s: string) {
    forall i | 0 <= i < |s| :: s[i] == ' '
  }

  function Spaces(n: nat): (r: string)
    ensures |r| == n && AllSpaces(r)
  {
    if n == 0 then "" else [' '] + Spaces(n - 1)
  }

  // ---------------------------------------------------------------------
  // _stringCopyNBytes

  /** Outcome of `_stringCopyNBytes`: rejected (the source returns -1 and
      writes nothing) or the copied text with the count the source returns. */
  datatype Copy = Rejected | Copied(text: string, count: int)

  /** The end index after the `-1` / past-the-end adjustment. */
  function EffectiveEnd(source: string, end: int): int {
    if end > |source| || end == -1 then |source| else end
  }

  /** Copies `source[start]` through `source[end]` INCLUSIVE; when `end` is
      the terminator's index the copy simply stops at the terminator.  It
      rejects `start < 0`, `start > len` and `start >= end`. */
  function CopyNBytes(source: string, start: int, end: int): (r: Copy)
    ensures r.Copied? <==> 0 <= start <= |source| && start < EffectiveEnd(source, end)
    ensures r.Copied? ==>
      var e := EffectiveEnd(source, end);
      && r.count == e - start
      && (e < |source| ==> r.text == source[start..e + 1])
      && (e == |source| ==> r.text == source[start..])
  {
    var e := EffectiveEnd(source, end);
    if start < 0 || start > |source| then Rejected
    else if start >= e then Rejected
    else if e < |source| then Copied(source[start..e + 1], e - start)
    else Copied(source[start..], e - start)
  }

  /** With an end inside the string, one more character is copied than the
      count reported: the end index is inclusive. */
  lemma CopyNBytesInclusive(source: string, start: int, end: int)
    requires 0 <= start < end < |source|
    ensures CopyNBytes(source, start, end).Copied?
    ensures |CopyNBytes(source, start, end).text| == CopyNBytes(source, start, end).count + 1
    ensures CopyNBytes(source, start, end).text[|CopyNBytes(source, start, end).text| - 1] == source[end]
  {
  }

  /** `_stringCopy`, i.e. a copy from 0 to -1, copies a non-empty string whole. */
  lemma CopyWhole(source: string)
    requires |source| > 0
    ensures CopyNBytes(source, 0, -1) == Copied(source, |source|)
  {
  }

  // ---------------------------------------------------------------------
  // _stringFindFirstSpace

  /** A break point: a space, or the terminator. */
  predicate IsBreak(s: string, i: int)
    requires 0 <= i <= |s|
  {
    i == |s| || s[i] == ' '
  }

  /** Scans `s[i], s[i-1], ..., s[0]` for a break point. */
  function ScanBreak(s: string, i: int): (r: int)
    requires -1 <= i <= |s|
    ensures -1 <= r <= i
    ensures r >= 0 ==> IsBreak(s, r)
    ensures forall k | r < k <= i :: k < |s| && s[k] != ' '
    decreases i + 1
  {
    if i < 0 then -1
    else if IsBreak(s, i) then i
    else ScanBreak(s, i - 1)
  }

  /** `_stringFindFirstSpace`: the nearest break point at or before `start`
      (`-1` means "from the terminator"), or -1.  The source reads past the
      terminator when `start > len`; the model starts such a scan at the
      terminator, which is itself a break point. */
  function FindFirstSpace(s: string, start: int): (r: int)
    ensures start == -1 ==> r == |s|
    ensures start < -1 ==> r == -1
    ensures start >= |s| ==> r == |s|
    ensures 0 <= start < |s| ==>
      && -1 <= r <= start
      && (r >= 0 ==> s[r] == ' ')
  {
    if 0 <= start < |s| then
      ScanBreak(s, start)
    else
      var from := if start == -1 then |s| else start;
      if from < 0 then -1
      else ScanBreak(s, if from > |s| then |s| else from)
  }

  /** The break found is the nearest one: no space lies between it and
      the scan's start. */
  lemma FindFirstSpaceNearest(s: string, start: int)
    requires 0 <= start < |s|
    ensures forall k | FindFirstSpace(s, start) < k <= start :: s[k] != ' '
  {
  }

  // ---------------------------------------------------------------------
  // _stringPad

  /** `_stringPad`: `chars` spaces on each side.  The source builds the
      result in a buffer of MAX_WIDTH bytes that it never terminates; the
      model terminates it and demands that it fit. */
  function Pad(source: string, chars: int): (r: string)
    requires 0 <= chars && 2 * chars + |source| < MAX_WIDTH
    ensures |r| == |source| + 2 * chars
    ensures r[chars..chars + |source|] == source
    ensures AllSpaces(r[..chars]) && AllSpaces(r[chars + |source|..])
  {
    Spaces(chars) + source + Spaces(chars)
  }

  // ---------------------------------------------------------------------
  // _stringTrim

  /** Index of the first non-space at or after `i`, or |s|. */
  function NonSpaceFrom(s: string, i: nat): (r: nat)
    requires i <= |s|
    ensures i <= r <= |s|
    ensures r < |s| ==> s[r] != ' '
    ensures forall k | i <= k < r :: s[k] == ' '
    decreases |s| - i
  {
    if i == |s| then i
    else if s[i] != ' ' then i
    else NonSpaceFrom(s, i + 1)
  }

  /** The start scan of `_stringTrim`: the first non-space, or 0 if none. */
  function TrimStart(s: string): (r: nat)
    ensures r <= |s|
    ensures forall k | 0 <= k < r :: s[k] == ' '
    ensures r < |s| && !AllSpaces(s) ==> s[r] != ' '
    ensures AllSpaces(s) ==> r == 0
  {
    var k := NonSpaceFrom(s, 0);
    if k == |s| then 0 else k
  }

  /** The end scan of `_stringTrim` from index `i` down to 1: the first `i`
      with `s[i-1]` not a space, or |s| if there is none. */
  function EndScan(s: string, i: int): (r: nat)
    requires i < |s|
    ensures r == |s| || (1 <= r <= i && s[r - 1] != ' ')
    ensures forall j | r <= j < i :: s[j] == ' '
    ensures r == |s| ==> forall j | 0 <= j < i :: s[j] == ' '
    decreases i
  {
    if i <= 0 then |s|
    else if s[i - 1] != ' ' then i
    else EndScan(s, i - 1)
  }

  /** `EndScan` stops at the highest `e` whose left neighbour is not a space. */
  lemma {:induction false} EndScanFinds(s: string, i: int, e: int)
    requires i < |s| && 1 <= e <= i && s[e - 1] != ' '
    requires forall j | e <= j < i :: s[j] == ' '
    ensures EndScan(s, i) == e
    decreases i
  {
    if i > e {
      assert s[i - 1] == ' ';
      EndScanFinds(s, i - 1, e);
    }
  }

  /** `_stringTrim`, applied in place as its only caller does.  The result
      starts at the first non-space and keeps at most one trailing space;
      because the end scan looks at `s[i-1]`, a last word of one character
      after a space is lost (`"x y"` becomes `"x "`).  An empty string is
      left as it is (the copy is rejected). */
  function Trim(s: string): (r: string)
    ensures |r| <= |s| && TrimStart(s) + |r| <= |s|
    ensures r == s[TrimStart(s)..TrimStart(s) + |r|]
    ensures AllSpaces(s) ==> r == s
    ensures !AllSpaces(s) ==> |r| >= 1 && r[0] != ' '
    ensures !AllSpaces(s) && |r| >= 2 ==> r[|r| - 2] != ' '
  {
    if |s| == 0 then s
    else
      var start := TrimStart(s);
      var end := EndScan(s, |s| - 1);
      TrimFacts(s);
      match CopyNBytes(s, start, end)
      case Copied(t, _) => t
      case Rejected => s
  }

  /** The copy inside `Trim` is never rejected on a non-empty string, and
      what it copies is the slice described by `Trim`'s contract. */
  lemma TrimFacts(s: string)
    requires |s| > 0
    ensures var start := TrimStart(s);
            var end := EndScan(s, |s| - 1);
            && start < end
            && (end < |s| ==> !AllSpaces(s) && s[end - 1] != ' ' && start <= end - 1)
            && (end == |s| && !AllSpaces(s) ==> start == |s| - 1)
  {
    var start := TrimStart(s);
    var end := EndScan(s, |s| - 1);
    if end < |s| {
      assert s[end - 1] != ' ';
      assert !AllSpaces(s);
    } else if !AllSpaces(s) {
      assert forall k | 0 <= k < |s| - 1 :: s[k] == ' ';
    }
  }

  /** A string without spaces trims to itself. */
  lemma TrimNoSpaces(s: string)
    requires NoSpaces(s)
    ensures Trim(s) == s
  {
    if |s| > 0 {
      assert TrimStart(s) == 0 by {
        assert s[0] != ' ';
      }
    }
  }

  /** When the last two characters are not spaces, trimming keeps the
      whole tail: only leading spaces go. */
  lemma TrimKeepsTail(s: string)
    requires |s| >= 2 && s[|s| - 1] != ' ' && s[|s| - 2] != ' '
    ensures Trim(s) == s[TrimStart(s)..]
  {
    assert EndScan(s, |s| - 1) == |s| - 1;
  }

  /** The end scan looks one character too far left: a one-letter last
      word is dropped and the space before it kept. */
  lemma TrimDropsLoneLastChar()
    ensures Trim("x y") == "x "
    ensures Trim("ab c") == "ab "
  {
    assert TrimStart("x y") == 0 by { assert "x y"[0] != ' '; }
    assert EndScan("x y", 2) == 1;
    assert TrimStart("ab c") == 0 by { assert "ab c"[0] != ' '; }
    assert EndScan("ab c", 3) == 2;
  }

  /** `Trim` in terms of its two scans, when the end scan stops inside. */
  lemma TrimBetween(s: string, a: nat, e: nat)
    requires |s| > 0 && TrimStart(s) == a && EndScan(s, |s| - 1) == e
    requires a < e < |s|
    ensures Trim(s) == s[a..e + 1]
  {
    CopyInside(s, a, e);
  }

  /** A copy that ends inside the string takes the inclusive slice. */
  lemma CopyInside(s: string, a: nat, e: nat)
    requires a < e < |s|
    ensures CopyNBytes(s, a, e) == Copied(s[a..e + 1], e - a)
  {
  }

  /** The start scan stops at the first non-space. */
  lemma TrimStartAt(s: string, a: nat)
    requires a < |s| && s[a] != ' '
    requires forall k | 0 <= k < a :: s[k] == ' '
    ensures TrimStart(s) == a
  {
    assert !AllSpaces(s);
  }

  /** Padding a word and trimming it again does not give the word back: the
      end scan keeps one of the trailing spaces. */
  lemma PadThenTrim(w: string, n: int)
    requires |w| >= 1 && NoSpaces(w)
    requires 1 <= n && 2 * n + |w| < MAX_WIDTH
    ensures Trim(Pad(w, n)) == w + " "
  {
    TrimPadded(Pad(w, n), w, n);
  }

  /** The same, for any string shaped like a padded word. */
  lemma TrimPadded(p: string, w: string, n: nat)
    requires |w| >= 1 && NoSpaces(w) && n >= 1 && |p| == |w| + 2 * n
    requires p[n..n + |w|] == w && AllSpaces(p[..n]) && AllSpaces(p[n + |w|..])
    ensures Trim(p) == w + " "
  {
    PaddedScans(p, w, n);
    TrimBetween(p, n, n + |w|);
    PaddedSlice(p, w, n);
  }

  /** The word of a padded word with the first space after it. */
  lemma PaddedSlice(p: string, w: string, n: nat)
    requires |w| >= 1 && n >= 1 && |p| == |w| + 2 * n
    requires p[n..n + |w|] == w && AllSpaces(p[n + |w|..])
    ensures p[n..n + |w| + 1] == w + " "
  {
    var e := n + |w|;
    assert p[e] == ' ' by { assert p[e] == p[e..][0]; }
    assert p[n..e + 1] == p[n..e] + [p[e]];
  }

  /** On a padded word the start scan stops at the word's first letter
      and the end scan just after its last. */
  lemma PaddedScans(p: string, w: string, n: nat)
    requires |w| >= 1 && NoSpaces(w) && n >= 1 && |p| == |w| + 2 * n
    requires p[n..n + |w|] == w && AllSpaces(p[..n]) && AllSpaces(p[n + |w|..])
    ensures TrimStart(p) == n && EndScan(p, |p| - 1) == n + |w|
  {
    PaddedShape(p, w, n);
    TrimStartAt(p, n);
    EndScanFinds(p, |p| - 1, n + |w|);
  }

  /** A padded word character by character: spaces, the word's first
      and last letters, spaces. */
  lemma PaddedShape(p: string, w: string, n: nat)
    requires |w| >= 1 && NoSpaces(w) && n >= 1 && |p| == |w| + 2 * n
    requires p[n..n + |w|] == w && AllSpaces(p[..n]) && AllSpaces(p[n + |w|..])
    ensures p[n] != ' ' && p[n + |w| - 1] != ' '
    ensures forall k | 0 <= k < n :: p[k] == ' '
    ensures forall j | n + |w| <= j < |p| :: p[j] == ' '
  {
    var e := n + |w|;
    assert p[n] == p[n..e][0] == w[0] != ' ';
    assert p[e - 1] == p[n..e][|w| - 1] == w[|w| - 1] != ' ';
    forall k | 0 <= k < n
      ensures p[k] == ' '
    {
      assert p[k] == p[..n][k];
    }
    forall j | e <= j < |p|
      ensures p[j] == ' '
    {
      assert p[j] == p[e..][j - e];
    }
  }
}

=== FILE: decimal.dfy ===
/** Decimal printing (`%i`, `%02d`) and reading (`atoi`) of integers. */
module Decimal {

  import opened Wrappers

  predicate IsDigit(c: char) {
    '0' <= c <= '9'
  }

  predicate AllDigits(s: string) {
    forall i | 0 <= i < |s| :: IsDigit(s[i])
  }

  function DigitChar(d: nat): (c: char)
    requires d < 10
    ensures IsDigit(c)
  {
    ('0' as int + d) as char
  }

  function DigitValue(c: char): (d: nat)
    requires IsDigit(c)
    ensures d < 10
  {
    c as int - '0' as int
  }

  /** The digits of `n`, most significant first, without leading zeros. */
  function NatToString(n: nat): (s: string)
    ensures |s| >= 1 && AllDigits(s)
    ensures |s| > 1 ==> s[0] != '0'
    ensures n < 10 ==> |s| == 1
    ensures 10 <= n < 100 ==> |s| == 2
  {
    if n < 10 then [DigitChar(n)]
    else NatToString(n / 10) + [DigitChar(n % 10)]
  }

  /** `printf("%i", n)`. */
  function IntToString(n: int): (s: string)
    ensures |s| >= 1
    ensures n >= 0 ==> AllDigits(s)
    ensures n < 0 ==> s[0] == '-' && AllDigits(s[1..]) && |s| >= 2
  {
    if n < 0 then "-" + NatToString(-n) else NatToString(n)
  }

  /** `printf("%02d", n)`: at least two characters, zero-padded. */
  function TwoDigits(n: int): (s: string)
    ensures |s| >= 2
    ensures 0 <= n < 100 ==> |s| == 2
    ensures n >= 0 ==> AllDigits(s)
  {
    if 0 <= n < 10 then "0" + NatToString(n) else IntToString(n)
  }

  /** The value of a string of digits (leading zeros allowed). */
  function DigitsValue(s: string): nat
    requires AllDigits(s)
  {
    if |s| == 0 then 0
    else DigitsValue(s[..|s| - 1]) * 10 + DigitValue(s[|s| - 1])
  }

  lemma {:induction false} DigitsValueOfNat(n: nat)
    ensures DigitsValue(NatToString(n)) == n
  {
    var s := NatToString(n);
    if n >= 10 {
      assert s[..|s| - 1] == NatToString(n / 10);
      DigitsValueOfNat(n / 10);
    }
  }

  /** A signed decimal, as `%i` prints it, or nothing. */
  function ParseInt(s: string): (r: Option<int>)
  {
    if |s| >= 2 && s[0] == '-' && AllDigits(s[1..]) then
      var v: int := DigitsValue(s[1..]);
      Some(-v)
    else if |s| >= 1 && AllDigits(s) then Some(DigitsValue(s))
    else None
  }

  /** `%i` output reads back as the number printed. */
  lemma ParseIntToString(n: int)
    ensures ParseInt(IntToString(n)) == Some(n)
  {
    var s := IntToString(n);
    if n < 0 {
      var t := NatToString(-n);
      assert s[1..] == t;
      DigitsValueOfNat(-n);
      var v: int := DigitsValue(t);
      assert ParseInt(s) == Some(-v);
    } else {
      assert s == NatToString(n);
      assert IsDigit(s[0]);
      DigitsValueOfNat(n);
      assert ParseInt(s) == Some(DigitsValue(s));
    }
  }

  /** `%02d` output of a non-negative number reads back as that number. */
  lemma TwoDigitsValue(n: nat)
    ensures DigitsValue(TwoDigits(n)) == n
  {
    DigitsValueOfNat(n);
    if n < 10 {
      var s := TwoDigits(n);
      assert s[..1] == "0";
    }
  }

  /** The characters `isspace` accepts in the C locale. */
  predicate IsCSpace(c: char) {
    c == ' ' || c == '\t' || c == '\n' || c == '\U{0B}' || c == '\U{0C}' || c == '\r'
  }

  /** Length of the longest prefix of `s` made of digits. */
  function DigitRun(s: string): (n: nat)
    ensures n <= |s| && AllDigits(s[..n])
    ensures n < |s| ==> !IsDigit(s[n])
  {
    if |s| == 0 || !IsDigit(s[0]) then 0
    else
      assert s[..1 + DigitRun(s[1..])] == [s[0]] + s[1..][..DigitRun(s[1..])];
      1 + DigitRun(s[1..])
  }

  /** `atoi`: skips leading white space, takes an optional sign and then as
      many digits as follow; no digits give 0.  (The C `atoi` is undefined
      on overflow; integers here are unbounded.) */
  function Atoi(s: string): int
  {
    if |s| > 0 && IsCSpace(s[0]) then Atoi(s[1..])
    else if |s| > 0 && (s[0] == '-' || s[0] == '+') then
      var t := s[1..];
      var v: int := DigitsValue(t[..DigitRun(t)]);
      if s[0] == '-' then -v else v
    else DigitsValue(s[..DigitRun(s)])
  }

  lemma DigitRunAll(s: string)
    requires AllDigits(s)
    ensures DigitRun(s) == |s|
  {
  }

  /** `atoi` reads back what `%i` prints. */
  lemma AtoiIntToString(n: int)
    ensures Atoi(IntToString(n)) == n
  {
    var s := IntToString(n);
    if n < 0 {
      var t := s[1..];
      assert t == NatToString(-n);
      DigitRunAll(t);
      assert t[..DigitRun(t)] == t;
      DigitsValueOfNat(-n);
    } else {
      DigitRunAll(s);
      assert s[..DigitRun(s)] == s;
      DigitsValueOfNat(n);
    }
  }
}

=== FILE: dialog.dfy ===
/** The yes/no dialog of the terminal toolkit: a fixed-size window with two
    one-line button windows, optional centring in the terminal, and the
    loop that answers it from key presses. */
module Dialogs {

  import opened Wrappers
  import opened CInt
  import opened CStrings
  import opened Colors
  import opened Keys
  import Windows

  const DIALOG_MAX_WIDTH: int := 40
  const DIALOG_MAX_HEIGHT: int := 10

  /** `left` is `buttons[0]` (created with "  NO  "), `right` is
      `buttons[1]` (created with "  YES  "); `active` is the index of the
      highlighted button. */
  datatype Dialog = Dialog(
    window: Windows.Window,
    left: Windows.Window,
    right: Windows.Window,
    active: int,
    centerX: bool,
    centerY: bool)

  predicate Valid(d: Dialog) {
    && Windows.Valid(d.window) && Windows.Valid(d.left) && Windows.Valid(d.right)
    && (d.active == 0 || d.active == 1)
  }

  /** A button window: centred, one line of text.  `createDialog` asks for
      padding 0, which `windowSetPadding` refuses, so the padding stays 1. */
  function Button(x: int, y: int, caption: string): (b: Windows.Window)
    requires |caption| < MAX_WIDTH
    ensures Windows.Valid(b)
    ensures b.raw == [caption] && b.position == Position(x, y)
    ensures b.alignment == 0 && b.padding == 1 && b.visible && b.autoWidth && b.autoHeight
  {
    var b := Windows.SetPadding(Windows.SetAlignment(Windows.CreateWindow(x, y), 0), 0);
    Windows.AddLine(Windows.DeleteAllLines(b).0, caption).0
  }

  /** `createDialog`: a 40 x 10 centred window with manual size, the "NO"
      button four columns in from the left and the "YES" button near the
      right, both four rows above the bottom edge; "NO" is highlighted and
      no centring is asked for. */
  function CreateDialog(x: int, y: int): (d: Dialog)
    ensures Valid(d)
    ensures d.active == 0 && !d.centerX && !d.centerY
    ensures d.window.position == Position(x, y) && d.window.raw == []
    ensures d.window.size == Rectangle(DIALOG_MAX_WIDTH, DIALOG_MAX_HEIGHT)
    ensures !d.window.autoWidth && !d.window.autoHeight && d.window.alignment == 0
    ensures d.left.raw == ["  NO  "] && d.right.raw == ["  YES  "]
    ensures d.left.position == Position(x + 4, y + DIALOG_MAX_HEIGHT - 4)
    ensures d.right.position == Position(x + DIALOG_MAX_WIDTH - 15, y + DIALOG_MAX_HEIGHT - 4)
  {
    var w := Windows.CreateWindow(x, y);
    var w := Windows.SetSize(w, DIALOG_MAX_WIDTH, DIALOG_MAX_HEIGHT);
    var w := Windows.SetAutoSize(w, 0);
    var w := Windows.SetAlignment(w, 0);
    var b1 := Button(x + 4, y - 4 + DIALOG_MAX_HEIGHT, "  NO  ");
    var b2 := Button(x - 11 - 4 + DIALOG_MAX_WIDTH, y - 4 + DIALOG_MAX_HEIGHT, "  YES  ");
    Dialog(w, b1, b2, 0, false, false)
  }

  /** Once shown, each button of a new dialog lies inside the dialog's
      border, and the two do not overlap. */
  lemma ButtonsInsideDialog(x: int, y: int)
    ensures var d := CreateDialog(x, y);
            var l := Windows.Show(d.left).0;
            var r := Windows.Show(d.right).0;
            && d.window.position.x < l.position.x
            && l.position.x + l.size.width < r.position.x
            && r.position.x + r.size.width < d.window.position.x + d.window.size.width - 1
            && d.window.position.y < l.position.y && l.position.y == r.position.y
            && l.position.y + l.size.height <= d.window.position.y + d.window.size.height - 1
            && r.position.y + r.size.height <= d.window.position.y + d.window.size.height - 1
  {
    var d := CreateDialog(x, y);
    Windows.AutoResizeTrims(d.left);
    assert Windows.Longest(d.left.raw) == 6;
    assert Windows.Longest(d.right.raw) == 7;
  }

  /** `dialogCenter`: both flags must be 0 or 1, or nothing changes. */
  function DialogCenter(d: Dialog, centerX: int, centerY: int): (r: Dialog)
    ensures Valid(d) ==> Valid(r)
    ensures !Windows.IsFlag(centerX) || !Windows.IsFlag(centerY) ==> r == d
    ensures Windows.IsFlag(centerX) && Windows.IsFlag(centerY) ==>
      r == d.(centerX := centerX == 1, centerY := centerY == 1)
  {
    if !Windows.IsFlag(centerX) || !Windows.IsFlag(centerY) then d
    else d.(centerX := centerX == 1, centerY := centerY == 1)
  }

  /** Moves the dialog window and both buttons by the same amount. */
  function MoveAll(d: Dialog, dx: int, dy: int): (r: Dialog)
    ensures Valid(d) ==> Valid(r)
  {
    d.(window := Windows.MoveBy(d.window, dx, dy),
       left := Windows.MoveBy(d.left, dx, dy),
       right := Windows.MoveBy(d.right, dx, dy))
  }

  /** The centring step of `dialogShow`: on each axis asked for, the window
      moves so that the space before it is half the space left over (C
      division), and the buttons move with it. */
  function Centre(d: Dialog, terminal: Rectangle): (r: Dialog)
    ensures Valid(d) ==> Valid(r)
    ensures r.active == d.active && r.centerX == d.centerX && r.centerY == d.centerY
    ensures r.window.size == d.window.size && r.window.visible == d.window.visible
    ensures var size := Windows.GetSize(d.window);
      && (d.centerX ==> r.window.position.x == CDiv(terminal.width - size.width, 2))
      && (!d.centerX ==> r.window.position.x == d.window.position.x)
      && (d.centerY ==> r.window.position.y == CDiv(terminal.height - size.height, 2))
      && (!d.centerY ==> r.window.position.y == d.window.position.y)
    ensures r.left.position.x - r.window.position.x == d.left.position.x - d.window.position.x
    ensures r.right.position.x - r.window.position.x == d.right.position.x - d.window.position.x
    ensures r.left.position.y - r.window.position.y == d.left.position.y - d.window.position.y
    ensures r.right.position.y - r.window.position.y == d.right.position.y - d.window.position.y
  {
    var pos := d.window.position;
    var size := Windows.GetSize(d.window);
    var dx := if d.centerX then CDiv(terminal.width - size.width, 2) - pos.x else 0;
    var dy := if d.centerY then CDiv(terminal.height - size.height, 2) - pos.y else 0;
    MoveAll(d, dx, dy)
  }

  /** A centred window that fits the terminal has margins on the two sides
      that differ by at most one column, the right one being the larger. */
  lemma CentreMargins(d: Dialog, terminal: Rectangle)
    requires d.centerX && d.window.visible && terminal.width >= d.window.size.width
    ensures var x := Centre(d, terminal).window.position.x;
            var rightMargin := terminal.width - (x + d.window.size.width);
            0 <= x <= rightMargin <= x + 1
  {
    CDivByTwo(terminal.width - d.window.size.width);
  }

  /** Centring a centred dialog again moves nothing. */
  lemma CentreIdempotent(d: Dialog, terminal: Rectangle)
    ensures Centre(Centre(d, terminal), terminal) == Centre(d, terminal)
  {
  }

  /** Whether `dialogShow` centres: some axis is asked for and the terminal
      size is known on at least one axis. */
  predicate Centres(d: Dialog, terminal: Rectangle) {
    (d.centerX || d.centerY) && (terminal.height != -1 || terminal.width != -1)
  }

  /** One button as `dialogShow` draws it: styled, then shown where it is. */
  function ShowButton(b: Windows.Window, reversed: bool): (r: Windows.Window)
    requires Windows.Valid(b)
    ensures Windows.Valid(r) && r.position == b.position
    ensures r.textStyle == (if reversed then TEXT_REVERSE else TEXT_DEFAULT)
    ensures r == Windows.Show(Windows.SetTextStyle(b, r.textStyle)).0
  {
    Windows.Show(Windows.SetTextStyle(b, if reversed then TEXT_REVERSE else TEXT_DEFAULT)).0
  }

  /** `dialogShow` with the terminal size it reads: centres when asked,
      then shows the window and both buttons, the active one in reverse
      video and the other in the default style. */
  function DialogShow(d: Dialog, terminal: Rectangle): (r: Dialog)
    requires Valid(d)
    ensures Valid(r)
    ensures r.active == d.active && r.centerX == d.centerX && r.centerY == d.centerY
    ensures Centres(d, terminal) ==> r.window.position == Centre(d, terminal).window.position
    ensures !Centres(d, terminal) ==> r.window.position == d.window.position
    ensures r.left.textStyle == TEXT_REVERSE <==> r.active == 0
    ensures r.right.textStyle == TEXT_REVERSE <==> r.active == 1
    ensures r.left.textStyle == TEXT_REVERSE || r.left.textStyle == TEXT_DEFAULT
    ensures r.right.textStyle == TEXT_REVERSE || r.right.textStyle == TEXT_DEFAULT
    ensures var c := if Centres(d, terminal) then Centre(d, terminal) else d;
      && r.left.position == c.left.position && r.right.position == c.right.position
      && r.window == Windows.Show(c.window).0
      && r.left == ShowButton(c.left, d.active == 0)
      && r.right == ShowButton(c.right, d.active == 1)
    ensures r.left.position.x - r.window.position.x == d.left.position.x - d.window.position.x
    ensures r.left.position.y - r.window.position.y == d.left.position.y - d.window.position.y
    ensures r.right.position.x - r.window.position.x == d.right.position.x - d.window.position.x
    ensures r.right.position.y - r.window.position.y == d.right.position.y - d.window.position.y
  {
    var d1 := if Centres(d, terminal) then Centre(d, terminal) else d;
    var w := Windows.Show(d1.window).0;
    var l := ShowButton(d1.left, d1.active == 0);
    var r := ShowButton(d1.right, d1.active == 1);
    d1.(window := w, left := l, right := r)
  }

  /** `dialogSetButtons`: new labels, each padded with two spaces a side;
      the right button is resized and moved so that it ends four columns
      before the dialog's right edge (unless that column is -1, which
      `windowSetPosition` reads as "keep"). */
  function DialogSetButtons(d: Dialog, yes: string, no: string): (r: Dialog)
    requires Valid(d)
    requires 4 + |yes| < MAX_WIDTH && 4 + |no| < MAX_WIDTH
    ensures Valid(r)
    ensures r.window == d.window && r.active == d.active
    ensures r.left == d.left.(raw := [Pad(yes, 2)])
    ensures r.right.position.y == d.right.position.y
    ensures r.right == Windows.AutoResize(Relabel(d.right, Pad(no, 2))).(position := r.right.position)
    ensures var x := d.window.position.x + d.window.size.width - 4 - Windows.GetSize(r.right).width;
            r.right.position.x == (if x == -1 then d.right.position.x else x)
  {
    var b := Windows.AutoResize(Relabel(d.right, Pad(no, 2)));
    var x := Windows.GetBottomRight(d.window).x - 4 - Windows.GetSize(b).width;
    d.(left := Relabel(d.left, Pad(yes, 2)), right := Windows.SetPosition(b, x, -1))
  }

  /** A button's text replaced by one line. */
  function Relabel(b: Windows.Window, caption: string): (r: Windows.Window)
    requires Windows.Valid(b) && |caption| < MAX_WIDTH
    ensures Windows.Valid(r) && r == b.(raw := [caption])
  {
    Windows.AddLine(Windows.DeleteAllLines(b).0, caption).0
  }

  /** The right button's label loses its leading padding: the resize wraps
      it, and the wrapper trims, leaving the word and one trailing space,
      while the left label keeps all four spaces. */
  lemma SetButtonsTrimsRightLabel(x: int, y: int, yes: string, no: string)
    requires 4 + |yes| < MAX_WIDTH && 4 + |no| < MAX_WIDTH
    requires |no| >= 1 && NoSpaces(no)
    ensures DialogSetButtons(CreateDialog(x, y), yes, no).right.raw == [no + " "]
    ensures DialogSetButtons(CreateDialog(x, y), yes, no).left.raw == [Pad(yes, 2)]
  {
    var d := CreateDialog(x, y);
    Windows.AutoResizeTrims(Relabel(d.right, Pad(no, 2)));
    PadThenTrim(no, 2);
  }

  /** `dialogSetPadding`: only positive padding reaches the window. */
  function DialogSetPadding(d: Dialog, padding: int): (r: Dialog)
    ensures Valid(d) ==> Valid(r)
    ensures padding <= 0 ==> r == d
    ensures padding > 0 ==> r == d.(window := d.window.(padding := padding))
  {
    if padding > 0 then d.(window := d.window.(padding := padding)) else d
  }

  /** `n` empty lines added one by one; additions past the buffer's end
      are refused. */
  function AddBlankLines(w: Windows.Window, n: int): (r: Windows.Window)
    requires Windows.Valid(w)
    ensures Windows.Valid(r)
    ensures r == w.(raw := r.raw)
    ensures var k := if n < 0 then 0 else n;
            var room := Windows.MAX_LINES - |w.raw|;
            r.raw == w.raw + seq(if k < room then k else room, _ => "")
    decreases if n < 0 then 0 else n
  {
    if n <= 0 then w
    else
      var w1 := Windows.AddLine(w, "").0;
      var r := AddBlankLines(w1, n - 1);
      assert |w.raw| < Windows.MAX_LINES ==> w1.raw == w.raw + [""];
      r
  }

  /** `dialogSetText`: the text below `vPadding` empty lines; a text that
      would not fit after the empty lines is refused. */
  function DialogSetText(d: Dialog, text: string, vPadding: int): (r: Dialog)
    requires Valid(d) && |text| < MAX_WIDTH
    ensures Valid(r)
    ensures r == d.(window := r.window) && r.window == d.window.(raw := r.window.raw)
    ensures 0 <= vPadding < Windows.MAX_LINES ==> r.window.raw == seq(vPadding, _ => "") + [text]
    ensures vPadding < 0 ==> r.window.raw == [text]
    ensures vPadding >= Windows.MAX_LINES ==> r.window.raw == seq(Windows.MAX_LINES, _ => "")
  {
    var w := AddBlankLines(Windows.DeleteAllLines(d.window).0, vPadding);
    d.(window := Windows.AddLine(w, text).0)
  }

  // ---------------------------------------------------------------------
  // Answering

  /** `mask & bit` is non-zero, for a non-negative mask and a power of two. */
  predicate HasBit(mask: int, bit: int)
    requires mask >= 0 && bit > 0
  {
    (mask / bit) % 2 == 1
  }

  /** One pass of `dialogWaitResponse` on the mask polled: the arrow the
      decoder calls "left" (the terminal's right-arrow byte 'C') selects
      button 1, the other arrow button 0, tab swaps, enter answers with the
      active button. */
  function Respond(active: int, mask: int): (r: (int, Option<int>))
    requires mask >= 0
    ensures (active == 0 || active == 1) ==> (r.0 == 0 || r.0 == 1)
    ensures r.1.Some? ==> r.1.value == r.0 == active
    ensures mask == KEY_LEFT ==> r == (1, None)
    ensures mask == KEY_RIGHT ==> r == (0, None)
    ensures mask == KEY_TAB ==> r == (if active == 0 then 1 else 0, None)
    ensures mask == KEY_ENTER ==> r == (active, Some(active))
    ensures mask == 0 ==> r == (active, None)
    ensures mask == 0 || IsKey(mask) ==> (r.1.Some? <==> mask == KEY_ENTER)
  {
    if HasBit(mask, KEY_LEFT) then (1, None)
    else if HasBit(mask, KEY_RIGHT) then (0, None)
    else if HasBit(mask, KEY_TAB) then (if active == 0 then 1 else 0, None)
    else if HasBit(mask, KEY_ENTER) then (active, Some(active))
    else (active, None)
  }

  /** `dialogWaitResponse` over a run of polled masks: the final active
      button and the answer, if enter came before the masks ran out. */
  function WaitResponse(active: int, masks: seq<int>): (r: (int, Option<int>))
    requires forall i | 0 <= i < |masks| :: masks[i] == 0 || IsKey(masks[i])
    ensures (active == 0 || active == 1) ==> (r.0 == 0 || r.0 == 1)
    ensures r.1.Some? ==> r.1.value == r.0
    ensures r.1.Some? <==> KEY_ENTER in masks
    decreases |masks|
  {
    if |masks| == 0 then (active, None)
    else
      assert masks[0] == 0 || IsKey(masks[0]);
      var (a, answer) := Respond(active, masks[0]);
      if answer.Some? then (a, answer)
      else
        assert forall i | 0 <= i < |masks| - 1 :: masks[1..][i] == masks[i + 1];
        var r := WaitResponse(a, masks[1..]);
        assert KEY_ENTER in masks <==> KEY_ENTER in masks[1..] by {
          assert masks == [masks[0]] + masks[1..];
        }
        r
  }

  /** The masks successive polls return while bytes remain. */
  function Events(input: seq<Byte>): (masks: seq<int>)
    ensures forall i | 0 <= i < |masks| :: masks[i] == 0 || IsKey(masks[i])
    decreases |input|
  {
    if |input| == 0 then []
    else
      var (mask, used) := Poll(input);
      var rest := Events(input[used..]);
      assert forall i | 1 <= i < |[mask] + rest| :: ([mask] + rest)[i] == rest[i - 1];
      [mask] + rest
  }

  /** Whether a redraw happens before the answer: some key other than
      enter is polled before the first enter. */
  predicate Redrawn(masks: seq<int>)
    decreases |masks|
  {
    |masks| > 0 && masks[0] != KEY_ENTER && (masks[0] != 0 || Redrawn(masks[1..]))
  }

  /** `dialogWaitResponse` on the dialog itself: every polled mask that is
      not zero and does not answer is followed by `dialogShow`, which may
      re-centre the dialog in `terminal` and restyles both buttons.  The
      active button and the answer are those of `WaitResponse`; once a
      redraw has happened exactly the active button is in reverse video,
      and without one the dialog is returned as it was. */
  function WaitDialog(d: Dialog, terminal: Rectangle, masks: seq<int>): (r: (Dialog, Option<int>))
    requires Valid(d)
    requires forall i | 0 <= i < |masks| :: masks[i] == 0 || IsKey(masks[i])
    ensures Valid(r.0)
    ensures (r.0.active, r.1) == WaitResponse(d.active, masks)
    ensures Redrawn(masks) ==>
      && (r.0.left.textStyle == TEXT_REVERSE <==> r.0.active == 0)
      && (r.0.right.textStyle == TEXT_REVERSE <==> r.0.active == 1)
    ensures !Redrawn(masks) ==> r.0 == d
    decreases |masks|
  {
    if |masks| == 0 then (d, None)
    else
      assert masks[0] == 0 || IsKey(masks[0]);
      var (a, answer) := Respond(d.active, masks[0]);
      if answer.Some? then (d.(active := a), answer)
      else
        assert forall i | 0 <= i < |masks| - 1 :: masks[1..][i] == masks[i + 1];
        var moved := d.(active := a);
        var shown := if masks[0] != 0 then DialogShow(moved, terminal) else moved;
        WaitDialog(shown, terminal, masks[1..])
  }

  /** The dialog's answer to the bytes typed, if they contain an enter,
      with the redraws the keys before it cause. */
  function DialogWaitResponse(d: Dialog, terminal: Rectangle, input: seq<Byte>): (r: (Dialog, Option<int>))
    requires Valid(d)
    ensures Valid(r.0)
    ensures r.1.Some? ==> r.1.value == r.0.active
    ensures r.1.Some? <==> KEY_ENTER in Events(input)
    ensures Redrawn(Events(input)) ==>
      && (r.0.left.textStyle == TEXT_REVERSE <==> r.0.active == 0)
      && (r.0.right.textStyle == TEXT_REVERSE <==> r.0.active == 1)
    ensures !Redrawn(Events(input)) ==> r.0 == d
  {
    WaitDialog(d, terminal, Events(input))
  }

  lemma EventsOfKeys(k1: int, k2: int)
    requires IsKey(k1) && IsKey(k2)
    ensures Events(KeyBytes(k1) + KeyBytes(k2)) == [k1, k2]
  {
    var input := KeyBytes(k1) + KeyBytes(k2);
    var n1 := |KeyBytes(k1)|;
    var n2 := |KeyBytes(k2)|;
    PollKeyBytes(START, k1, KeyBytes(k2));
    assert Poll(input) == (k1, n1);
    assert input[n1..] == KeyBytes(k2);
    PollKeyBytes(START, k2, []);
    assert KeyBytes(k2) + [] == KeyBytes(k2);
    assert Poll(KeyBytes(k2)) == (k2, n2);
    assert KeyBytes(k2)[n2..] == [];
    assert Events(KeyBytes(k2)) == [k2] + Events([]);
    assert Events(input) == [k1] + Events(KeyBytes(k2));
  }

  /** Pressing the terminal's right arrow and then enter answers 1 ("YES"
      on a new dialog), whatever was highlighted, and the redraw after the
      arrow leaves the right button in reverse video and the left one not. */
  lemma RightArrowThenEnterAnswersOne(d: Dialog, terminal: Rectangle)
    requires Valid(d)
    ensures var r := DialogWaitResponse(d, terminal, KeyBytes(KEY_LEFT) + KeyBytes(KEY_ENTER));
      r.1 == Some(1) && r.0.right.textStyle == TEXT_REVERSE && r.0.left.textStyle != TEXT_REVERSE
  {
    EventsOfKeys(KEY_LEFT, KEY_ENTER);
    assert [KEY_LEFT, KEY_ENTER][1..] == [KEY_ENTER];
    assert [KEY_ENTER][1..] == [];
    assert Respond(d.active, KEY_LEFT) == (1, None);
    assert WaitResponse(1, [KEY_ENTER]) == (1, Some(1));
    assert WaitResponse(d.active, [KEY_LEFT, KEY_ENTER]) == WaitResponse(1, [KEY_ENTER]);
    assert Redrawn([KEY_LEFT, KEY_ENTER]);
  }

  /** Enter straight away on a new dialog answers 0 ("NO"). */
  lemma EnterOnNewDialogAnswersZero(x: int, y: int, terminal: Rectangle)
    ensures DialogWaitResponse(CreateDialog(x, y), terminal, KeyBytes(KEY_ENTER)).1 == Some(0)
  {
    PollKeyBytes(START, KEY_ENTER, []);
    assert KeyBytes(KEY_ENTER) + [] == KeyBytes(KEY_ENTER);
    assert KeyBytes(KEY_ENTER)[1..] == [];
  }

  /** Two tabs put the highlight back where it was. */
  lemma TabTwice(active: int)
    requires active == 0 || active == 1
    ensures WaitResponse(active, [KEY_TAB, KEY_TAB]) == (active, None)
  {
    assert [KEY_TAB, KEY_TAB][1..] == [KEY_TAB];
    assert [KEY_TAB][1..] == [];
    var other := if active == 0 then 1 else 0;
    assert Respond(active, KEY_TAB) == (other, None);
    assert Respond(other, KEY_TAB) == (active, None);
    assert WaitResponse(other, [KEY_TAB]) == WaitResponse(active, []);
    assert WaitResponse(active, [KEY_TAB, KEY_TAB]) == WaitResponse(other, [KEY_TAB]);
  }
}

=== FILE: escapes.dfy ===
/** The control strings the toolkit writes: CUP (section 8.3.21 of
    ECMA-48) to move the cursor, SGR (section 8.3.117) to set styles, and
    the border glyphs.  Each builder returns the string the source prints. */
module Escapes {

  import opened Wrappers
  import opened Decimal
  import opened Text
  import opened Colors

  const ESC: char := '\U{1B}'

  /** `ESC [ p1 ; p2 ; ... final`, each parameter printed with `%i`. */
  function Csi(params: seq<int>, final: char): (r: string)
    ensures |r| >= 3 && r[0] == ESC && r[1] == '[' && r[|r| - 1] == final
  {
    [ESC, '['] + Join(Numerals(params), ';') + [final]
  }

  function Numerals(ps: seq<int>): (r: seq<string>)
    ensures |r| == |ps|
    ensures forall i | 0 <= i < |ps| :: r[i] == IntToString(ps[i])
  {
    if |ps| == 0 then [] else [IntToString(ps[0])] + Numerals(ps[1..])
  }

  /** Reads back a list of `%i` numerals. */
  function ParseNumerals(pieces: seq<string>): (r: Option<seq<int>>)
    ensures r.Some? ==> |r.value| == |pieces|
  {
    if |pieces| == 0 then Some([])
    else match (ParseInt(pieces[0]), ParseNumerals(pieces[1..]))
      case (Some(v), Some(vs)) => Some([v] + vs)
      case _ => None
  }

  /** Reads a control sequence back into its parameters and final byte. */
  function ParseCsi(s: string): Option<(seq<int>, char)>
  {
    if |s| >= 3 && s[0] == ESC && s[1] == '[' then
      match ParseNumerals(Split(s[2..|s| - 1], ';'))
      case Some(ps) => Some((ps, s[|s| - 1]))
      case None => None
    else None
  }

  lemma NumeralHasNoSemicolon(n: int)
    ensures ';' !in IntToString(n)
  {
    var s := IntToString(n);
    if n < 0 {
      assert forall i | 1 <= i < |s| :: s[i] == s[1..][i - 1];
    }
  }

  lemma {:induction false} ParseNumeralsOfNumerals(ps: seq<int>)
    ensures ParseNumerals(Numerals(ps)) == Some(ps)
  {
    if |ps| > 0 {
      ParseIntToString(ps[0]);
      ParseNumeralsOfNumerals(ps[1..]);
      assert Numerals(ps)[1..] == Numerals(ps[1..]);
      assert ps == [ps[0]] + ps[1..];
    }
  }

  /** A control sequence with at least one parameter reads back as the
      parameters and final byte it was built from. */
  lemma ParseCsiOfCsi(ps: seq<int>, final: char)
    requires |ps| >= 1
    ensures ParseCsi(Csi(ps, final)) == Some((ps, final))
  {
    var parts := Numerals(ps);
    forall i | 0 <= i < |parts|
      ensures ';' !in parts[i]
    {
      NumeralHasNoSemicolon(ps[i]);
    }
    SplitJoin(parts, ';');
    var s := Csi(ps, final);
    assert s[2..|s| - 1] == Join(parts, ';');
    ParseNumeralsOfNumerals(ps);
  }

  // ---------------------------------------------------------------------
  // Builders

  /** `move_cursor_to`: CUP with the one-based row and column of the
      zero-based cell (x, y). */
  function MoveCursorTo(x: int, y: int): (r: string)
    ensures |r| >= 3 && r[0] == ESC && r[|r| - 1] == 'H'
  {
    Csi([y + 1, x + 1], 'H')
  }

  /** The cursor movement names row y + 1 and column x + 1. */
  lemma MoveCursorToParses(x: int, y: int)
    ensures ParseCsi(MoveCursorTo(x, y)) == Some(([y + 1, x + 1], 'H'))
  {
    ParseCsiOfCsi([y + 1, x + 1], 'H');
  }

  /** `set_fg`: SGR with the code, only when the code is a foreground colour. */
  function SetFg(color: int): (r: string)
    ensures r != "" <==> ValidFg(color)
    ensures ValidFg(color) ==> ParseCsi(r) == Some(([color], 'm'))
  {
    if ValidFg(color) then Sgr(color) else ""
  }

  /** `set_bg`: SGR with the code, only when the code is a background colour. */
  function SetBg(color: int): (r: string)
    ensures r != "" <==> ValidBg(color)
    ensures ValidBg(color) ==> ParseCsi(r) == Some(([color], 'm'))
  {
    if ValidBg(color) then Sgr(color) else ""
  }

  /** `set_textmode`: SGR with the mode, only when it is 0..9. */
  function SetTextMode(mode: int): (r: string)
    ensures r != "" <==> ValidTextMode(mode)
    ensures ValidTextMode(mode) ==> ParseCsi(r) == Some(([mode], 'm'))
  {
    if ValidTextMode(mode) then Sgr(mode) else ""
  }

  function Sgr(code: int): (r: string)
    ensures r != ""
    ensures ParseCsi(r) == Some(([code], 'm'))
  {
    ParseCsiOfCsi([code], 'm');
    Csi([code], 'm')
  }

  /** `reset_styles`: the three resets always emit something, because the
      default codes pass their own guards. */
  function ResetStyles(): (r: string)
    ensures r == Sgr(FG_DEFAULT) + Sgr(BG_DEFAULT) + Sgr(TEXT_DEFAULT)
  {
    SetFg(FG_DEFAULT) + SetBg(BG_DEFAULT) + SetTextMode(TEXT_DEFAULT)
  }

  /** `set_fg_RGB`: SGR 38;2;R;G;B (direct colour). */
  function SetFgRgb(c: RGB): (r: string)
    ensures ParseCsi(r) == Some(([38, 2, c.r, c.g, c.b], 'm'))
  {
    ParseCsiOfCsi([38, 2, c.r, c.g, c.b], 'm');
    Csi([38, 2, c.r, c.g, c.b], 'm')
  }

  /** `set_bg_RGB`: SGR 48;2;R;G;B (direct colour). */
  function SetBgRgb(c: RGB): (r: string)
    ensures ParseCsi(r) == Some(([48, 2, c.r, c.g, c.b], 'm'))
  {
    ParseCsiOfCsi([48, 2, c.r, c.g, c.b], 'm');
    Csi([48, 2, c.r, c.g, c.b], 'm')
  }

  /** The strings `cell(x), cell(x + 1), ..., cell(x + n - 1)`, concatenated. */
  function Run(cell: int -> string, x: int, n: int): (r: string)
    ensures n <= 0 ==> r == ""
    decreases n
  {
    if n <= 0 then "" else cell(x) + Run(cell, x + 1, n - 1)
  }

  /** A run of `a + b` cells is a run of `a` cells followed by a run of `b`. */
  lemma {:induction false} RunSplit(cell: int -> string, x: int, a: nat, b: nat)
    ensures Run(cell, x, a + b) == Run(cell, x, a) + Run(cell, x + a, b)
    decreases a
  {
    if a > 0 {
      RunSplit(cell, x + 1, a - 1, b);
      assert cell(x) + (Run(cell, x + 1, a - 1) + Run(cell, x + a, b))
          == (cell(x) + Run(cell, x + 1, a - 1)) + Run(cell, x + a, b);
    }
  }

  /** One step of `erase_at`: move to (x, y) and write a space. */
  function EraseCell(x: int, y: int): (r: string)
    ensures |r| >= 2 && r[0] == ESC && r[|r| - 1] == ' '
  {
    MoveCursorTo(x, y) + " "
  }

  /** `erase_at`: for each of `length` cells from (x, y) rightwards, move
      there and write a space. */
  function EraseAt(x: int, y: int, length: int): (r: string)
    ensures length <= 0 ==> r == ""
    ensures length > 0 ==> |r| >= |EraseCell(x, y)| && r[..|EraseCell(x, y)|] == EraseCell(x, y)
  {
    var r := Run(c => EraseCell(c, y), x, length);
    if length > 0 then
      assert r == EraseCell(x, y) + Run(c => EraseCell(c, y), x + 1, length - 1);
      r
    else r
  }

  /** Erasing a run is erasing its two halves one after the other. */
  lemma EraseAtSplit(x: int, y: int, a: nat, b: nat)
    ensures EraseAt(x, y, a + b) == EraseAt(x, y, a) + EraseAt(x + a, y, b)
  {
    RunSplit(c => EraseCell(c, y), x, a, b);
  }

  // ---------------------------------------------------------------------
  // Border

  const TOP_LEFT: char := '\U{250C}'
  const TOP_RIGHT: char := '\U{2510}'
  const BOTTOM_LEFT: char := '\U{2514}'
  const BOTTOM_RIGHT: char := '\U{2518}'
  const HORIZONTAL: char := '\U{2500}'
  const VERTICAL: char := '\U{2502}'

  predicate IsCorner(c: char) {
    c == TOP_LEFT || c == TOP_RIGHT || c == BOTTOM_LEFT || c == BOTTOM_RIGHT
  }

  /** The glyph `_windowDrawBorder` writes at cell (x, y) of a width x
      height window, relative to its top-left corner; None where it writes
      nothing.  The top row wins over the bottom row, and both over the
      side columns. */
  function BorderGlyph(x: int, y: int, width: int, height: int): (g: Option<char>)
    requires 0 <= x < width && 0 <= y < height
    ensures g.Some? <==> (x == 0 || x == width - 1 || y == 0 || y == height - 1)
    ensures g.Some? && IsCorner(g.value) <==> (x == 0 || x == width - 1) && (y == 0 || y == height - 1)
    ensures g == Some(HORIZONTAL) <==> (y == 0 || y == height - 1) && 0 < x < width - 1
    ensures g == Some(VERTICAL) <==> 0 < y < height - 1 && (x == 0 || x == width - 1)
  {
    if y == 0 then
      Some(if x == 0 then TOP_LEFT else if x == width - 1 then TOP_RIGHT else HORIZONTAL)
    else if y == height - 1 then
      Some(if x == 0 then BOTTOM_LEFT else if x == width - 1 then BOTTOM_RIGHT else HORIZONTAL)
    else if x == 0 || x == width - 1 then Some(VERTICAL)
    else None
  }
}

=== FILE: formats.dfy ===
/** The text the timer builds for its windows: elapsed times as
    `HH:MM:SS` or `MM:SS`, and a stored quote line split into the quote
    and its author. */
module Formats {

  import opened Wrappers
  import opened CInt
  import opened Decimal
  import opened Text

  const BUFLEN: int := 250

  /** The three fields `format_elapsed_time` prints, each a C quotient or
      remainder of the elapsed seconds. */
  function Hours(elapsed: int): int {
    CDiv(elapsed, 3600)
  }

  function Minutes(elapsed: int): int {
    CDiv(CRem(elapsed, 3600), 60)
  }

  function Seconds(elapsed: int): int {
    CRem(elapsed, 60)
  }

  /** For a non-negative time the three fields are its digits in base
      sixty: they add back up to it, and minutes and seconds are below 60. */
  lemma ClockFields(elapsed: int)
    requires elapsed >= 0
    ensures Hours(elapsed) * 3600 + Minutes(elapsed) * 60 + Seconds(elapsed) == elapsed
    ensures 0 <= Hours(elapsed) && 0 <= Minutes(elapsed) < 60 && 0 <= Seconds(elapsed) < 60
  {
    var r := elapsed % 3600;
    CDivNonNegative(elapsed, 3600);
    CDivNonNegative(r, 60);
    CDivNonNegative(elapsed, 60);
    SecondsOfRemainder(elapsed);
    assert Hours(elapsed) == elapsed / 3600;
    assert Minutes(elapsed) == r / 60;
    assert Seconds(elapsed) == r % 60;
  }

  /** Seconds survive taking whole hours away. */
  lemma SecondsOfRemainder(e: nat)
    ensures e % 60 == (e % 3600) % 60
    ensures (e % 3600) / 60 * 60 + (e % 3600) % 60 == e % 3600
    ensures e / 3600 * 3600 + e % 3600 == e
  {
    var q, r := e / 3600, e % 3600;
    assert e == (q * 60) * 60 + r;
  }

  /** `format_elapsed_time`: `HH:MM:SS` when there are whole hours,
      otherwise `MM:SS`, each field printed with `%02d`. */
  function FormatElapsed(elapsed: int): (s: string)
    ensures 0 <= elapsed < 3600 ==> |s| == 5 && s[2] == ':'
    ensures 3600 <= elapsed < 360000 ==> |s| == 8 && s[2] == ':' && s[5] == ':'
  {
    var h := Hours(elapsed);
    var m := Minutes(elapsed);
    var sec := Seconds(elapsed);
    if h > 0 then TwoDigits(h) + ":" + TwoDigits(m) + ":" + TwoDigits(sec)
    else TwoDigits(m) + ":" + TwoDigits(sec)
  }

  /** The printed time of a non-negative count reads back as that count. */
  lemma ParseFormatElapsed(elapsed: int)
    requires elapsed >= 0
    ensures ParseElapsed(FormatElapsed(elapsed)) == Some(elapsed)
  {
    ClockFields(elapsed);
    ParseFormatted(Hours(elapsed), Minutes(elapsed), Seconds(elapsed));
  }

  /** Reads `MM:SS` or `HH:MM:SS` back into seconds. */
  function ParseElapsed(s: string): (r: Option<int>)
    ensures r.Some? ==> r.value >= 0
  {
    ParseFields(Split(s, ':'))
  }

  /** Two or three non-empty digit fields, most significant first. */
  function ParseFields(parts: seq<string>): (r: Option<int>)
    ensures r.Some? ==> r.value >= 0
  {
    if |parts| == 2 && |parts[0]| > 0 && |parts[1]| > 0 && AllDigits(parts[0]) && AllDigits(parts[1]) then
      Some(DigitsValue(parts[0]) * 60 + DigitsValue(parts[1]))
    else if |parts| == 3 && |parts[0]| > 0 && |parts[1]| > 0 && |parts[2]| > 0
         && AllDigits(parts[0]) && AllDigits(parts[1]) && AllDigits(parts[2]) then
      Some(DigitsValue(parts[0]) * 3600 + DigitsValue(parts[1]) * 60 + DigitsValue(parts[2]))
    else None
  }

  lemma DigitsHaveNoColon(s: string)
    requires AllDigits(s)
    ensures ':' !in s
  {
  }

  /** Both printed shapes read back as the time they print. */
  lemma ParseFormatted(h: int, m: int, sec: int)
    requires 0 <= h && 0 <= m < 60 && 0 <= sec < 60
    ensures h > 0 ==> ParseElapsed(TwoDigits(h) + ":" + TwoDigits(m) + ":" + TwoDigits(sec))
                      == Some(h * 3600 + m * 60 + sec)
    ensures ParseElapsed(TwoDigits(m) + ":" + TwoDigits(sec)) == Some(m * 60 + sec)
  {
    ParseTwoFields(m, sec);
    if h > 0 {
      ParseThreeFields(h, m, sec);
    }
  }

  lemma ParseTwoFields(m: int, sec: int)
    requires 0 <= m < 60 && 0 <= sec < 60
    ensures ParseElapsed(TwoDigits(m) + ":" + TwoDigits(sec)) == Some(m * 60 + sec)
  {
    TwoDigitsValue(m);
    TwoDigitsValue(sec);
    ParseDigitFields2(TwoDigits(m), TwoDigits(sec));
  }

  lemma ParseThreeFields(h: int, m: int, sec: int)
    requires 0 <= h && 0 <= m < 60 && 0 <= sec < 60
    ensures ParseElapsed(TwoDigits(h) + ":" + TwoDigits(m) + ":" + TwoDigits(sec))
            == Some(h * 3600 + m * 60 + sec)
  {
    TwoDigitsValue(h);
    TwoDigitsValue(m);
    TwoDigitsValue(sec);
    ParseDigitFields3(TwoDigits(h), TwoDigits(m), TwoDigits(sec));
  }

  /** Two digit fields joined by a colon read as minutes and seconds. */
  lemma ParseDigitFields2(b: string, c: string)
    requires |b| > 0 && |c| > 0 && AllDigits(b) && AllDigits(c)
    ensures ParseElapsed(b + ":" + c) == Some(DigitsValue(b) * 60 + DigitsValue(c))
  {
    DigitsHaveNoColon(b);
    DigitsHaveNoColon(c);
    SplitJoin([b, c], ':');
    assert Split(b + ":" + c, ':') == [b, c];
  }

  /** Three digit fields joined by colons read as hours, minutes and
      seconds. */
  lemma ParseDigitFields3(a: string, b: string, c: string)
    requires |a| > 0 && |b| > 0 && |c| > 0 && AllDigits(a) && AllDigits(b) && AllDigits(c)
    ensures ParseElapsed(a + ":" + b + ":" + c)
            == Some(DigitsValue(a) * 3600 + DigitsValue(b) * 60 + DigitsValue(c))
  {
    ParseFieldsThree(a, b, c);
    SplitThree(a, b, c);
  }

  lemma ParseFieldsThree(a: string, b: string, c: string)
    requires |a| > 0 && |b| > 0 && |c| > 0 && AllDigits(a) && AllDigits(b) && AllDigits(c)
    ensures ParseFields([a, b, c]) == Some(DigitsValue(a) * 3600 + DigitsValue(b) * 60 + DigitsValue(c))
  {
    var p := [a, b, c];
    assert |p| == 3 && p[0] == a && p[1] == b && p[2] == c;
  }

  lemma SplitThree(a: string, b: string, c: string)
    requires AllDigits(a) && AllDigits(b) && AllDigits(c)
    ensures Split(a + ":" + b + ":" + c, ':') == [a, b, c]
  {
    DigitsHaveNoColon(a);
    DigitsHaveNoColon(b);
    DigitsHaveNoColon(c);
    JoinThree(a, b, c, ':');
    SplitJoin([a, b, c], ':');
  }

  /** Under an hour only minutes and seconds are printed. */
  lemma FormatUnderAnHour(elapsed: int)
    requires 0 <= elapsed < 3600
    ensures FormatElapsed(elapsed) == TwoDigits(elapsed / 60) + ":" + TwoDigits(elapsed % 60)
  {
    CDivNonNegative(elapsed, 3600);
    CDivNonNegative(elapsed, 60);
  }

  // ---------------------------------------------------------------------
  // Quote lines

  /** Index of the last `c` in `s`, or -1 when there is none. */
  function LastIndexOf(s: string, c: char): (i: int)
    ensures -1 <= i < |s|
    ensures i >= 0 ==> s[i] == c
    ensures forall k | i < k < |s| :: s[k] != c
    ensures i == -1 <==> c !in s
  {
    if |s| == 0 then -1
    else if s[|s| - 1] == c then |s| - 1
    else LastIndexOf(s[..|s| - 1], c)
  }

  /** The split in `place_random_quote` of one stored line (read by
      `fgets`, so it must fit the buffer with its newline, and it must
      hold an `@`): the quote is everything before the last `@`, the
      author everything after it up to the newline. */
  function SplitQuote(line: string): (r: (string, string))
    requires '@' in line && '\n' !in line && |line| + 1 < BUFLEN
    ensures r.0 + "@" + r.1 == line
    ensures '@' !in r.1
  {
    var at := LastIndexOf(line, '@');
    assert line == line[..at] + "@" + line[at + 1..];
    (line[..at], line[at + 1..])
  }

  /** A quote and an author without `@` are split back apart. */
  lemma SplitQuoteJoin(quote: string, author: string)
    requires '@' !in author && '\n' !in quote && '\n' !in author
    requires |quote| + |author| + 2 < BUFLEN
    ensures SplitQuote(quote + "@" + author) == (quote, author)
  {
    var line := quote + "@" + author;
    var at := LastIndexOf(line, '@');
    assert line[|quote|] == '@';
    assert at == |quote|;
    assert line[..at] == quote;
    assert line[at + 1..] == author;
  }
}

=== FILE: keys.dfy ===
/** The special-key decoder of `poll_special_keypress`: a small state
    machine over the bytes read from the terminal in raw mode.  The input
    is the sequence of bytes waiting to be read; the end of that sequence
    stands for a read that returns nothing. */
module Keys {

  type Byte = b: int | 0 <= b < 256

  // The bits of the returned mask, least significant first.
  const KEY_UP: int := 1
  const KEY_DOWN: int := 2
  const KEY_LEFT: int := 4
  const KEY_RIGHT: int := 8
  const KEY_TAB: int := 16
  const KEY_ENTER: int := 32
  const KEY_SPACE: int := 64
  const KEY_BACKSPACE: int := 128

  const ESCAPE: int := 27
  const BRACKET: int := 91

  /** One of the eight key bits. */
  predicate IsKey(mask: int) {
    mask == KEY_UP || mask == KEY_DOWN || mask == KEY_LEFT || mask == KEY_RIGHT
    || mask == KEY_TAB || mask == KEY_ENTER || mask == KEY_SPACE || mask == KEY_BACKSPACE
  }

  /** The two status bits: an escape has been seen, then a bracket. */
  datatype Decoder = Decoder(escape: bool, bracket: bool)

  const START: Decoder := Decoder(false, false)

  /** A byte as the C `char` holding it reads: bytes from 128 up are
      negative. */
  function AsChar(b: Byte): (c: int)
    ensures -128 <= c < 128
    ensures b < 128 ==> c == b
    ensures b >= 128 ==> c < 0
  {
    if b < 128 then b else b - 256
  }

  /** The arrow a final byte 'A'..'D' names. */
  function ArrowBit(key: int): (bit: int)
    requires 65 <= key <= 68
    ensures IsKey(bit) && bit <= KEY_RIGHT
  {
    if key == 65 then KEY_UP
    else if key == 66 then KEY_DOWN
    else if key == 67 then KEY_LEFT
    else KEY_RIGHT
  }

  /** The key an unescaped byte names, or 0. */
  function PlainBit(key: int): (bit: int)
    ensures bit == 0 || (IsKey(bit) && bit >= KEY_TAB)
    ensures bit != 0 <==> key == 9 || key == 10 || key == 32 || key == 127
  {
    if key == 9 then KEY_TAB
    else if key == 10 then KEY_ENTER
    else if key == 32 then KEY_SPACE
    else if key == 127 then KEY_BACKSPACE
    else 0
  }

  /** One pass of the loop body on a positive byte: the new state and the
      mask it sets. */
  function Step(d: Decoder, key: int): (r: (Decoder, int))
    requires 0 < key < 128
    ensures r.1 == 0 || IsKey(r.1)
    ensures r.1 != 0 ==> r.0 == START
    ensures key == ESCAPE ==> r == (d.(escape := true), 0)
    ensures key == BRACKET && d.escape ==> r == (d.(bracket := true), 0)
    ensures 65 <= key <= 68 && d.bracket ==> r == (START, ArrowBit(key))
    ensures !(key == ESCAPE || (key == BRACKET && d.escape) || (65 <= key <= 68 && d.bracket)) ==>
      r == (START, PlainBit(key))
  {
    if key == ESCAPE then (d.(escape := true), 0)
    else if key == BRACKET && d.escape then (d.(bracket := true), 0)
    else if 65 <= key <= 68 && d.bracket then (START, ArrowBit(key))
    else (START, PlainBit(key))
  }

  /** `poll_special_keypress` from state `d`: the mask it returns and how
      many bytes it consumed.  A read of nothing, of a 0 byte or of a byte
      the signed `char` makes negative ends the loop with no key; the loop
      also ends at the first byte that sets a bit. */
  function PollFrom(d: Decoder, input: seq<Byte>): (r: (int, nat))
    ensures r.1 <= |input|
    ensures r.0 == 0 || IsKey(r.0)
    ensures |input| == 0 ==> r == (0, 0)
    ensures |input| > 0 && AsChar(input[0]) <= 0 ==> r == (0, 1)
    ensures |input| > 0 ==> r.1 >= 1
    decreases |input|
  {
    if |input| == 0 then (0, 0)
    else
      var key := AsChar(input[0]);
      if key <= 0 then (0, 1)
      else
        var (d', bit) := Step(d, key);
        if bit != 0 then (bit, 1)
        else
          var (mask, used) := PollFrom(d', input[1..]);
          (mask, used + 1)
  }

  /** `poll_special_keypress` as called: from the reset state. */
  function Poll(input: seq<Byte>): (r: (int, nat))
    ensures r.0 == 0 || IsKey(r.0)
    ensures r.1 <= |input|
    ensures |input| > 0 ==> r.1 >= 1
  {
    PollFrom(START, input)
  }

  /** The bytes a terminal sends for a key. */
  function KeyBytes(key: int): (bs: seq<Byte>)
    requires IsKey(key)
    ensures 1 <= |bs| <= 3
  {
    if key == KEY_UP then [27, 91, 65]
    else if key == KEY_DOWN then [27, 91, 66]
    else if key == KEY_LEFT then [27, 91, 67]
    else if key == KEY_RIGHT then [27, 91, 68]
    else if key == KEY_TAB then [9]
    else if key == KEY_ENTER then [10]
    else if key == KEY_SPACE then [32]
    else [127]
  }

  /** Decoding inverts encoding: from any state, the bytes of a key decode
      to exactly that key, consuming exactly its bytes and nothing after. */
  lemma PollKeyBytes(d: Decoder, key: int, rest: seq<Byte>)
    requires IsKey(key)
    ensures PollFrom(d, KeyBytes(key) + rest) == (key, |KeyBytes(key)|)
  {
    var bs := KeyBytes(key) + rest;
    if |KeyBytes(key)| == 3 {
      var d1 := d.(escape := true);
      var d2 := d1.(bracket := true);
      assert bs[1..] == [91, KeyBytes(key)[2]] + rest;
      assert bs[1..][1..] == [KeyBytes(key)[2]] + rest;
      assert PollFrom(d2, bs[1..][1..]) == (key, 1);
      assert PollFrom(d1, bs[1..]) == (key, 2);
    }
  }

  /** A byte that sets no bit from any state: positive, not one of the
      plain keys and not an arrow's final byte. */
  predicate IsNoise(b: Byte) {
    0 < b < 128 && PlainBit(b) == 0 && !(65 <= b <= 68)
  }

  /** Noise before a key is skipped: the key is still found, one byte
      later. */
  lemma PollSkipsNoise(d: Decoder, b: Byte, key: int, rest: seq<Byte>)
    requires IsNoise(b) && IsKey(key)
    ensures PollFrom(d, [b] + KeyBytes(key) + rest) == (key, |KeyBytes(key)| + 1)
  {
    var d' := Step(d, b).0;
    assert ([b] + KeyBytes(key) + rest)[1..] == KeyBytes(key) + rest;
    PollKeyBytes(d', key, rest);
  }

  /** Any other byte between the escape and the bracket resets the state,
      so the rest of the arrow sequence is read as plain bytes that name no
      key. */
  lemma InterruptedArrowLost(d: Decoder, b: Byte, final: Byte)
    requires IsNoise(b) && b != ESCAPE && b != BRACKET
    requires 65 <= final <= 68
    ensures PollFrom(d, [ESCAPE, b, BRACKET, final]) == (0, 4)
  {
    var bs: seq<Byte> := [ESCAPE, b, BRACKET, final];
    assert bs[1..] == [b, BRACKET, final];
    assert bs[1..][1..] == [BRACKET, final];
    assert bs[1..][1..][1..] == [final];
    assert PollFrom(START, [final]) == (0, 1);
    assert PollFrom(START, bs[1..][1..]) == (0, 2);
    assert PollFrom(START, bs[1..]) == (0, 3);
  }

  /** A non-ASCII byte first gives no key: the signed `char` reads it as
      negative and the loop stops. */
  lemma PollStopsOnHighByte(b: Byte, rest: seq<Byte>)
    requires b >= 128
    ensures Poll([b] + rest) == (0, 1)
  {
  }

  /** Each poll starts from the reset state, so an arrow whose bytes are
      split over two polls is lost: the prefix gives no key, and the final
      byte on its own is an ordinary letter. */
  lemma ArrowSplitLost()
    ensures Poll([27, 91]) == (0, 2)
    ensures Poll([65]) == (0, 1)
  {
    assert [27, 91][1..] == [91];
    assert [65][1..] == [];
  }
}

=== FILE: quotes.dfy ===
/** The quote-file preparation script: each raw line is cleaned (double
    spaces collapsed, quotation marks removed, the " -" before the author
    turned into the "@~" separator the timer splits on, surrounding white
    space stripped), short lines are dropped, and the cleaned lines are
    written without duplicates in ascending order. */
module Quotes {

  import opened Wrappers

  /** Lines shorter than this, before any cleaning, are skipped. */
  const MIN_LENGTH: nat := 30

  const LEFT_QUOTE: char := '\U{201C}'
  const RIGHT_QUOTE: char := '\U{201D}'

  // ---------------------------------------------------------------------
  // Substrings and replacement

  /** `pat in s` on strings. */
  predicate Contains(s: string, pat: string)
    decreases |s|
  {
    |s| >= |pat| && (s[..|pat|] == pat || Contains(s[1..], pat))
  }

  /** `s.replace(pat, rep)`: occurrences replaced left to right, without
      overlap. */
  function ReplaceAll(s: string, pat: string, rep: string): (r: string)
    requires |pat| > 0
    ensures |rep| <= |pat| ==> |r| <= |s|
    ensures |rep| < |pat| && Contains(s, pat) ==> |r| < |s|
    decreases |s|
  {
    if |s| < |pat| then s
    else if s[..|pat|] == pat then rep + ReplaceAll(s[|pat|..], pat, rep)
    else [s[0]] + ReplaceAll(s[1..], pat, rep)
  }

  /** Replacing a pattern that does not occur changes nothing. */
  lemma {:induction false} ReplaceAbsent(s: string, pat: string, rep: string)
    requires |pat| > 0 && !Contains(s, pat)
    ensures ReplaceAll(s, pat, rep) == s
    decreases |s|
  {
    if |s| >= |pat| {
      ReplaceAbsent(s[1..], pat, rep);
      assert [s[0]] + s[1..] == s;
    }
  }

  /** A character in neither the text nor the replacement is not in the
      result. */
  lemma {:induction false} ReplaceKeepsOut(s: string, pat: string, rep: string, c: char)
    requires |pat| > 0 && c !in s && c !in rep
    ensures c !in ReplaceAll(s, pat, rep)
    decreases |s|
  {
    if |s| >= |pat| {
      if s[..|pat|] == pat {
        assert forall k | 0 <= k < |s[|pat|..]| :: s[|pat|..][k] == s[k + |pat|];
        ReplaceKeepsOut(s[|pat|..], pat, rep, c);
      } else {
        assert forall k | 0 <= k < |s[1..]| :: s[1..][k] == s[k + 1];
        ReplaceKeepsOut(s[1..], pat, rep, c);
      }
    }
  }

  /** Replacing a one-character pattern by nothing removes that character. */
  lemma {:induction false} RemoveChar(s: string, c: char)
    ensures c !in ReplaceAll(s, [c], "")
    decreases |s|
  {
    if |s| >= 1 {
      if s[0] == c {
        assert s[..1] == [c];
        RemoveChar(s[1..], c);
      } else {
        assert s[..1] != [c];
        RemoveChar(s[1..], c);
      }
    }
  }

  /** The first character of a replacement result: the replacement's
      first character after a match, the text's own otherwise. */
  lemma ReplaceHead(s: string, pat: string, rep: string)
    requires |pat| > 0 && |rep| > 0 && |s| > 0
    ensures |ReplaceAll(s, pat, rep)| > 0
    ensures ReplaceAll(s, pat, rep)[0] == (if |s| >= |pat| && s[..|pat|] == pat then rep[0] else s[0])
  {
  }

  /** After the author separator is put in, no " -" is left: a space
      followed by a dash in the result would have been a match. */
  lemma {:induction false} NoDashLeft(s: string)
    ensures !Contains(ReplaceAll(s, " -", "@~"), " -")
    decreases |s|
  {
    var r := ReplaceAll(s, " -", "@~");
    if |s| >= 2 {
      var tail := if s[..2] == " -" then s[2..] else s[1..];
      NoDashLeft(tail);
      var rt := ReplaceAll(tail, " -", "@~");
      if s[..2] == " -" {
        assert r == "@~" + rt;
        assert r[1..] == "~" + rt;
        assert !Contains(r[1..], " -") by {
          assert r[1..][0] == '~';
          assert r[1..][1..] == rt;
        }
      } else {
        assert r == [s[0]] + rt;
        assert r[1..] == rt;
        if |tail| > 0 {
          ReplaceHead(tail, " -", "@~");
        }
      }
    } else {
      ReplaceAbsent(s, " -", "@~");
    }
  }

  // ---------------------------------------------------------------------
  // Cleaning one line

  /** The loop `while "  " in line: line = line.replace("  ", " ")`. */
  function Collapse(s: string): (r: string)
    ensures !Contains(r, "  ")
    ensures |r| <= |s|
    decreases |s|
  {
    if Contains(s, "  ") then Collapse(ReplaceAll(s, "  ", " ")) else s
  }

  /** Collapsing a line without double spaces leaves it alone, so
      collapsing twice is collapsing once. */
  lemma CollapseIdempotent(s: string)
    ensures Collapse(Collapse(s)) == Collapse(s)
  {
  }

  /** The removal loop over `"`, the left and the right double quotation
      mark. */
  function RemoveQuotes(s: string): (r: string)
    ensures '"' !in r && LEFT_QUOTE !in r && RIGHT_QUOTE !in r
    ensures |r| <= |s|
  {
    var a := ReplaceAll(s, "\"", "");
    RemoveChar(s, '"');
    var b := ReplaceAll(a, [LEFT_QUOTE], "");
    RemoveChar(a, LEFT_QUOTE);
    ReplaceKeepsOut(a, [LEFT_QUOTE], "", '"');
    var c := ReplaceAll(b, [RIGHT_QUOTE], "");
    RemoveChar(b, RIGHT_QUOTE);
    ReplaceKeepsOut(b, [RIGHT_QUOTE], "", '"');
    ReplaceKeepsOut(b, [RIGHT_QUOTE], "", LEFT_QUOTE);
    c
  }

  /** The characters `str.isspace` accepts. */
  predicate IsPySpace(c: char) {
    || ('\t' <= c <= '\r') || ('\U{1C}' <= c <= ' ') || c == '\U{85}' || c == '\U{A0}'
    || c == '\U{1680}' || ('\U{2000}' <= c <= '\U{200A}') || c == '\U{2028}' || c == '\U{2029}'
    || c == '\U{202F}' || c == '\U{205F}' || c == '\U{3000}'
  }

  function SkipSpace(s: string, i: nat): (r: nat)
    requires i <= |s|
    ensures i <= r <= |s|
    ensures r < |s| ==> !IsPySpace(s[r])
    ensures forall k | i <= k < r :: IsPySpace(s[k])
    decreases |s| - i
  {
    if i < |s| && IsPySpace(s[i]) then SkipSpace(s, i + 1) else i
  }

  function SkipSpaceBack(s: string, j: nat, lo: nat): (r: nat)
    requires lo <= j <= |s|
    ensures lo <= r <= j
    ensures r > lo ==> !IsPySpace(s[r - 1])
    ensures forall k | r <= k < j :: IsPySpace(s[k])
    decreases j
  {
    if j > lo && IsPySpace(s[j - 1]) then SkipSpaceBack(s, j - 1, lo) else j
  }

  /** Where `str.strip()` cuts: the kept slice neither starts nor ends
      with white space (and `StripOutside` says that only white space is
      cut). */
  function StripBounds(s: string): (r: (nat, nat))
    ensures r.0 <= r.1 <= |s|
    ensures r.0 < r.1 ==> !IsPySpace(s[r.0]) && !IsPySpace(s[r.1 - 1])
  {
    var a := SkipSpace(s, 0);
    (a, SkipSpaceBack(s, |s|, a))
  }

  /** Everything `str.strip()` cuts off is white space. */
  lemma StripOutside(s: string)
    ensures forall k | 0 <= k < StripBounds(s).0 :: IsPySpace(s[k])
    ensures forall k | StripBounds(s).1 <= k < |s| :: IsPySpace(s[k])
  {
  }

  /** `str.strip()`. */
  function Strip(s: string): (r: string)
    ensures |r| <= |s|
    ensures |r| > 0 ==> !IsPySpace(r[0]) && !IsPySpace(r[|r| - 1])
  {
    var b := StripBounds(s);
    assert b.0 < b.1 ==> s[b.0..b.1][0] == s[b.0] && s[b.0..b.1][b.1 - b.0 - 1] == s[b.1 - 1];
    s[b.0..b.1]
  }

  /** A slice of a string without the pattern is without it too. */
  lemma {:induction false} SliceKeepsOut(s: string, pat: string, a: nat, b: nat)
    requires a <= b <= |s| && !Contains(s, pat) && |pat| > 0
    ensures !Contains(s[a..b], pat)
    decreases |s|
  {
    if a > 0 {
      SliceKeepsOut(s[1..], pat, a - 1, b - 1);
      assert s[1..][a - 1..b - 1] == s[a..b];
    } else if Contains(s[..b], pat) {
      PrefixContains(s, b, pat);
    }
  }

  lemma {:induction false} PrefixContains(s: string, b: nat, pat: string)
    requires b <= |s| && Contains(s[..b], pat) && |pat| > 0
    ensures Contains(s, pat)
    decreases b
  {
    if s[..b][..|pat|] != pat {
      assert s[..b][1..] == s[1..][..b - 1];
      PrefixContains(s[1..], b - 1, pat);
    }
  }

  /** One line of the script: None when it is skipped (shorter than 30
      characters before cleaning), otherwise the cleaned line, which has
      no quotation marks and no " -" left, does not start or end with
      white space, and is no longer than the line. */
  function Clean(line: string): (r: Option<string>)
    ensures r.None? <==> |line| < MIN_LENGTH
    ensures r.Some? ==> '"' !in r.value && LEFT_QUOTE !in r.value && RIGHT_QUOTE !in r.value
    ensures r.Some? ==> !Contains(r.value, " -")
    ensures r.Some? && |r.value| > 0 ==> !IsPySpace(r.value[0]) && !IsPySpace(r.value[|r.value| - 1])
    ensures r.Some? ==> |r.value| <= |line|
  {
    if |line| == 0 || |line| < MIN_LENGTH then None
    else
      CleanTextClean(line);
      Some(CleanText(line))
  }

  /** The cleaning steps of the script in order: collapse double spaces,
      remove quotation marks, turn " -" into the author separator "@~",
      strip. */
  function CleanText(line: string): (r: string)
    ensures |r| <= |line|
    ensures |r| > 0 ==> !IsPySpace(r[0]) && !IsPySpace(r[|r| - 1])
  {
    Strip(ReplaceAll(RemoveQuotes(Collapse(line)), " -", "@~"))
  }

  /** A cleaned line has no quotation marks and no " -" left. */
  lemma CleanTextClean(line: string)
    ensures var r := CleanText(line);
            '"' !in r && LEFT_QUOTE !in r && RIGHT_QUOTE !in r && !Contains(r, " -")
  {
    var unquoted := RemoveQuotes(Collapse(line));
    var separated := ReplaceAll(unquoted, " -", "@~");
    var bounds := StripBounds(separated);
    CleanSteps(unquoted, bounds.0, bounds.1);
    assert CleanText(line) == separated[bounds.0..bounds.1];
  }

  /** A line that is already clean passes through unchanged: long enough,
      without quotation marks, double spaces or " -", and without white
      space at either end. */
  lemma CleanKeepsCleanLine(line: string)
    requires |line| >= MIN_LENGTH
    requires '"' !in line && LEFT_QUOTE !in line && RIGHT_QUOTE !in line
    requires !Contains(line, "  ") && !Contains(line, " -")
    requires !IsPySpace(line[0]) && !IsPySpace(line[|line| - 1])
    ensures Clean(line) == Some(line)
  {
    assert Collapse(line) == line;
    RemoveQuotesAbsent(line);
    ReplaceAbsent(line, " -", "@~");
    StripUnspaced(line);
  }

  /** Removing quotation marks from a line without any changes nothing. */
  lemma RemoveQuotesAbsent(s: string)
    requires '"' !in s && LEFT_QUOTE !in s && RIGHT_QUOTE !in s
    ensures RemoveQuotes(s) == s
  {
    NotInNotContains(s, '"');
    ReplaceAbsent(s, "\"", "");
    NotInNotContains(s, LEFT_QUOTE);
    ReplaceAbsent(s, [LEFT_QUOTE], "");
    NotInNotContains(s, RIGHT_QUOTE);
    ReplaceAbsent(s, [RIGHT_QUOTE], "");
  }

  /** `strip` leaves a line without white space at its ends alone. */
  lemma StripUnspaced(s: string)
    requires |s| > 0 && !IsPySpace(s[0]) && !IsPySpace(s[|s| - 1])
    ensures Strip(s) == s
  {
  }

  /** Cleaning adds nothing but the separator: every character of a
      cleaned line other than a space, '@' and '~' is in the raw line. */
  lemma CleanDrawsFromLine(line: string, c: char)
    requires |line| >= MIN_LENGTH
    requires c !in line && c != ' ' && c != '@' && c != '~'
    ensures c !in Clean(line).value
  {
    CollapseKeepsOut(line, c);
    var unquoted := RemoveQuotes(Collapse(line));
    RemoveQuotesKeepsOut(Collapse(line), c);
    ReplaceKeepsOut(unquoted, " -", "@~", c);
    var separated := ReplaceAll(unquoted, " -", "@~");
    var b := StripBounds(separated);
    assert CleanText(line) == separated[b.0..b.1];
    assert forall k | b.0 <= k < b.1 :: separated[b.0..b.1][k - b.0] == separated[k];
  }

  lemma {:induction false} CollapseKeepsOut(s: string, c: char)
    requires c !in s && c != ' '
    ensures c !in Collapse(s)
    decreases |s|
  {
    if Contains(s, "  ") {
      ReplaceKeepsOut(s, "  ", " ", c);
      CollapseKeepsOut(ReplaceAll(s, "  ", " "), c);
    }
  }

  lemma RemoveQuotesKeepsOut(s: string, c: char)
    requires c !in s
    ensures c !in RemoveQuotes(s)
  {
    ReplaceKeepsOut(s, "\"", "", c);
    var a := ReplaceAll(s, "\"", "");
    ReplaceKeepsOut(a, [LEFT_QUOTE], "", c);
    ReplaceKeepsOut(ReplaceAll(a, [LEFT_QUOTE], ""), [RIGHT_QUOTE], "", c);
  }

  /** A slice of the separated text keeps out the quotation marks and the
      " -" pattern. */
  lemma CleanSteps(unquoted: string, a: nat, b: nat)
    requires '"' !in unquoted && LEFT_QUOTE !in unquoted && RIGHT_QUOTE !in unquoted
    requires a <= b <= |ReplaceAll(unquoted, " -", "@~")|
    ensures var t := ReplaceAll(unquoted, " -", "@~")[a..b];
            '"' !in t && LEFT_QUOTE !in t && RIGHT_QUOTE !in t && !Contains(t, " -")
  {
    var separated := ReplaceAll(unquoted, " -", "@~");
    NoDashLeft(unquoted);
    ReplaceKeepsOut(unquoted, " -", "@~", '"');
    ReplaceKeepsOut(unquoted, " -", "@~", LEFT_QUOTE);
    ReplaceKeepsOut(unquoted, " -", "@~", RIGHT_QUOTE);
    SliceKeepsOut(separated, " -", a, b);
  }

  /** After the collapse loop no two spaces are adjacent; removing the
      quotation marks afterwards can bring two together again. */
  lemma QuoteRemovalCanJoinSpaces()
    ensures !Contains(Collapse("a \" b"), "  ")
    ensures Contains(RemoveQuotes(Collapse("a \" b")), "  ")
  {
    var s := "a \" b";
    ExampleHasNoDoubleSpace();
    assert Collapse(s) == s;
    var a := ReplaceAll(s, "\"", "");
    ExampleQuoteRemoved();
    NotInNotContains(a, LEFT_QUOTE);
    ReplaceAbsent(a, [LEFT_QUOTE], "");
    NotInNotContains(a, RIGHT_QUOTE);
    ReplaceAbsent(a, [RIGHT_QUOTE], "");
    assert a[1..][..2] == "  ";
  }

  lemma ExampleHasNoDoubleSpace()
    ensures !Contains("a \" b", "  ")
  {
    var s := "a \" b";
    assert !Contains(s[4..], "  ");
    assert s[3..][1..] == s[4..] && s[3..][0] == ' ' && s[3..][1] == 'b';
    assert !Contains(s[3..], "  ");
    assert s[2..][1..] == s[3..] && s[2..][0] == '"';
    assert !Contains(s[2..], "  ");
    assert s[1..][1..] == s[2..] && s[1..][0] == ' ' && s[1..][1] == '"';
    assert !Contains(s[1..], "  ");
    assert s[0] == 'a';
  }

  lemma ExampleQuoteRemoved()
    ensures ReplaceAll("a \" b", "\"", "") == "a  b"
  {
    var s := "a \" b";
    assert ReplaceAll(s[4..], "\"", "") == "b";
    assert ReplaceAll(s[3..], "\"", "") == " b";
    assert ReplaceAll(s[2..], "\"", "") == " b";
    assert ReplaceAll(s[1..], "\"", "") == "  b";
  }

  /** A line made of thirty spaces survives the length test and comes out
      empty, so the quote file gets an empty line. */
  lemma BlankLineKept()
    ensures Clean(seq(30, _ => ' ')) == Some("")
  {
    var s: string := seq(30, _ => ' ');
    var c := Collapse(s);
    assert forall k | 0 <= k < |c| :: c[k] == ' ' by {
      CollapseSpaces(s);
    }
    assert c != "" by {
      CollapseNonEmpty(s);
    }
    var u := RemoveQuotes(c);
    RemoveQuotesSpaces(c);
    var sep := ReplaceAll(u, " -", "@~");
    ReplaceAbsent(u, " -", "@~") by {
      SpacesNoDash(u);
    }
    assert forall k | 0 <= k < |sep| :: IsPySpace(sep[k]);
  }

  lemma {:induction false} CollapseSpaces(s: string)
    requires forall k | 0 <= k < |s| :: s[k] == ' '
    ensures forall k | 0 <= k < |Collapse(s)| :: Collapse(s)[k] == ' '
    decreases |s|
  {
    if Contains(s, "  ") {
      ReplaceSpaces(s, "  ", " ");
      CollapseSpaces(ReplaceAll(s, "  ", " "));
    }
  }

  lemma {:induction false} ReplaceSpaces(s: string, pat: string, rep: string)
    requires |pat| > 0
    requires forall k | 0 <= k < |s| :: s[k] == ' '
    requires forall k | 0 <= k < |rep| :: rep[k] == ' '
    ensures forall k | 0 <= k < |ReplaceAll(s, pat, rep)| :: ReplaceAll(s, pat, rep)[k] == ' '
    decreases |s|
  {
    if |s| >= |pat| {
      if s[..|pat|] == pat {
        ReplaceSpaces(s[|pat|..], pat, rep);
      } else {
        ReplaceSpaces(s[1..], pat, rep);
      }
    }
  }

  lemma {:induction false} CollapseNonEmpty(s: string)
    requires |s| > 0
    ensures |Collapse(s)| > 0
    decreases |s|
  {
    if Contains(s, "  ") {
      ReplaceNonEmpty(s, "  ", " ");
      CollapseNonEmpty(ReplaceAll(s, "  ", " "));
    }
  }

  lemma ReplaceNonEmpty(s: string, pat: string, rep: string)
    requires |pat| > 0 && |rep| > 0 && |s| > 0
    ensures |ReplaceAll(s, pat, rep)| > 0
  {
  }

  lemma {:induction false} RemoveQuotesSpaces(s: string)
    requires forall k | 0 <= k < |s| :: s[k] == ' '
    ensures RemoveQuotes(s) == s
  {
    assert '"' !in s;
    NotInNotContains(s, '"');
    assert ['"'] == "\"";
    ReplaceAbsent(s, "\"", "");
    NotInNotContains(s, LEFT_QUOTE);
    ReplaceAbsent(s, [LEFT_QUOTE], "");
    NotInNotContains(s, RIGHT_QUOTE);
    ReplaceAbsent(s, [RIGHT_QUOTE], "");
  }

  /** A character that does not occur is not found as a one-character
      pattern. */
  lemma {:induction false} NotInNotContains(s: string, c: char)
    requires c !in s
    ensures !Contains(s, [c])
    decreases |s|
  {
    if |s| >= 1 {
      assert s[..1][0] == s[0];
      NotInNotContains(s[1..], c);
    }
  }

  lemma {:induction false} SpacesNoDash(s: string)
    requires forall k | 0 <= k < |s| :: s[k] == ' '
    ensures !Contains(s, " -")
    decreases |s|
  {
    if |s| >= 2 {
      assert s[1] == ' ';
      SpacesNoDash(s[1..]);
    }
  }

  // ---------------------------------------------------------------------
  // Duplicates and order

  /** Python's string order: code point by code point, a proper prefix
      first. */
  predicate LexLess(a: string, b: string)
    decreases |a|
  {
    |b| > 0 && (|a| == 0 || a[0] < b[0] || (a[0] == b[0] && LexLess(a[1..], b[1..])))
  }

  lemma {:induction false} LexIrreflexive(a: string)
    ensures !LexLess(a, a)
    decreases |a|
  {
    if |a| > 0 {
      LexIrreflexive(a[1..]);
    }
  }

  lemma {:induction false} LexTransitive(a: string, b: string, c: string)
    requires LexLess(a, b) && LexLess(b, c)
    ensures LexLess(a, c)
    decreases |a|
  {
    if |a| > 0 && a[0] == b[0] && b[0] == c[0] {
      LexTransitive(a[1..], b[1..], c[1..]);
    }
  }

  lemma {:induction false} LexTotal(a: string, b: string)
    requires a != b
    ensures LexLess(a, b) || LexLess(b, a)
    decreases |a|
  {
    if |a| > 0 && |b| > 0 && a[0] == b[0] {
      assert a[1..] != b[1..] by {
        assert a == [a[0]] + a[1..] && b == [b[0]] + b[1..];
      }
      LexTotal(a[1..], b[1..]);
    }
  }

  predicate StrictlySorted(xs: seq<string>) {
    forall i, j | 0 <= i < j < |xs| :: LexLess(xs[i], xs[j])
  }

  /** `x` put into a strictly sorted list, unless it is already there. */
  function Insert(xs: seq<string>, x: string): (r: seq<string>)
    requires StrictlySorted(xs)
    ensures StrictlySorted(r)
    ensures forall y :: y in r <==> y in xs || y == x
    ensures |r| <= |xs| + 1
  {
    if |xs| == 0 then [x]
    else if x == xs[0] then xs
    else if LexLess(x, xs[0]) then
      assert forall j | 0 < j < |xs| :: LexLess(x, xs[j]) by {
        forall j | 0 < j < |xs| ensures LexLess(x, xs[j]) {
          LexTransitive(x, xs[0], xs[j]);
        }
      }
      [x] + xs
    else
      LexTotal(x, xs[0]);
      var rest := Insert(xs[1..], x);
      assert forall y | y in rest :: LexLess(xs[0], y) by {
        forall y | y in rest ensures LexLess(xs[0], y) {
          if y != x {
            var j :| 0 <= j < |xs[1..]| && xs[1..][j] == y;
            assert y == xs[j + 1];
          }
        }
      }
      var r := [xs[0]] + rest;
      assert forall i | 1 <= i < |r| :: r[i] == rest[i - 1];
      assert forall y :: y in xs <==> y == xs[0] || y in xs[1..] by {
        assert xs == [xs[0]] + xs[1..];
      }
      r
  }

  /** The kept lines, in input order. */
  function Cleaned(raw: seq<string>): (r: seq<string>)
    ensures |r| <= |raw|
  {
    if |raw| == 0 then []
    else
      var front := Cleaned(raw[..|raw| - 1]);
      match Clean(raw[|raw| - 1])
      case Some(q) => front + [q]
      case None => front
  }

  /** The script from the raw lines to the lines it writes: every line
      cleaned or skipped, then `list(set(...))` and `sort()`.  The result
      is strictly ascending (so without duplicates) and holds exactly the
      cleaned lines. */
  method Normalise(raw: seq<string>) returns (quotes: seq<string>)
    ensures StrictlySorted(quotes)
    ensures forall q :: q in quotes <==> q in Cleaned(raw)
    ensures |quotes| <= |raw|
  {
    var cleaned := CleanAll(raw);
    quotes := SortUnique(cleaned);
  }

  /** The cleaning loop over the raw lines. */
  method CleanAll(raw: seq<string>) returns (cleaned: seq<string>)
    ensures cleaned == Cleaned(raw)
  {
    cleaned := [];
    var i := 0;
    while i < |raw|
      invariant 0 <= i <= |raw|
      invariant cleaned == Cleaned(raw[..i])
    {
      assert raw[..i + 1][..i] == raw[..i];
      match Clean(raw[i]) {
        case Some(q) => cleaned := cleaned + [q];
        case None =>
      }
      i := i + 1;
    }
    assert raw[..i] == raw;
  }

  /** `sorted(set(lines))`: strictly ascending, with exactly the lines
      given, and no longer than them. */
  method SortUnique(lines: seq<string>) returns (quotes: seq<string>)
    ensures StrictlySorted(quotes)
    ensures forall q :: q in quotes <==> q in lines
    ensures |quotes| <= |lines|
  {
    quotes := [];
    var j := 0;
    while j < |lines|
      invariant 0 <= j <= |lines|
      invariant StrictlySorted(quotes)
      invariant forall q :: q in quotes <==> q in lines[..j]
      invariant |quotes| <= j
    {
      quotes := Insert(quotes, lines[j]);
      assert lines[..j + 1] == lines[..j] + [lines[j]];
      j := j + 1;
    }
    assert lines[..j] == lines;
  }

  /** Every written quote is a cleaned line: free of quotation marks and
      of " -", and without white space at either end. */
  lemma WrittenLinesClean(raw: seq<string>, q: string)
    requires q in Cleaned(raw)
    ensures '"' !in q && LEFT_QUOTE !in q && RIGHT_QUOTE !in q && !Contains(q, " -")
    ensures |q| > 0 ==> !IsPySpace(q[0]) && !IsPySpace(q[|q| - 1])
    ensures exists i | 0 <= i < |raw| :: Clean(raw[i]) == Some(q)
  {
    var front := Cleaned(raw[..|raw| - 1]);
    if q in front {
      WrittenLinesClean(raw[..|raw| - 1], q);
      var i :| 0 <= i < |raw| - 1 && Clean(raw[..|raw| - 1][i]) == Some(q);
      assert raw[..|raw| - 1][i] == raw[i];
    } else {
      assert Clean(raw[|raw| - 1]) == Some(q);
    }
  }
}

=== FILE: text.dfy ===
/** Joining strings with a separator and splitting them back, shared by the
    escape-sequence and time-format parsers. */
module Text {

  /** `parts[0] + sep + parts[1] + ... + sep + parts[|parts|-1]`. */
  function Join(parts: seq<string>, sep: char): string
  {
    if |parts| == 0 then ""
    else if |parts| == 1 then parts[0]
    else parts[0] + [sep] + Join(parts[1..], sep)
  }

  /** Index of the first `c` in `s`, or |s| when there is none. */
  function IndexOf(s: string, c: char): (i: nat)
    ensures i <= |s|
    ensures i < |s| ==> s[i] == c
    ensures forall k | 0 <= k < i :: s[k] != c
  {
    if |s| == 0 then 0
    else if s[0] == c then 0
    else 1 + IndexOf(s[1..], c)
  }

  /** The pieces of `s` between occurrences of `sep`; always at least one. */
  function Split(s: string, sep: char): (r: seq<string>)
    ensures |r| >= 1
    ensures forall i | 0 <= i < |r| :: sep !in r[i]
    decreases |s|
  {
    var i := IndexOf(s, sep);
    if i == |s| then [s]
    else [s[..i]] + Split(s[i + 1..], sep)
  }

  lemma IndexOfPrefix(a: string, b: string, c: char)
    requires c !in a
    ensures IndexOf(a + [c] + b, c) == |a|
  {
    var s := a + [c] + b;
    assert s[|a|] == c;
    assert forall k | 0 <= k < |a| :: s[k] == a[k];
  }

  /** Splitting undoes joining when no part contains the separator. */
  lemma {:induction false} SplitJoin(parts: seq<string>, sep: char)
    requires |parts| >= 1
    requires forall i | 0 <= i < |parts| :: sep !in parts[i]
    ensures Split(Join(parts, sep), sep) == parts
  {
    if |parts| == 1 {
      assert IndexOf(parts[0], sep) == |parts[0]|;
    } else {
      var rest := Join(parts[1..], sep);
      var s := parts[0] + [sep] + rest;
      assert Join(parts, sep) == s;
      var n := |parts[0]|;
      IndexOfPrefix(parts[0], rest, sep);
      assert s[..n] == parts[0];
      assert s[n + 1..] == rest;
      assert Split(s, sep) == [parts[0]] + Split(rest, sep);
      assert forall i | 0 <= i < |parts| - 1 :: parts[1..][i] == parts[i + 1];
      SplitJoin(parts[1..], sep);
      assert parts == [parts[0]] + parts[1..];
    }
  }

  lemma JoinThree(a: string, b: string, c: string, sep: char)
    ensures Join([a, b, c], sep) == a + [sep] + b + [sep] + c
  {
    assert [a, b, c][1..] == [b, c];
    assert [b, c][1..] == [c];
    assert Join([b, c], sep) == b + [sep] + c;
    assert Join([a, b, c], sep) == a + [sep] + (b + [sep] + c);
    assert a + [sep] + (b + [sep] + c) == a + [sep] + b + [sep] + c;
  }

  /** Every character of a join comes from a part or is the separator. */
  lemma {:induction false} JoinChars(parts: seq<string>, sep: char, c: char)
    requires c in Join(parts, sep)
    ensures c == sep || exists i | 0 <= i < |parts| :: c in parts[i]
  {
    if |parts| >= 2 {
      var rest := Join(parts[1..], sep);
      if c in parts[0] {
      } else if c == sep {
      } else {
        assert c in rest;
        JoinChars(parts[1..], sep, c);
        var i :| 0 <= i < |parts[1..]| && c in parts[1..][i];
        assert c in parts[i + 1];
      }
    }
  }
}

=== FILE: timer.dfy ===
/** The pomodoro timer: three phases wired into a cycle, the parameters
    the routines share, and one pass of the time-keeping and key-handling
    routines as functions of the current time and of what was read. */
module Timer {

  import opened Wrappers
  import opened CInt
  import opened Decimal
  import opened Keys
  import Colors
  import CStrings
  import Windows
  import Dialogs
  import Formats

  const STUDY_DURATION: int := 45
  const SHORT_BREAK_DURATION: int := 15
  const LONG_BREAK_DURATION: int := 30
  const STUDY_SESSIONS: int := 4
  const Y_BORDER: int := 1
  const PADDING: int := 2

  /** Study, short break and long break durations in minutes, and study
      sessions before the long break, in the order `init_phases` keeps them. */
  const DEFAULT_DURATIONS: seq<int> :=
    [STUDY_DURATION, SHORT_BREAK_DURATION, LONG_BREAK_DURATION, STUDY_SESSIONS]

  // ---------------------------------------------------------------------
  // Phases

  /** The three entries of the phase array; the `next` and `next_after`
      pointers become the functions `Next` and `NextAfter`. */
  datatype PhaseId = Study | ShortBreak | LongBreak

  datatype Phase = Phase(
    name: string,
    id: int,
    duration: int,
    repetitions: int,
    completed: int,
    isStudy: bool,
    started: int,
    fg: int,
    bg: int)

  datatype Phases = Phases(study: Phase, shortBreak: Phase, longBreak: Phase)

  function Get(ps: Phases, id: PhaseId): Phase {
    match id
    case Study => ps.study
    case ShortBreak => ps.shortBreak
    case LongBreak => ps.longBreak
  }

  function Put(ps: Phases, id: PhaseId, p: Phase): (r: Phases)
    ensures Get(r, id) == p
    ensures forall other: PhaseId | other != id :: Get(r, other) == Get(ps, other)
  {
    match id
    case Study => ps.(study := p)
    case ShortBreak => ps.(shortBreak := p)
    case LongBreak => ps.(longBreak := p)
  }

  /** The `next` pointer: study goes to the short break, both breaks back
      to study. */
  function Next(id: PhaseId): (r: PhaseId)
    ensures r != id
    ensures (r == Study) <==> (id != Study)
  {
    if id == Study then ShortBreak else Study
  }

  /** The `next_after` pointer, which only the study phase sets. */
  function NextAfter(id: PhaseId): (r: PhaseId)
    requires id == Study
    ensures r != id && r != Next(id)
  {
    LongBreak
  }

  /** What `init_phases` sets up and nothing changes: the ids, which phase
      is the study phase, and no repetitions on the breaks. */
  predicate WellFormed(ps: Phases) {
    && ps.study.id == 0 && ps.shortBreak.id == 1 && ps.longBreak.id == 2
    && ps.study.isStudy && !ps.shortBreak.isStudy && !ps.longBreak.isStudy
    && ps.shortBreak.repetitions == 0 && ps.longBreak.repetitions == 0
  }

  /** `load_settings`: the first four lines of the settings file, read
      with `atoi`. */
  function LoadSettings(lines: seq<string>): (d: seq<int>)
    requires |lines| >= 4
    ensures |d| == 4
    ensures forall k | 0 <= k < 4 :: d[k] == Atoi(lines[k])
  {
    [Atoi(lines[0]), Atoi(lines[1]), Atoi(lines[2]), Atoi(lines[3])]
  }

  /** The argument loop of `init_phases` from argument `i` on: arguments
      1 to 4, as far as they go, replace the durations in order. */
  function OverrideFrom(d: seq<int>, args: seq<string>, i: nat): (r: seq<int>)
    requires |d| == 4 && i >= 1
    ensures |r| == 4
    ensures forall k | 0 <= k < 4 ::
      r[k] == (if i <= k + 1 < |args| then Atoi(args[k + 1]) else d[k])
    decreases 5 - i
  {
    if i < |args| && i < 5 then OverrideFrom(d[i - 1 := Atoi(args[i])], args, i + 1)
    else d
  }

  /** The durations `init_phases` settles on, given the command line
      (`args[0]` is the program name) and the lines of the settings file,
      if it can be opened: arguments other than "reset" override the
      defaults; without arguments a settings file of at least four lines
      is read; otherwise, and after "reset", the defaults stay. */
  function InitDurations(args: seq<string>, settings: Option<seq<string>>): (d: seq<int>)
    ensures |d| == 4
    ensures |args| > 1 && args[1] != "reset" ==>
      forall k | 0 <= k < 4 :: d[k] == (if k + 1 < |args| then Atoi(args[k + 1]) else DEFAULT_DURATIONS[k])
    ensures |args| > 1 && args[1] == "reset" ==> d == DEFAULT_DURATIONS
    ensures |args| <= 1 && settings.Some? && |settings.value| >= 4 ==> d == LoadSettings(settings.value)
    ensures |args| <= 1 && (settings.None? || |settings.value| < 4) ==> d == DEFAULT_DURATIONS
  {
    if |args| > 1 then
      if args[1] != "reset" then OverrideFrom(DEFAULT_DURATIONS, args, 1) else DEFAULT_DURATIONS
    else if settings.Some? && |settings.value| >= 4 then LoadSettings(settings.value)
    else DEFAULT_DURATIONS
  }

  /** Arguments given on the command line are the durations used, in the
      order study, short break, long break, sessions. */
  lemma ArgumentsOverride(study: int, short: int, long: int, sessions: int, settings: Option<seq<string>>)
    ensures InitDurations(["pomoc", Decimal.IntToString(study), Decimal.IntToString(short),
                           Decimal.IntToString(long), Decimal.IntToString(sessions)], settings)
            == [study, short, long, sessions]
  {
    var args := ["pomoc", Decimal.IntToString(study), Decimal.IntToString(short),
                 Decimal.IntToString(long), Decimal.IntToString(sessions)];
    assert args[1] != "reset" by {
      assert |IntToString(study)| >= 1;
      assert IntToString(study)[0] == '-' || IsDigit(IntToString(study)[0]);
    }
    var d := InitDurations(args, settings);
    assert d[0] == study by { AtoiIntToString(study); }
    assert d[1] == short by { AtoiIntToString(short); }
    assert d[2] == long by { AtoiIntToString(long); }
    assert d[3] == sessions by { AtoiIntToString(sessions); }
  }

  /** `init_phases` with the durations it settled on; the study phase
      starts at `now`, the breaks at 0. */
  function MakePhases(d: seq<int>, now: int): (ps: Phases)
    requires |d| == 4
    ensures WellFormed(ps)
    ensures ps.study.duration == d[0] && ps.shortBreak.duration == d[1] && ps.longBreak.duration == d[2]
    ensures ps.study.repetitions == d[3]
    ensures forall id: PhaseId :: Get(ps, id).completed == 0
  {
    Phases(
      Phase("study", 0, d[0], d[3], 0, true, now, Colors.FG_RED, Colors.BG_DEFAULT),
      Phase("short break", 1, d[1], 0, 0, false, 0, Colors.FG_GREEN, Colors.BG_DEFAULT),
      Phase("long break", 2, d[2], 0, 0, false, 0, Colors.FG_GREEN, Colors.BG_DEFAULT))
  }

  // ---------------------------------------------------------------------
  // Parameters

  /** The beeps `beep_async` plays after a phase change. */
  datatype Tone = Tone(repetitions: int, speed: int)

  /** The five windows of the timer screen. */
  datatype Panels = Panels(
    phase: Windows.Window,
    total: Windows.Window,
    quote: Windows.Window,
    controls: Windows.Window,
    paused: Windows.Window)

  predicate PanelsValid(p: Panels) {
    && Windows.Valid(p.phase) && Windows.Valid(p.total) && Windows.Valid(p.quote)
    && Windows.Valid(p.controls) && Windows.Valid(p.paused)
  }

  /** The shared parameters of the routines; `running` is the `loop` flag. */
  datatype Session = Session(
    phases: Phases,
    current: PhaseId,
    running: bool,
    studyPhases: int,
    forceReload: bool,
    phaseElapsed: int,
    studyElapsed: int,
    previousElapsed: int,
    paused: bool,
    frozenElapsed: int,
    panels: Panels,
    tone: Tone)

  predicate Valid(s: Session) {
    WellFormed(s.phases) && PanelsValid(s.panels)
  }

  function Current(s: Session): Phase {
    Get(s.phases, s.current)
  }

  /** The number `show_routine` prints as "[completed + 1/repetitions]"
      lies in 1..repetitions: the study counter is below its bound. */
  predicate CounterInRange(s: Session) {
    s.phases.study.repetitions > 0 ==> 0 <= s.phases.study.completed < s.phases.study.repetitions
  }

  /** `reset_current_time`: the current phase starts now. */
  function ResetCurrentTime(s: Session, now: int): (r: Session)
    ensures Valid(s) ==> Valid(r)
    ensures Current(r).started == now
    ensures Current(r) == Current(s).(started := now)
    ensures r == s.(phases := r.phases)
    ensures forall id: PhaseId | id != s.current :: Get(r.phases, id) == Get(s.phases, id)
  {
    s.(phases := Put(s.phases, s.current, Current(s).(started := now)))
  }

  /** `start_time`: only the pause flag is cleared. */
  function StartTime(s: Session): (r: Session)
    ensures Valid(s) ==> Valid(r)
    ensures !r.paused && r == s.(paused := false)
  {
    s.(paused := false)
  }

  /** `pause_time`: time stops, and the seconds the phase had run are
      kept. */
  function PauseTime(s: Session, now: int): (r: Session)
    ensures Valid(s) ==> Valid(r)
    ensures r.paused && r.frozenElapsed == now - Current(s).started
    ensures r == s.(paused := true, frozenElapsed := r.frozenElapsed)
  {
    s.(paused := true, frozenElapsed := now - Current(s).started)
  }

  /** Whether `next_phase` leaves the current phase for its `next_after`:
      it has been completed as often as it repeats, and it repeats at all.
      A negative repetition count passes this test every time. */
  predicate RepetitionsEnded(p: Phase) {
    p.completed + 1 >= p.repetitions && p.repetitions != 0
  }

  /** `next_phase`: the phase counts one more completion, a study phase
      adds to the studied phases and banks its elapsed time, and the timer
      moves on to `next_after` (resetting the counter) when the
      repetitions have ended, otherwise to `next`; the new phase starts
      now.  The beep thread it starts is not part of the model. */
  function NextPhase(s: Session, now: int): (r: Session)
    requires Valid(s)
    ensures Valid(r)
    ensures RepetitionsEnded(Current(s)) ==>
      r.current == LongBreak && s.current == Study && r.phases.study.completed == 0
    ensures !RepetitionsEnded(Current(s)) ==>
      r.current == Next(s.current) && Get(r.phases, s.current).completed == Current(s).completed + 1
    ensures r.current != s.current
    ensures Current(s).isStudy ==>
      r.studyPhases == s.studyPhases + 1 && r.previousElapsed == s.previousElapsed + s.phaseElapsed
    ensures !Current(s).isStudy ==>
      r.studyPhases == s.studyPhases && r.previousElapsed == s.previousElapsed
    ensures Current(r).started == now
    ensures Current(r) == Get(s.phases, r.current).(started := now)
    ensures Get(r.phases, s.current).duration == Current(s).duration
    ensures forall id: PhaseId | id != s.current && id != r.current :: Get(r.phases, id) == Get(s.phases, id)
    ensures r == s.(phases := r.phases, current := r.current, studyPhases := r.studyPhases,
                    previousElapsed := r.previousElapsed)
  {
    var p := Current(s);
    var studyPhases := if p.isStudy then s.studyPhases + 1 else s.studyPhases;
    var previous := if p.isStudy then s.previousElapsed + s.phaseElapsed else s.previousElapsed;
    var ended := RepetitionsEnded(p);
    var done := if ended then p.(completed := 0) else p.(completed := p.completed + 1);
    var target := if ended then NextAfter(s.current) else Next(s.current);
    var s1 := s.(phases := Put(s.phases, s.current, done), current := target,
                 studyPhases := studyPhases, previousElapsed := previous);
    ResetCurrentTime(s1, now)
  }

  /** The repetition counter stays in range: from a count below the
      session number, `next_phase` leaves one below it too, so the
      displayed "[n/sessions]" runs from 1 to the number of sessions. */
  lemma NextPhaseKeepsCounter(s: Session, now: int)
    requires Valid(s) && CounterInRange(s)
    ensures CounterInRange(NextPhase(s, now))
  {
  }

  /** A negative session count sends every study phase to the long
      break: `next_phase` tests the count for being non-zero, not
      positive. */
  lemma NegativeSessionsAlwaysLong(s: Session, now: int)
    requires Valid(s) && s.current == Study && s.phases.study.repetitions < 0
    requires s.phases.study.completed >= -1
    ensures NextPhase(s, now).current == LongBreak
  {
  }

  /** The phases the timer visits from `s` through `n` phase changes at
      the same instant, starting with the current one. */
  function Visits(s: Session, n: nat, now: int): (r: seq<PhaseId>)
    requires Valid(s)
    ensures |r| == n + 1 && r[0] == s.current
    ensures forall i | 0 <= i < n :: r[i + 1] != r[i]
    decreases n
  {
    if n == 0 then [s.current]
    else
      var rest := Visits(NextPhase(s, now), n - 1, now);
      assert forall i | 1 <= i < n :: ([s.current] + rest)[i + 1] == rest[i];
      [s.current] + rest
  }

  /** One round from a study phase with counter `c` below the session
      number `n`: a short break and back to study with counter `c + 1`,
      or, when that was the last session, the long break and back to
      study with the counter reset. */
  lemma StudyRound(s: Session, now: int)
    requires Valid(s) && s.current == Study
    requires 0 <= s.phases.study.completed < s.phases.study.repetitions
    ensures var s2 := NextPhase(NextPhase(s, now), now);
      && s2.current == Study
      && s2.phases.study.repetitions == s.phases.study.repetitions
      && s2.phases.study.completed ==
         (if s.phases.study.completed + 1 < s.phases.study.repetitions then s.phases.study.completed + 1 else 0)
      && NextPhase(s, now).current ==
         (if s.phases.study.completed + 1 < s.phases.study.repetitions then ShortBreak else LongBreak)
  {
    var s1 := NextPhase(s, now);
    assert s1.current != Study;
    assert s1.phases.study == NextPhase(s, now).phases.study;
    assert Current(s1).repetitions == 0;
  }

  /** With four sessions from a fresh start the timer runs study, short
      break, study, short break, study, short break, study, long break,
      and study again. */
  lemma {:induction false} FourSessionCycle(s: Session, now: int)
    requires Valid(s) && s.current == Study
    requires s.phases.study.repetitions == 4 && s.phases.study.completed == 0
    ensures Visits(s, 8, now) == [Study, ShortBreak, Study, ShortBreak, Study, ShortBreak, Study, LongBreak, Study]
  {
    var s0 := s;
    StudyRound(s0, now);
    var s2 := NextPhase(NextPhase(s0, now), now);
    StudyRound(s2, now);
    var s4 := NextPhase(NextPhase(s2, now), now);
    StudyRound(s4, now);
    var s6 := NextPhase(NextPhase(s4, now), now);
    StudyRound(s6, now);
    var s8 := NextPhase(NextPhase(s6, now), now);
    assert Visits(s8, 0, now) == [Study];
    assert Visits(NextPhase(s6, now), 1, now) == [LongBreak, Study];
    assert Visits(s6, 2, now) == [Study, LongBreak, Study];
    assert Visits(NextPhase(s4, now), 3, now) == [ShortBreak, Study, LongBreak, Study];
    assert Visits(s4, 4, now) == [Study, ShortBreak, Study, LongBreak, Study];
    assert Visits(NextPhase(s2, now), 5, now) == [ShortBreak, Study, ShortBreak, Study, LongBreak, Study];
    assert Visits(s2, 6, now) == [Study, ShortBreak, Study, ShortBreak, Study, LongBreak, Study];
    assert Visits(NextPhase(s0, now), 7, now)
        == [ShortBreak, Study, ShortBreak, Study, ShortBreak, Study, LongBreak, Study];
  }

  // ---------------------------------------------------------------------
  // The time-keeping routine

  /** The quote window after `place_random_quote`, given the line the
      random pick read from the quotes file (None when the file cannot be
      opened: then two fixed lines are added to what is there).  The pick
      itself and the file reading are not part of the model. */
  function PlaceRandomQuote(w: Windows.Window, line: Option<string>): (r: Windows.Window)
    requires Windows.Valid(w)
    requires line.Some? ==> '@' in line.value && '\n' !in line.value && |line.value| + 1 < Formats.BUFLEN
    ensures Windows.Valid(r) && r == w.(raw := r.raw)
    ensures line.Some? ==>
      var (quote, author) := Formats.SplitQuote(line.value);
      r.raw == [quote, author] && quote + "@" + author == line.value
    ensures line.None? && |w.raw| + 2 <= Windows.MAX_LINES ==>
      r.raw == w.raw + ["God is dead and we killed him.", "~Harambe"]
  {
    match line
    case None =>
      var w1 := Windows.AddLine(w, "God is dead and we killed him.").0;
      Windows.AddLine(w1, "~Harambe").0
    case Some(text) =>
      var (quote, author) := Formats.SplitQuote(text);
      var w1 := Windows.DeleteAllLines(w).0;
      var w2 := Windows.AddLine(w1, quote).0;
      Windows.AddLine(w2, author).0
  }

  predicate QuoteLine(line: Option<string>) {
    line.Some? ==> '@' in line.value && '\n' !in line.value && |line.value| + 1 < Formats.BUFLEN
  }

  /** The tone set for the coming change: three slow beeps after study,
      five fast ones after a break. */
  function ToneAfter(p: Phase): (t: Tone)
    ensures p.isStudy ==> t == Tone(3, 3)
    ensures !p.isStudy ==> t == Tone(5, 10)
  {
    if p.isStudy then Tone(3, 3) else Tone(5, 10)
  }

  /** Whether an unpaused tick at `now` ends the current phase: its whole
      minutes (C division) have reached the duration. */
  predicate PhaseOver(s: Session, now: int) {
    CDiv(now - Current(s).started, 60) >= Current(s).duration
  }

  /** What a running tick does before looking at the phase: the phase and
      study times are brought up to `now`, counting the phase towards the
      study time only when it is a study phase, and the tone for the coming
      change is chosen. */
  function UpdateTimes(s: Session, now: int): (r: Session)
    requires Valid(s)
    ensures Valid(r) && r.phases == s.phases && r.current == s.current
    ensures r.phaseElapsed == now - Current(s).started
    ensures r.studyElapsed - r.previousElapsed == (if Current(s).isStudy then r.phaseElapsed else 0)
    ensures r == s.(phaseElapsed := r.phaseElapsed, studyElapsed := r.studyElapsed, tone := r.tone)
  {
    var p := Current(s);
    var elapsed := now - p.started;
    s.(tone := ToneAfter(p), phaseElapsed := elapsed,
       studyElapsed := (if p.isStudy then elapsed else 0) + s.previousElapsed)
  }

  /** One pass of `advance_routine` at time `now`.  Paused, the current
      phase's start is pushed forward so that its elapsed time stays
      frozen.  Running, the phase and study times are brought up to date
      and, once the phase is over, the timer moves to the next phase,
      loads a new quote and asks for a redraw. */
  function Tick(s: Session, now: int, quote: Option<string>): (r: Session)
    requires Valid(s) && QuoteLine(quote)
    ensures Valid(r)
    ensures s.paused ==>
      && now - Current(r).started == s.frozenElapsed
      && r == s.(phases := r.phases)
      && Current(r) == Current(s).(started := Current(r).started)
    ensures !s.paused && !PhaseOver(s, now) ==>
      && r.phaseElapsed == now - Current(s).started
      && r.studyElapsed == s.previousElapsed + (if Current(s).isStudy then r.phaseElapsed else 0)
      && r == s.(phaseElapsed := r.phaseElapsed, studyElapsed := r.studyElapsed, tone := ToneAfter(Current(s)))
    ensures !s.paused && PhaseOver(s, now) ==>
      && r.current != s.current && r.forceReload
      && r.phaseElapsed == now - Current(s).started
      && r.studyElapsed == s.previousElapsed + (if Current(s).isStudy then r.phaseElapsed else 0)
      && r.previousElapsed == r.studyElapsed
      && r.studyPhases == s.studyPhases + (if Current(s).isStudy then 1 else 0)
      && (RepetitionsEnded(Current(s)) ==> r.current == LongBreak && r.phases.study.completed == 0)
      && (!RepetitionsEnded(Current(s)) ==>
            r.current == Next(s.current) && Get(r.phases, s.current).completed == Current(s).completed + 1)
      && Current(r) == Get(s.phases, r.current).(started := now)
      && r.tone == ToneAfter(Current(s))
      && r.panels.quote == PlaceRandomQuote(s.panels.quote, quote)
      && r.running == s.running
    ensures !s.paused ==> r.paused == s.paused
    ensures r.current != s.current <==> !s.paused && PhaseOver(s, now)
  {
    if s.paused then ResetCurrentTime(s, now - s.frozenElapsed)
    else
      var s1 := UpdateTimes(s, now);
      if CDiv(now - Current(s).started, 60) >= Current(s).duration then
        var s2 := NextPhase(s1, now);
        s2.(panels := s2.panels.(quote := PlaceRandomQuote(s2.panels.quote, quote)), forceReload := true)
      else s1
  }

  /** Pausing and resuming at any later instant loses no time: after a
      paused tick and a resume, the next tick finds the phase exactly as
      far along as when it was paused. */
  lemma PauseResumeKeepsElapsed(s: Session, paused: int, resumed: int, quote: Option<string>)
    requires Valid(s) && QuoteLine(quote)
    requires !PhaseOver(s, paused)
    ensures var r := Tick(StartTime(Tick(PauseTime(s, paused), resumed, quote)), resumed, quote);
      r.phaseElapsed == paused - Current(s).started && r.current == s.current
  {
    var s1 := Tick(PauseTime(s, paused), resumed, quote);
    assert Current(s1).started == resumed - (paused - Current(s).started);
    assert Current(s1).duration == Current(s).duration;
  }

  /** While paused, any number of ticks at any times leave the phase
      where it was: no phase change, and the frozen time is unchanged. */
  lemma PausedTickKeepsPhase(s: Session, now: int, quote: Option<string>)
    requires Valid(s) && QuoteLine(quote) && s.paused
    ensures Tick(s, now, quote).current == s.current
    ensures Tick(s, now, quote).paused && Tick(s, now, quote).frozenElapsed == s.frozenElapsed
  {
  }

  /** A phase change from a tick keeps the counter in range too. */
  lemma TickKeepsCounter(s: Session, now: int, quote: Option<string>)
    requires Valid(s) && QuoteLine(quote) && CounterInRange(s)
    ensures CounterInRange(Tick(s, now, quote))
  {
    if !s.paused && PhaseOver(s, now) {
      NextPhaseKeepsCounter(UpdateTimes(s, now), now);
    }
  }

  // ---------------------------------------------------------------------
  // The key-handling routine

  /** A yes/no dialog as `keypress_routine` builds it: padding 4, the
      question under one blank line, centred horizontally. */
  function Confirm(question: string): (d: Dialogs.Dialog)
    requires |question| < CStrings.MAX_WIDTH
    ensures Dialogs.Valid(d) && d.active == 0
    ensures d.window.raw == ["", question] && d.window.padding == 4
    ensures d.centerX && !d.centerY
  {
    var d := Dialogs.CreateDialog(0, Y_BORDER);
    var d := Dialogs.DialogSetPadding(d, 4);
    var d := Dialogs.DialogSetText(d, question, 1);
    assert seq(1, _ => "") == [""];
    Dialogs.DialogCenter(d, 1, 0)
  }

  /** The answer `dialogWaitResponse` gives to the bytes typed; the
      source waits until an enter arrives.  The redraws while waiting do
      not move the highlight, so the answer does not depend on the
      terminal size. */
  function Ask(question: string, typed: seq<Byte>): (answer: int)
    requires |question| < CStrings.MAX_WIDTH
    requires KEY_ENTER in Dialogs.Events(typed)
    ensures answer == 0 || answer == 1
  {
    Dialogs.WaitResponse(Confirm(question).active, Dialogs.Events(typed)).1.value
  }

  /** `Ask` is what the dialog answers when `keypress_routine` shows it in
      a terminal of any size and then waits for a response. */
  lemma AskIsDialogAnswer(question: string, typed: seq<Byte>, terminal: Colors.Rectangle)
    requires |question| < CStrings.MAX_WIDTH
    requires KEY_ENTER in Dialogs.Events(typed)
    ensures Dialogs.DialogWaitResponse(Dialogs.DialogShow(Confirm(question), terminal), terminal, typed).1
      == Some(Ask(question, typed))
  {
  }

  /** `set_windows_visibility`: every window but the controls. */
  function SetWindowsVisibility(p: Panels, visibility: int): (r: Panels)
    requires PanelsValid(p)
    ensures PanelsValid(r) && r.controls == p.controls
    ensures Windows.IsFlag(visibility) ==>
      && r.phase.visible == (visibility == 1) && r.total.visible == (visibility == 1)
      && r.quote.visible == (visibility == 1) && r.paused.visible == (visibility == 1)
  {
    p.(phase := Windows.SetVisibility(p.phase, visibility),
       total := Windows.SetVisibility(p.total, visibility),
       quote := Windows.SetVisibility(p.quote, visibility),
       paused := Windows.SetVisibility(p.paused, visibility))
  }

  /** What one pass of `keypress_routine` reads: the two signal flags,
      the byte `poll_keypress` returned, and the bytes typed into each
      dialog it may open, with the quote line a 'q' would load. */
  datatype Input = Input(
    sigint: bool,
    sigwinch: bool,
    exitTyped: seq<Byte>,
    key: int,
    skipTyped: seq<Byte>,
    quote: Option<string>)

  /** Upper-case ASCII letters are folded to lower case. */
  function Lower(key: int): (k: int)
    ensures 65 <= key <= 90 ==> k == key + 32
    ensures !(65 <= key <= 90) ==> k == key
  {
    if 65 <= key <= 90 then key + 32 else key
  }

  const EXIT_QUESTION: string := "Exit pomodoro?"
  const SKIP_QUESTION: string := "Do you want to skip the current session?"

  /** The dialogs wait for an enter, so the bytes typed must hold one
      wherever a dialog opens, and a quote line must be splittable. */
  predicate Answerable(input: Input) {
    && (input.sigint ==> KEY_ENTER in Dialogs.Events(input.exitTyped))
    && (Lower(input.key) == 's' as int ==> KEY_ENTER in Dialogs.Events(input.skipTyped))
    && QuoteLine(input.quote)
  }

  /** The signal part of one pass: on an interrupt the windows are hidden
      and the exit dialog asked; "yes" (1) stops the loop, anything else
      shows the windows again and asks for a redraw.  A resize only asks
      for a redraw. */
  function HandleSignals(s: Session, input: Input): (r: Session)
    requires Valid(s) && Answerable(input)
    ensures Valid(r)
    ensures input.sigint ==>
      (!r.running <==> Ask(EXIT_QUESTION, input.exitTyped) == 1 || !s.running)
    ensures !input.sigint ==> r.running == s.running
    ensures !input.sigint && input.sigwinch ==> r == s.(forceReload := true)
    ensures !input.sigint && !input.sigwinch ==> r == s
    ensures r.phases == s.phases && r.current == s.current && r.paused == s.paused
  {
    if input.sigint then
      var hidden := s.(panels := SetWindowsVisibility(s.panels, 0));
      if Ask(EXIT_QUESTION, input.exitTyped) == 1 then hidden.(running := false)
      else hidden.(panels := SetWindowsVisibility(hidden.panels, 1), forceReload := true)
    else if input.sigwinch then s.(forceReload := true)
    else s
  }

  /** What 's' does once the skip dialog has given `answer`: with the
      windows hidden the timer pauses, moves to the next phase on a
      non-zero answer, and resumes with the windows shown again and a
      single beep queued. */
  function Skip(s: Session, answer: int, now: int): (r: Session)
    requires Valid(s)
    ensures Valid(r)
    ensures !r.paused && r.forceReload && r.tone.repetitions == 1
    ensures r.running == s.running
    ensures answer != 0 ==> r.current == NextPhase(s, now).current && r.phases == NextPhase(s, now).phases
    ensures answer == 0 ==>
      r.current == s.current && r.phases == s.phases && r.frozenElapsed == now - Current(s).started
  {
    var hidden := s.(panels := SetWindowsVisibility(s.panels, 0));
    var frozen := PauseTime(hidden, now);
    NextPhaseIgnoresPanels(s, frozen, now);
    var moved := if answer != 0 then NextPhase(frozen, now) else frozen;
    var shown := moved.(panels := SetWindowsVisibility(moved.panels, 1));
    StartTime(shown).(forceReload := true, tone := shown.tone.(repetitions := 1))
  }

  /** The key part of one pass: 'p' pauses a running timer or resumes a
      paused one; 's' pauses, asks whether to skip, moves to the next
      phase on a non-zero answer and then always resumes; 'q' loads a new
      quote; 'i' toggles the controls window.  Each asks for a redraw;
      other keys change nothing. */
  function HandleKey(s: Session, input: Input, now: int): (r: Session)
    requires Valid(s) && Answerable(input)
    ensures Valid(r)
    ensures var k := Lower(input.key);
      && (k == 'p' as int ==> r == (if s.paused then StartTime(s) else PauseTime(s, now)).(forceReload := true))
      && (k == 's' as int ==> !r.paused && r.forceReload && r.tone.repetitions == 1)
      && (k == 's' as int && Ask(SKIP_QUESTION, input.skipTyped) == 1 ==> r.current != s.current)
      && (k == 's' as int && Ask(SKIP_QUESTION, input.skipTyped) == 0 ==>
            r.current == s.current && r.phases == s.phases && r.frozenElapsed == now - Current(s).started)
      && (k == 'q' as int ==> r.forceReload && r.panels.quote.raw == PlaceRandomQuote(s.panels.quote, input.quote).raw)
      && (k == 'i' as int ==> r.forceReload && r.panels.controls.visible == !s.panels.controls.visible)
      && (k != 'p' as int && k != 's' as int && k != 'q' as int && k != 'i' as int ==> r == s)
    ensures Lower(input.key) != 's' as int ==> r.current == s.current
    ensures Lower(input.key) == 's' as int && Ask(SKIP_QUESTION, input.skipTyped) != 0 ==>
      r.current == NextPhase(s, now).current && r.phases == NextPhase(s, now).phases
    ensures Lower(input.key) != 's' as int && Lower(input.key) != 'p' as int ==>
      r.phases == s.phases && r.paused == s.paused
    ensures r.running == s.running
  {
    var k := Lower(input.key);
    if k == 'p' as int then
      (if s.paused then StartTime(s) else PauseTime(s, now)).(forceReload := true)
    else if k == 's' as int then Skip(s, Ask(SKIP_QUESTION, input.skipTyped), now)
    else if k == 'q' as int then
      s.(panels := s.panels.(quote := PlaceRandomQuote(s.panels.quote, input.quote)), forceReload := true)
    else if k == 'i' as int then
      s.(panels := s.panels.(controls := Windows.ToggleVisibility(s.panels.controls).0), forceReload := true)
    else s
  }

  /** One pass of `keypress_routine`: signals first, then the key read in
      the same pass. */
  function Keypress(s: Session, input: Input, now: int): (r: Session)
    requires Valid(s) && Answerable(input)
    ensures Valid(r)
    ensures !input.sigint && !input.sigwinch ==> r == HandleKey(s, input, now)
    ensures input.sigint && Ask(EXIT_QUESTION, input.exitTyped) == 1 ==> !r.running
    ensures !input.sigint ==> r.running == s.running
    ensures r.current == HandleKey(s, input, now).current
    ensures r.phases == HandleKey(s, input, now).phases
    ensures r.paused == HandleKey(s, input, now).paused
  {
    var signalled := HandleSignals(s, input);
    KeyIgnoresSignals(s, signalled, input, now);
    HandleKey(signalled, input, now)
  }

  /** Where a key sends the timer does not depend on the windows, the
      loop flag or a pending redraw, which are all the signals touch. */
  lemma KeyIgnoresSignals(s: Session, t: Session, input: Input, now: int)
    requires Valid(s) && Valid(t) && Answerable(input)
    requires t == s.(panels := t.panels, running := t.running, forceReload := t.forceReload)
    ensures HandleKey(t, input, now).current == HandleKey(s, input, now).current
    ensures HandleKey(t, input, now).phases == HandleKey(s, input, now).phases
    ensures HandleKey(t, input, now).paused == HandleKey(s, input, now).paused
  {
    if Lower(input.key) == 's' as int && Ask(SKIP_QUESTION, input.skipTyped) != 0 {
      NextPhaseIgnoresPanels(s, t, now);
    }
  }

  /** Where `next_phase` goes does not depend on the windows, the loop
      flag, a pending redraw or the pause state. */
  lemma NextPhaseIgnoresPanels(s: Session, t: Session, now: int)
    requires Valid(s) && Valid(t)
    requires t == s.(panels := t.panels, running := t.running, forceReload := t.forceReload,
                     paused := t.paused, frozenElapsed := t.frozenElapsed)
    ensures NextPhase(t, now).current == NextPhase(s, now).current
    ensures NextPhase(t, now).phases == NextPhase(s, now).phases
  {
  }

  /** Pressing 'p' twice resumes with the phase where it was: the second
      press only clears the pause flag. */
  lemma PauseTwiceResumes(s: Session, input: Input, now: int, later: int)
    requires Valid(s) && !s.paused && Answerable(input)
    requires Lower(input.key) == 'p' as int
    ensures var r := HandleKey(HandleKey(s, input, now), input, later);
      !r.paused && r.phases == s.phases && r.current == s.current && r.forceReload
  {
  }

  /** Upper and lower case keys do the same. */
  lemma KeyCaseInsensitive(s: Session, input: Input, now: int)
    requires Valid(s) && 97 <= input.key <= 122
    requires Answerable(input)
    ensures Answerable(input.(key := input.key - 32))
    ensures HandleKey(s, input.(key := input.key - 32), now) == HandleKey(s, input, now)
  {
  }

  /** Skipping from a study phase by answering "yes" to the dialog
      counts the study phase as done, exactly like reaching its end. */
  lemma SkipCountsStudy(s: Session, input: Input, now: int)
    requires Valid(s) && s.current == Study && Answerable(input)
    requires Lower(input.key) == 's' as int && Ask(SKIP_QUESTION, input.skipTyped) == 1
    ensures HandleKey(s, input, now).studyPhases == s.studyPhases + 1
    ensures HandleKey(s, input, now).previousElapsed == s.previousElapsed + s.phaseElapsed
  {
  }

  // ---------------------------------------------------------------------
  // Start-up

  /** `init_windows`, with the quote line the first pick reads. */
  function InitWindows(quote: Option<string>): (p: Panels)
    requires QuoteLine(quote)
    ensures PanelsValid(p)
    ensures p.phase.position == Colors.Position(0, Y_BORDER) && p.quote.position == Colors.Position(0, Y_BORDER)
    ensures p.controls.visible && !p.paused.visible
    ensures |p.controls.raw| == 1 && |p.paused.raw| == 1
    ensures p.phase.padding == PADDING && p.total.padding == PADDING && p.quote.padding == PADDING
    ensures !p.quote.autoWidth && !p.controls.autoWidth && !p.paused.autoWidth && !p.paused.autoHeight
  {
    var phase := Windows.CreateWindow(0, Y_BORDER);
    var phase := Windows.SetPadding(Windows.SetAlignment(phase, 0), PADDING);
    var phase := Windows.SetFgColor(phase, Colors.FG_RED);
    var total := Windows.CreateWindow(0, 0);
    var total := Windows.SetPadding(Windows.SetAlignment(total, 0), PADDING);
    var total := Windows.SetFgColor(total, Colors.FG_BRIGHT_YELLOW);
    var q := Windows.CreateWindow(0, Y_BORDER);
    var q := Windows.SetAutoWidth(Windows.SetPadding(Windows.SetAlignment(q, 0), PADDING), 0);
    var q := Windows.SetTextStyle(Windows.SetFgColor(q, Colors.FG_BRIGHT_BLUE), Colors.TEXT_ITALIC);
    var q := PlaceRandomQuote(q, quote);
    var controls := Windows.CreateWindow(0, 0);
    var controls := Windows.SetAutoWidth(Windows.SetPadding(Windows.SetAlignment(controls, 0), PADDING), 0);
    var controls := Windows.SetFgColor(controls, Colors.FG_BRIGHT_GREEN);
    var controls := Windows.AddLine(controls,
      "press S to skip, P to pause, Q to get and new quote, I to hide this window, CTRL+C to exit").0;
    var paused := Windows.CreateWindow(0, 0);
    var paused := Windows.SetAutoWidth(Windows.SetPadding(Windows.SetAlignment(paused, 0), PADDING), 0);
    var paused := Windows.SetAutoHeight(paused, 0);
    var paused := Windows.SetTextStyle(Windows.SetFgColor(paused, Colors.FG_BRIGHT_RED), Colors.TEXT_BLINKING);
    var paused := Windows.SetVisibility(paused, 0);
    var paused := Windows.AddLine(paused, "WARNING, TIMER IS CURRENTLY PAUSED").0;
    Panels(phase, total, q, controls, paused)
  }

  /** Start-up as `main` runs it without a saved session: phases from the
      command line or settings, fresh parameters (which start paused), the
      loop switched on, the study phase restarted and time started. */
  function InitSession(args: seq<string>, settings: Option<seq<string>>, quote: Option<string>, now: int): (s: Session)
    requires QuoteLine(quote)
    ensures Valid(s) && s.running && !s.paused && s.forceReload
    ensures s.current == Study && Current(s).started == now
    ensures s.studyPhases == 0 && s.previousElapsed == 0 && s.phaseElapsed == 0 && s.studyElapsed == 0
    ensures forall id: PhaseId :: Get(s.phases, id).completed == 0
    ensures var d := InitDurations(args, settings);
      s.phases.study.duration == d[0] && s.phases.shortBreak.duration == d[1]
      && s.phases.longBreak.duration == d[2] && s.phases.study.repetitions == d[3]
    ensures CounterInRange(s)
  {
    var phases := MakePhases(InitDurations(args, settings), now);
    var s := Session(phases, Study, false, 0, true, 0, 0, 0, true, 0, InitWindows(quote), Tone(0, 0));
    StartTime(ResetCurrentTime(s.(running := true), now))
  }

  /** A default start runs the default schedule: 45-minute study phases,
      15- and 30-minute breaks, four sessions before the long break. */
  lemma DefaultStart(settings: Option<seq<string>>, quote: Option<string>, now: int)
    requires QuoteLine(quote)
    requires settings.None? || |settings.value| < 4
    ensures var s := InitSession(["pomoc"], settings, quote, now);
      && s.phases.study.duration == 45 && s.phases.shortBreak.duration == 15
      && s.phases.longBreak.duration == 30 && s.phases.study.repetitions == 4
      && Visits(s, 8, now) == [Study, ShortBreak, Study, ShortBreak, Study, ShortBreak, Study, LongBreak, Study]
  {
    FourSessionCycle(InitSession(["pomoc"], settings, quote, now), now);
  }
}

=== FILE: window.dfy ===
/** The window record of the terminal toolkit and the functions that work
    on it: validated setters, the line buffer, sizing, alignment, the greedy
    line wrapper and the layout part of `windowShow`.

    A window keeps two buffers of MAX_LINES lines each: `raw` is the text
    buffer (its length is the line count) and `shown` holds the display
    slots, all MAX_LINES of them, because a slot the wrapper does not
    overwrite keeps whatever it held before.
 */
module Windows {

  import opened CInt
  import opened CStrings
  import opened Colors
  import opened Text

  const MAX_LINES: nat := 10

  datatype Window = Window(
    autoWidth: bool,
    autoHeight: bool,
    padding: int,
    alignment: int,
    lineWrap: bool,
    visible: bool,
    fg: int,
    bg: int,
    textStyle: int,
    raw: seq<string>,
    shown: seq<string>,
    size: Rectangle,
    position: Position)

  /** Every line fits a MAX_WIDTH buffer with its terminator. */
  predicate FitsBuffer(lines: seq<string>) {
    forall i | 0 <= i < |lines| :: |lines[i]| < MAX_WIDTH
  }

  /** What every operation keeps true of a window. */
  predicate Valid(w: Window) {
    && |w.raw| <= MAX_LINES && FitsBuffer(w.raw)
    && |w.shown| == MAX_LINES && FitsBuffer(w.shown)
    && w.padding >= 1
    && -1 <= w.alignment <= 1
    && w.size.width >= 0 && w.size.height >= 0
  }

  /** `createWindow`: a 1 x 1 visible, auto-sized, left-aligned, wrapping
      window with padding 1, default styles and no lines.  The display
      slots of the freshly allocated record hold no text. */
  function CreateWindow(x: int, y: int): (w: Window)
    ensures Valid(w)
    ensures w.raw == [] && w.visible && w.autoWidth && w.autoHeight && w.lineWrap
    ensures w.position == Position(x, y) && w.size == Rectangle(1, 1)
    ensures w.padding == 1 && w.alignment == -1
    ensures w.fg == FG_DEFAULT && w.bg == BG_DEFAULT && w.textStyle == TEXT_DEFAULT
  {
    Window(true, true, 1, -1, true, true, FG_DEFAULT, BG_DEFAULT, TEXT_DEFAULT,
           [], seq(MAX_LINES, _ => ""), CreateRectangle(1, 1), Position(x, y))
  }

  // ---------------------------------------------------------------------
  // Validated setters

  /** A flag argument the setters accept: 0 or 1. */
  predicate IsFlag(v: int) {
    v == 0 || v == 1
  }

  /** `windowSetSize`: negative dimensions are ignored. */
  function SetSize(w: Window, width: int, height: int): (r: Window)
    ensures Valid(w) ==> Valid(r)
    ensures width < 0 || height < 0 ==> r == w
    ensures width >= 0 && height >= 0 ==> r == w.(size := Rectangle(width, height))
  {
    if width < 0 || height < 0 then w
    else if width != w.size.width || height != w.size.height then w.(size := CreateRectangle(width, height))
    else w
  }

  /** `windowSetWidth`: a negative width is ignored.  (Erasing the old
      window from the screen is output only.) */
  function SetWidth(w: Window, width: int): (r: Window)
    ensures Valid(w) ==> Valid(r)
    ensures width < 0 ==> r == w
    ensures width >= 0 ==> r == w.(size := w.size.(width := width))
  {
    if width < 0 || width == w.size.width then w else w.(size := w.size.(width := width))
  }

  /** `windowSetHeight`: a negative height is ignored. */
  function SetHeight(w: Window, height: int): (r: Window)
    ensures Valid(w) ==> Valid(r)
    ensures height < 0 ==> r == w
    ensures height >= 0 ==> r == w.(size := w.size.(height := height))
  {
    if height < 0 || height == w.size.height then w else w.(size := w.size.(height := height))
  }

  /** `windowSetVisibility`: only 0 and 1 are accepted. */
  function SetVisibility(w: Window, visibility: int): (r: Window)
    ensures Valid(w) ==> Valid(r)
    ensures !IsFlag(visibility) ==> r == w
    ensures IsFlag(visibility) ==> r == w.(visible := visibility == 1)
  {
    if !IsFlag(visibility) then w else w.(visible := visibility == 1)
  }

  /** `windowToggleVisibility`, with the new visibility it returns. */
  function ToggleVisibility(w: Window): (r: (Window, int))
    ensures Valid(w) ==> Valid(r.0)
    ensures r.0.visible != w.visible && r.0 == w.(visible := r.0.visible)
    ensures r.1 == (if r.0.visible then 1 else 0)
  {
    var v := w.(visible := !w.visible);
    (v, if v.visible then 1 else 0)
  }

  /** Toggling twice restores the window. */
  lemma ToggleTwice(w: Window)
    ensures ToggleVisibility(ToggleVisibility(w).0).0 == w
  {
  }

  /** `windowGetSize`: a hidden window reports 0 x 0. */
  function GetSize(w: Window): (r: Rectangle)
    ensures w.visible ==> r == w.size
    ensures !w.visible ==> r.width == 0 && r.height == 0
  {
    if w.visible then w.size else CreateRectangle(0, 0)
  }

  /** `windowSetPosition`: a coordinate passed as -1 keeps its old value. */
  function SetPosition(w: Window, x: int, y: int): (r: Window)
    ensures Valid(w) ==> Valid(r)
    ensures r == w.(position := r.position)
    ensures r.position.x == (if x == -1 then w.position.x else x)
    ensures r.position.y == (if y == -1 then w.position.y else y)
  {
    var nx := if x == -1 then w.position.x else x;
    var ny := if y == -1 then w.position.y else y;
    w.(position := Position(nx, ny))
  }

  /** `windowMoveBy`. */
  function MoveBy(w: Window, dx: int, dy: int): (r: Window)
    ensures Valid(w) ==> Valid(r)
    ensures r == w.(position := Position(w.position.x + dx, w.position.y + dy))
  {
    w.(position := Position(w.position.x + dx, w.position.y + dy))
  }

  /** Moving by a displacement and back again restores the window. */
  lemma MoveByInverse(w: Window, dx: int, dy: int)
    ensures MoveBy(MoveBy(w, dx, dy), -dx, -dy) == w
  {
  }

  /** `windowGetBottomRight`: one past the last column and row. */
  function GetBottomRight(w: Window): (p: Position)
    ensures p.x - w.size.width == w.position.x && p.y - w.size.height == w.position.y
  {
    Position(w.position.x + w.size.width, w.position.y + w.size.height)
  }

  /** `windowSetPadding`: only positive padding is accepted. */
  function SetPadding(w: Window, padding: int): (r: Window)
    ensures Valid(w) ==> Valid(r)
    ensures padding <= 0 ==> r == w
    ensures padding > 0 ==> r == w.(padding := padding)
  {
    if padding > 0 then w.(padding := padding) else w
  }

  /** `windowSetAlignment`: only -1 (left), 0 (centre) and 1 (right). */
  function SetAlignment(w: Window, alignment: int): (r: Window)
    ensures Valid(w) ==> Valid(r)
    ensures !(-1 <= alignment <= 1) ==> r == w
    ensures -1 <= alignment <= 1 ==> r == w.(alignment := alignment)
  {
    if -1 <= alignment <= 1 then w.(alignment := alignment) else w
  }

  /** `windowSetAutoSize`: sets both automatic dimensions, 0 or 1 only. */
  function SetAutoSize(w: Window, autoSize: int): (r: Window)
    ensures Valid(w) ==> Valid(r)
    ensures !IsFlag(autoSize) ==> r == w
    ensures IsFlag(autoSize) ==> r == w.(autoWidth := autoSize == 1, autoHeight := autoSize == 1)
  {
    if !IsFlag(autoSize) then w else w.(autoWidth := autoSize == 1, autoHeight := autoSize == 1)
  }

  /** `windowSetAutoWidth`: 0 or 1 only. */
  function SetAutoWidth(w: Window, autoSize: int): (r: Window)
    ensures Valid(w) ==> Valid(r)
    ensures !IsFlag(autoSize) ==> r == w
    ensures IsFlag(autoSize) ==> r == w.(autoWidth := autoSize == 1)
  {
    if !IsFlag(autoSize) then w else w.(autoWidth := autoSize == 1)
  }

  /** `windowSetAutoHeight`: 0 or 1 only. */
  function SetAutoHeight(w: Window, autoSize: int): (r: Window)
    ensures Valid(w) ==> Valid(r)
    ensures !IsFlag(autoSize) ==> r == w
    ensures IsFlag(autoSize) ==> r == w.(autoHeight := autoSize == 1)
  {
    if !IsFlag(autoSize) then w else w.(autoHeight := autoSize == 1)
  }

  /** `windowSetLineWrap`: 0 or 1 only. */
  function SetLineWrap(w: Window, lineWrap: int): (r: Window)
    ensures Valid(w) ==> Valid(r)
    ensures !IsFlag(lineWrap) ==> r == w
    ensures IsFlag(lineWrap) ==> r == w.(lineWrap := lineWrap == 1)
  {
    if !IsFlag(lineWrap) then w else w.(lineWrap := lineWrap == 1)
  }

  /** `windowSetFGcolor`: stored without validation; `windowShow` emits
      it through the guard of `set_fg`. */
  function SetFgColor(w: Window, color: int): Window {
    w.(fg := color)
  }

  /** `windowSetBGcolor`: stored without validation. */
  function SetBgColor(w: Window, color: int): Window {
    w.(bg := color)
  }

  /** `windowSetTextStyle`: stored without validation; `windowShow` only
      emits it when it passes the text-mode guard. */
  function SetTextStyle(w: Window, style: int): Window {
    w.(textStyle := style)
  }

  /** A setter given an argument it refuses leaves the window as it was;
      one given an accepted argument twice is no different from once. */
  lemma SettersIdempotent(w: Window, v: int)
    ensures SetVisibility(SetVisibility(w, v), v) == SetVisibility(w, v)
    ensures SetPadding(SetPadding(w, v), v) == SetPadding(w, v)
    ensures SetAlignment(SetAlignment(w, v), v) == SetAlignment(w, v)
    ensures SetAutoSize(SetAutoSize(w, v), v) == SetAutoSize(w, v)
    ensures SetLineWrap(SetLineWrap(w, v), v) == SetLineWrap(w, v)
  {
  }

  // ---------------------------------------------------------------------
  // Line buffer

  /** `windowAddLine` with the bound it evidently intends: a full buffer
      refuses the line (-1); otherwise the line is appended and the size of
      a line buffer is returned. */
  function AddLine(w: Window, line: string): (r: (Window, int))
    requires |line| < MAX_WIDTH
    ensures Valid(w) ==> Valid(r.0)
    ensures r.1 == -1 <==> |w.raw| >= MAX_LINES
    ensures r.1 == -1 ==> r.0 == w
    ensures r.1 != -1 ==> r.1 == MAX_WIDTH && r.0 == w.(raw := w.raw + [line])
  {
    if |w.raw| >= MAX_LINES then (w, -1)
    else (w.(raw := w.raw + [line]), MAX_WIDTH as int)
  }

  /** `windowAddLine` as written: the guard is `lines > MAX_LINES`, so a
      full buffer still takes one more line, in the slot just past the
      text buffer. */
  function AddLineAsWritten(w: Window, line: string): (r: (Window, int))
    requires |line| < MAX_WIDTH
    ensures r.1 == -1 <==> |w.raw| > MAX_LINES
    ensures r.1 != -1 ==> r.0.raw == w.raw + [line]
  {
    if |w.raw| > MAX_LINES then (w, -1)
    else (w.(raw := w.raw + [line]), MAX_WIDTH as int)
  }

  /** A full, valid window given one more line by the code as written ends
      up with MAX_LINES + 1 lines, which no buffer holds. */
  lemma AddLineAsWrittenOverflows(w: Window)
    requires Valid(w) && |w.raw| == MAX_LINES
    ensures AddLineAsWritten(w, "").1 == MAX_WIDTH
    ensures |AddLineAsWritten(w, "").0.raw| == MAX_LINES + 1
    ensures !Valid(AddLineAsWritten(w, "").0)
    ensures AddLine(w, "") == (w, -1)
  {
  }

  /** Filling a fresh window: after MAX_LINES additions the corrected
      buffer refuses, the written one does not. */
  lemma AddLineFull()
    ensures var w := CreateWindow(0, 0).(raw := seq(MAX_LINES, _ => "x"));
            Valid(w) && AddLine(w, "y").1 == -1 && AddLineAsWritten(w, "y").1 == MAX_WIDTH
  {
  }

  /** `windowChangeLine`: an index past the line count is refused; the
      index equal to the count writes a slot outside the text, which the
      model does not keep. */
  function ChangeLine(w: Window, line: string, index: int): (r: (Window, int))
    requires 0 <= index && |line| < MAX_WIDTH
    ensures Valid(w) ==> Valid(r.0)
    ensures r.1 == -1 <==> index > |w.raw|
    ensures r.1 != -1 ==> r.1 == MAX_WIDTH
    ensures index < |w.raw| ==> r.0 == w.(raw := w.raw[index := line])
    ensures index >= |w.raw| ==> r.0 == w
  {
    if index > |w.raw| then (w, -1)
    else if index == |w.raw| then (w, MAX_WIDTH as int)
    else (w.(raw := w.raw[index := line]), MAX_WIDTH as int)
  }

  /** `windowDeleteLine`: an index at or past the count is refused (-1);
      otherwise the line goes, the later lines move down one in order, and
      the new count is returned. */
  function DeleteLine(w: Window, index: int): (r: (Window, int))
    requires 0 <= index
    ensures Valid(w) ==> Valid(r.0)
    ensures r.1 == -1 <==> index >= |w.raw|
    ensures r.1 == -1 ==> r.0 == w
    ensures r.1 != -1 ==>
      && r.1 == |w.raw| - 1 == |r.0.raw|
      && r.0 == w.(raw := r.0.raw)
      && (forall i | 0 <= i < index :: r.0.raw[i] == w.raw[i])
      && (forall i | index <= i < |r.0.raw| :: r.0.raw[i] == w.raw[i + 1])
  {
    if index >= |w.raw| then (w, -1)
    else
      var raw := w.raw[..index] + w.raw[index + 1..];
      (w.(raw := raw), |raw|)
  }

  /** Deleting the line just added gives the window back. */
  lemma DeleteAfterAdd(w: Window, line: string)
    requires |line| < MAX_WIDTH && |w.raw| < MAX_LINES
    ensures DeleteLine(AddLine(w, line).0, |w.raw|) == (w, |w.raw|)
  {
    var raw := w.raw + [line];
    assert raw[..|w.raw|] == w.raw;
    assert raw[|w.raw| + 1..] == [];
    assert raw[..|w.raw|] + raw[|w.raw| + 1..] == w.raw;
  }

  /** `windowDeleteAllLines`. */
  function DeleteAllLines(w: Window): (r: (Window, int))
    ensures Valid(w) ==> Valid(r.0)
    ensures r.0.raw == [] && r.1 == 0 && r.0 == w.(raw := [])
  {
    (w.(raw := []), 0)
  }

  // ---------------------------------------------------------------------
  // Sizing and alignment

  /** `_windowCalculateLongestLine`: the greatest line length, 0 if none. */
  function Longest(lines: seq<string>): (n: nat)
    ensures forall i | 0 <= i < |lines| :: |lines[i]| <= n
    ensures |lines| == 0 ==> n == 0
    ensures |lines| > 0 ==> exists i | 0 <= i < |lines| :: |lines[i]| == n
  {
    if |lines| == 0 then 0
    else
      var m := Longest(lines[..|lines| - 1]);
      var last := |lines[|lines| - 1]|;
      assert forall i | 0 <= i < |lines| - 1 :: lines[i] == lines[..|lines| - 1][i];
      if last > m then last else m
  }

  /** `_windowAutoWidth`: the longest line, the two border columns and the
      padding on both sides. */
  function AutoWidth(w: Window, longest: nat): (r: Window)
    ensures Valid(w) ==> Valid(r)
    ensures r == w.(size := r.size) && r.size.height == w.size.height
    ensures r.size.width - 2 * w.padding - 2 == longest
  {
    w.(size := w.size.(width := longest + 2 + w.padding * 2))
  }

  /** `_windowAutoHeight`: one row per line plus the two border rows. */
  function AutoHeight(w: Window): (r: Window)
    ensures Valid(w) ==> Valid(r)
    ensures r == w.(size := r.size) && r.size.width == w.size.width
    ensures r.size.height - 2 == |w.raw|
  {
    w.(size := w.size.(height := |w.raw| + 2))
  }

  /** Columns between the padding on either side: the width less the two
      border columns and the padding on both sides. */
  function Interior(w: Window): int {
    w.size.width - 2 * w.padding - 2
  }

  /** `_windowCalculateSpacing`: blank columns to put before a line of
      length `len`.  Left alignment (and any alignment other than 0 and 1)
      gives none; right alignment makes the line end at the interior's
      right edge; centring halves the slack with C division, which rounds
      toward zero: an odd slack leaves the extra column after the line when
      it is positive and before it when it is negative. */
  function Spacing(w: Window, len: int): (r: int)
    ensures w.alignment != 0 && w.alignment != 1 ==> r == 0
    ensures w.alignment == 1 ==> r + len == Interior(w)
    ensures w.alignment == 0 && Interior(w) - len >= 0 ==>
      0 <= (Interior(w) - len) - 2 * r <= 1
    ensures w.alignment == 0 && Interior(w) - len < 0 ==>
      -1 <= (Interior(w) - len) - 2 * r <= 0
    ensures w.alignment == 0 && Interior(w) >= len ==> 0 <= r && r + len <= Interior(w)
  {
    if w.alignment == -1 then 0
    else if w.alignment == 0 then
      CDivByTwo(Interior(w) - len);
      CDiv(Interior(w) - len, 2)
    else if w.alignment == 1 then Interior(w) - len
    else 0
  }

  /** On an odd negative slack C division rounds toward zero: a line one
      column wider than the interior starts at column 0 of it, not -1. */
  lemma SpacingCentredOverflow(w: Window)
    requires w.alignment == 0
    ensures Spacing(w, Interior(w) + 1) == 0
  {
  }

  // ---------------------------------------------------------------------
  // Line wrapping

  /** One display line produced by the wrapper: copied text, or a slot the
      wrapper passes over because the copy was rejected. */
  datatype Segment = Wrapped(text: string) | Skipped

  function SegmentOf(c: Copy): (s: Segment)
    ensures s.Wrapped? <==> c.Copied?
    ensures s.Wrapped? ==> s.text == c.text
  {
    if c.Copied? then Wrapped(c.text) else Skipped
  }

  /** All copied texts are at most `bound` long. */
  predicate CopiesWithin(segs: seq<Segment>, bound: int) {
    forall k | 0 <= k < |segs| :: segs[k].Wrapped? ==> |segs[k].text| <= bound
  }

  /** The inner loop of `_windowLinesWrap` on the trimmed line `t`, from
      `pos`: look for a break point at or before `pos + width`; with none
      at or after `pos`, the remainder is copied whole; otherwise the text
      before the break is copied (inclusive end `break - 1`) and scanning
      resumes after the break. */
  function WrapFrom(t: string, width: int, pos: nat): (segs: seq<Segment>)
    requires pos < |t|
    ensures |segs| >= 1
    ensures CopiesWithin(segs, |t|)
    decreases |t| - pos
  {
    var j := FindFirstSpace(t, pos + width);
    var end := if j == -1 || j < pos then |t| else j - 1;
    var seg := SegmentOf(CopyNBytes(t, pos, end));
    var next := end + 2;
    if next < |t| then
      var rest := WrapFrom(t, width, next);
      assert forall k | 1 <= k < |[seg] + rest| :: ([seg] + rest)[k] == rest[k - 1];
      [seg] + rest
    else [seg]
  }

  /** What `_windowLinesWrap` produces for one line of the text buffer:
      the trimmed line, whole when it fits the interior width, otherwise
      broken up by `WrapFrom`. */
  function LineSegments(line: string, width: int): (segs: seq<Segment>)
    ensures CopiesWithin(segs, |line|)
  {
    var t := Trim(line);
    if |t| > width then
      if |t| == 0 then [] else WrapFrom(t, width, 0)
    else [Wrapped(t)]
  }

  /** The segments of all lines of the text buffer, in order. */
  function AllSegments(lines: seq<string>, width: int): (segs: seq<Segment>)
    ensures FitsBuffer(lines) ==> CopiesWithin(segs, MAX_WIDTH - 1)
  {
    if |lines| == 0 then []
    else
      var head := LineSegments(lines[0], width);
      var rest := AllSegments(lines[1..], width);
      CopiesWithinAppend(head, rest, lines, MAX_WIDTH - 1);
      head + rest
  }

  lemma CopiesWithinAppend(head: seq<Segment>, rest: seq<Segment>, lines: seq<string>, bound: int)
    requires |lines| > 0 && CopiesWithin(head, |lines[0]|)
    requires FitsBuffer(lines[1..]) ==> CopiesWithin(rest, bound)
    requires bound == MAX_WIDTH - 1
    ensures FitsBuffer(lines) ==> CopiesWithin(head + rest, bound)
  {
    if FitsBuffer(lines) {
      assert |lines[0]| < MAX_WIDTH;
      assert forall i | 0 <= i < |lines| - 1 :: lines[1..][i] == lines[i + 1];
      assert FitsBuffer(lines[1..]);
      forall k | 0 <= k < |head + rest|
        ensures (head + rest)[k].Wrapped? ==> |(head + rest)[k].text| <= bound
      {
        if k >= |head| {
          assert (head + rest)[k] == rest[k - |head|];
        }
      }
    }
  }

  /** Writes segments into the display slots from slot 0: a copied segment
      replaces its slot, a skipped one leaves the slot's old text. */
  function Place(shown: seq<string>, segs: seq<Segment>): (r: seq<string>)
    requires |segs| <= |shown|
    ensures |r| == |shown|
    ensures forall i | 0 <= i < |segs| :: r[i] == (if segs[i].Wrapped? then segs[i].text else shown[i])
    ensures forall i | |segs| <= i < |shown| :: r[i] == shown[i]
  {
    seq(|shown|, i requires 0 <= i < |shown| =>
      if i < |segs| && segs[i].Wrapped? then segs[i].text else shown[i])
  }

  /** The line count after the height check of `_windowLinesWrap`: a
      window with automatic height grows to fit; any other keeps at most
      `height - 2` lines.  The count is not clamped, so a window less than
      two rows high without automatic height gets a negative count. */
  function FitCount(n: nat, height: int, autoHeight: bool): (c: int)
    ensures c <= n
    ensures autoHeight ==> c == n
    ensures !autoHeight ==> c == n || c == height - 2
    ensures !autoHeight ==> c <= height - 2 || n <= height - 2
    ensures c < 0 <==> !autoHeight && height < 2 && n > height - 2
  {
    if n > height - 2 && autoHeight then n
    else if n > height - 2 then height - 2
    else n
  }

  /** Number of display slots `_windowLinesWrap` as written fills, one per
      segment, with no bound. */
  function WrapSlotsAsWritten(w: Window): (n: nat)
    ensures n == |AllSegments(w.raw, Interior(w))|
  {
    |AllSegments(w.raw, Interior(w))|
  }

  /** The segments the capped wrapper writes: those of all lines, up to
      the last display slot. */
  function KeptSegments(w: Window): (segs: seq<Segment>)
    ensures |segs| <= MAX_LINES
    ensures segs <= AllSegments(w.raw, Interior(w))
    ensures |segs| == MAX_LINES || segs == AllSegments(w.raw, Interior(w))
  {
    var all := AllSegments(w.raw, Interior(w));
    if |all| > MAX_LINES then all[..MAX_LINES] else all
  }

  /** `_windowLinesWrap`, with the wrapper stopping at the last display
      slot: wraps every line, fills the display slots, applies the height
      check and copies the displayed lines back into the text buffer.  The
      returned count is the source's, negative for a window less than two
      rows high without automatic height; the text buffer is then empty. */
  function LinesWrap(w: Window): (r: (Window, int))
    requires Valid(w)
    ensures Valid(r.0)
    ensures r.1 == FitCount(|KeptSegments(w)|, w.size.height, w.autoHeight)
    ensures r.1 >= 0 ==> |r.0.raw| == r.1
    ensures r.1 < 0 ==> r.0.raw == []
    ensures r.0.shown == Place(w.shown, KeptSegments(w))
    ensures r.0.raw == r.0.shown[..|r.0.raw|]
    ensures r.0 == w.(raw := r.0.raw, shown := r.0.shown, size := r.0.size)
    ensures r.0.size.width == w.size.width
    ensures r.0.size.height >= |r.0.raw| + 2 || (!w.autoHeight && w.size.height < 2 && |r.0.raw| == 0)
    ensures w.autoHeight ==> r.0.size.height >= |r.0.raw| + 2
  {
    var kept := KeptSegments(w);
    var shown := Place(w.shown, kept);
    var n := |kept|;
    var count := FitCount(n, w.size.height, w.autoHeight);
    var height := if n > w.size.height - 2 && w.autoHeight then n + 2 else w.size.height;
    (w.(raw := shown[..if count < 0 then 0 else count], shown := shown, size := w.size.(height := height)), count)
  }

  /** `_windowLinesUnbuffer`: the text buffer is copied to the display. */
  function Unbuffer(w: Window): (r: Window)
    requires Valid(w)
    ensures Valid(r)
    ensures r == w.(shown := r.shown)
    ensures r.shown[..|w.raw|] == w.raw
    ensures r.shown[|w.raw|..] == w.shown[|w.raw|..]
  {
    w.(shown := w.raw + w.shown[|w.raw|..])
  }

  // --- Wrapper properties

  /** A trimmed line no longer than the interior width becomes exactly
      one display line. */
  lemma ShortLineOneSegment(line: string, width: int)
    requires |Trim(line)| <= width
    ensures LineSegments(line, width) == [Wrapped(Trim(line))]
  {
  }

  /** With no space at or after `pos` and at least two characters left,
      the whole remainder becomes one display line: there is no hard cut
      at the width. */
  lemma WrapNoSpace(t: string, width: int, pos: nat)
    requires pos + 1 < |t|
    requires forall k | pos <= k < |t| :: t[k] != ' '
    ensures WrapFrom(t, width, pos) == [Wrapped(t[pos..])]
  {
    var j := FindFirstSpace(t, pos + width);
    if 0 <= pos + width < |t| && j >= 0 {
      assert t[j] == ' ';
    }
    assert j == -1 || j < pos || j == |t|;
    var end := if j == -1 || j < pos then |t| else j - 1;
    assert end == |t| || end == |t| - 1;
    assert t[pos..|t|] == t[pos..];
    assert CopyNBytes(t, pos, end) == Copy.Copied(t[pos..], end - pos);
  }

  /** One step of the wrapper: with the last space at or before
      `pos + width` at index `j` (and more than one character before it),
      the display line is `t[pos..j]`, the space is dropped and the next
      line starts at `j + 1`. */
  lemma WrapCutsAtLastSpace(t: string, width: int, pos: nat, j: nat)
    requires pos + 1 < j <= pos + width < |t|
    requires t[j] == ' '
    requires forall k | j < k <= pos + width :: t[k] != ' '
    ensures WrapFrom(t, width, pos)[0] == Wrapped(t[pos..j])
    ensures j + 1 < |t| ==> WrapFrom(t, width, pos)[1..] == WrapFrom(t, width, j + 1)
  {
    assert FindFirstSpace(t, pos + width) == j;
  }

  /** Every display line except the last is at most the interior width
      long (when the width is positive and the line does not start with a
      space, as trimmed lines with text do not). */
  lemma {:induction false} WrapFits(t: string, width: int, pos: nat)
    requires pos < |t| && width >= 1
    requires pos > 0 || t[0] != ' '
    ensures forall k | 0 <= k < |WrapFrom(t, width, pos)| - 1 ::
      WrapFrom(t, width, pos)[k].Wrapped? ==> |WrapFrom(t, width, pos)[k].text| <= width
    decreases |t| - pos
  {
    var segs := WrapFrom(t, width, pos);
    var j := FindFirstSpace(t, pos + width);
    var end := if j == -1 || j < pos then |t| else j - 1;
    var next := end + 2;
    if next < |t| {
      assert j != -1 && j >= pos && end == j - 1;
      assert j != 0;
      assert j <= pos + width;
      WrapFits(t, width, next);
      var rest := WrapFrom(t, width, next);
      assert segs == [segs[0]] + rest;
      forall k | 0 <= k < |segs| - 1
        ensures segs[k].Wrapped? ==> |segs[k].text| <= width
      {
        if k > 0 {
          assert segs[k] == rest[k - 1];
        }
      }
    }
  }

  /** Every segment was copied (none skipped). */
  predicate AllWrapped(segs: seq<Segment>)
    decreases |segs|
  {
    |segs| == 0 || (segs[0].Wrapped? && AllWrapped(segs[1..]))
  }

  /** The texts of a run of copied segments. */
  function Texts(segs: seq<Segment>): (r: seq<string>)
    requires AllWrapped(segs)
    ensures |r| == |segs|
  {
    if |segs| == 0 then [] else [segs[0].text] + Texts(segs[1..])
  }

  /** The wrapper's cut case: the break `j` found from `pos` lies inside
      the line, so the first segment is the copy up to `j - 1` and the rest
      is wrapped from `j + 1`. */
  lemma WrapCut(t: string, width: int, pos: nat, j: int)
    requires pos < |t| && t[|t| - 1] != ' '
    requires pos > 0 || t[0] != ' '
    requires j == FindFirstSpace(t, pos + width)
    requires j != -1 && j >= pos && j + 1 < |t|
    ensures 1 <= j && t[j] == ' '
    ensures |WrapFrom(t, width, pos)| >= 2
    ensures WrapFrom(t, width, pos)[0] == (if pos < j - 1 then Wrapped(t[pos..j]) else Skipped)
    ensures WrapFrom(t, width, pos)[1..] == WrapFrom(t, width, j + 1)
  {
    var segs := WrapFrom(t, width, pos);
    assert segs == [SegmentOf(CopyNBytes(t, pos, j - 1))] + WrapFrom(t, width, j + 1);
  }

  /** The wrapper's last step: with no break inside the line, the whole
      remainder is one segment. */
  lemma WrapLast(t: string, width: int, pos: nat, j: int)
    requires pos < |t| && t[|t| - 1] != ' '
    requires j == FindFirstSpace(t, pos + width)
    requires !(j != -1 && j >= pos && j + 1 < |t|)
    ensures |WrapFrom(t, width, pos)| == 1
    ensures WrapFrom(t, width, pos)[0].Wrapped? ==> WrapFrom(t, width, pos)[0].text == t[pos..]
  {
    if j != -1 && j >= pos {
      assert j == |t|;
      assert t[pos..|t|] == t[pos..];
    }
  }

  lemma AllWrappedTail(segs: seq<Segment>)
    requires AllWrapped(segs) && |segs| >= 1
    ensures AllWrapped(segs[1..])
  {
  }

  lemma TextsCons(segs: seq<Segment>)
    requires AllWrapped(segs) && |segs| >= 1
    ensures Texts(segs) == [segs[0].text] + Texts(segs[1..])
  {
  }

  lemma JoinCons(a: string, rest: seq<string>, sep: char)
    requires |rest| >= 1
    ensures Join([a] + rest, sep) == a + [sep] + Join(rest, sep)
  {
    assert ([a] + rest)[1..] == rest;
  }

  /** `segs` are all copied and lay `t[pos..]` out exactly: each text is
      the next stretch of `t`, and consecutive ones are separated by one
      space. */
  predicate Tiles(t: string, pos: nat, segs: seq<Segment>)
    decreases |segs|
  {
    && |segs| >= 1 && segs[0].Wrapped?
    && pos + |segs[0].text| <= |t|
    && segs[0].text == t[pos..pos + |segs[0].text|]
    && if |segs| == 1 then pos + |segs[0].text| == |t|
       else pos + |segs[0].text| < |t| && t[pos + |segs[0].text|] == ' '
            && Tiles(t, pos + |segs[0].text| + 1, segs[1..])
  }

  lemma TilesCons(t: string, pos: nat, j: nat, segs: seq<Segment>)
    requires pos <= j < |t| && t[j] == ' '
    requires |segs| >= 2 && segs[0] == Wrapped(t[pos..j])
    requires Tiles(t, j + 1, segs[1..])
    ensures Tiles(t, pos, segs)
  {
  }

  /** A tiling joined with single spaces is the text it tiles. */
  lemma {:induction false} TilesJoin(t: string, pos: nat, segs: seq<Segment>)
    requires Tiles(t, pos, segs)
    ensures AllWrapped(segs) && Join(Texts(segs), ' ') == t[pos..]
    decreases |segs|
  {
    var a := segs[0].text;
    var e := pos + |a|;
    if |segs| == 1 {
      assert t[pos..] == a;
    } else {
      TilesJoin(t, e + 1, segs[1..]);
      TextsCons(segs);
      JoinCons(a, Texts(segs[1..]), ' ');
      assert t[pos..] == t[pos..e] + [' '] + t[e + 1..];
    }
  }

  /** When every segment is copied and the line ends in a non-space, the
      display lines tile the line: the wrapper only drops the spaces it
      breaks at. */
  lemma {:induction false} WrapTiles(t: string, width: int, pos: nat)
    requires pos < |t| && t[|t| - 1] != ' '
    requires pos > 0 || t[0] != ' '
    requires AllWrapped(WrapFrom(t, width, pos))
    ensures Tiles(t, pos, WrapFrom(t, width, pos))
    decreases |t| - pos, 1
  {
    var j := FindFirstSpace(t, pos + width);
    if j != -1 && j >= pos && j + 1 < |t| {
      WrapTilesCut(t, width, pos, j);
    } else {
      WrapLast(t, width, pos, j);
      TilesLast(t, pos, WrapFrom(t, width, pos));
    }
  }

  /** The cut case of `WrapTiles`: the tiling from after the break,
      extended by the first display line. */
  lemma {:induction false} WrapTilesCut(t: string, width: int, pos: nat, j: int)
    requires pos < |t| && t[|t| - 1] != ' '
    requires pos > 0 || t[0] != ' '
    requires j == FindFirstSpace(t, pos + width)
    requires j != -1 && j >= pos && j + 1 < |t|
    requires AllWrapped(WrapFrom(t, width, pos))
    ensures Tiles(t, pos, WrapFrom(t, width, pos))
    decreases |t| - pos, 0
  {
    WrapCutAllWrapped(t, width, pos, j);
    WrapTiles(t, width, j + 1);
    WrapCutTiles(t, width, pos, j);
  }

  /** In the cut case the segments after the first are the wrapping from
      `j + 1`, so those are all copied too. */
  lemma WrapCutAllWrapped(t: string, width: int, pos: nat, j: int)
    requires pos < |t| && t[|t| - 1] != ' '
    requires pos > 0 || t[0] != ' '
    requires j == FindFirstSpace(t, pos + width)
    requires j != -1 && j >= pos && j + 1 < |t|
    requires AllWrapped(WrapFrom(t, width, pos))
    ensures AllWrapped(WrapFrom(t, width, j + 1))
  {
    WrapCut(t, width, pos, j);
    AllWrappedTail(WrapFrom(t, width, pos));
  }

  /** In the cut case a tiling from `j + 1` extends to one from `pos`. */
  lemma WrapCutTiles(t: string, width: int, pos: nat, j: int)
    requires pos < |t| && t[|t| - 1] != ' '
    requires pos > 0 || t[0] != ' '
    requires j == FindFirstSpace(t, pos + width)
    requires j != -1 && j >= pos && j + 1 < |t|
    requires AllWrapped(WrapFrom(t, width, pos))
    requires Tiles(t, j + 1, WrapFrom(t, width, j + 1))
    ensures Tiles(t, pos, WrapFrom(t, width, pos))
  {
    WrapCut(t, width, pos, j);
    TilesCut(t, pos, j, WrapFrom(t, width, pos), WrapFrom(t, width, j + 1));
  }

  /** The cut step of `WrapTiles`, on the segments as plain values. */
  lemma TilesCut(t: string, pos: nat, j: nat, segs: seq<Segment>, rest: seq<Segment>)
    requires pos <= j < |t| && t[j] == ' '
    requires |segs| >= 2 && AllWrapped(segs) && segs[1..] == rest
    requires segs[0] == (if pos < j - 1 then Wrapped(t[pos..j]) else Skipped)
    requires Tiles(t, j + 1, rest)
    ensures Tiles(t, pos, segs)
  {
    assert segs[0].Wrapped?;
    TilesCons(t, pos, j, segs);
  }

  /** The last step of `WrapTiles`, on the segments as plain values. */
  lemma TilesLast(t: string, pos: nat, segs: seq<Segment>)
    requires pos < |t| && |segs| == 1 && AllWrapped(segs)
    requires segs[0].Wrapped? ==> segs[0].text == t[pos..]
    ensures Tiles(t, pos, segs)
  {
    assert segs[0].Wrapped?;
  }

  /** The round trip: with every segment copied and a last character that
      is not a space, joining the display lines with single spaces gives
      the line back. */
  lemma WrapJoin(t: string, width: int, pos: nat)
    requires pos < |t| && t[|t| - 1] != ' '
    requires pos > 0 || t[0] != ' '
    requires AllWrapped(WrapFrom(t, width, pos))
    ensures Join(Texts(WrapFrom(t, width, pos)), ' ') == t[pos..]
  {
    WrapTiles(t, width, pos);
    TilesJoin(t, pos, WrapFrom(t, width, pos));
  }

  /** Every line of `lines`, trimmed. */
  function Trims(lines: seq<string>): (r: seq<string>)
    ensures |r| == |lines|
    ensures forall i | 0 <= i < |lines| :: r[i] == Trim(lines[i])
  {
    seq(|lines|, i requires 0 <= i < |lines| => Trim(lines[i]))
  }

  /** Each text as a copied segment. */
  function WrappedAll(texts: seq<string>): (r: seq<Segment>)
    ensures |r| == |texts|
    ensures forall i | 0 <= i < |texts| :: r[i] == Wrapped(texts[i])
  {
    seq(|texts|, i requires 0 <= i < |texts| => Wrapped(texts[i]))
  }

  /** Lines that fit the interior once trimmed are not broken: each gives
      one display line, its trimmed self. */
  lemma {:induction false} AllSegmentsShort(lines: seq<string>, width: int)
    requires forall i | 0 <= i < |lines| :: |Trim(lines[i])| <= width
    ensures AllSegments(lines, width) == WrappedAll(Trims(lines))
  {
    if |lines| > 0 {
      assert forall i | 0 <= i < |lines| - 1 :: lines[1..][i] == lines[i + 1];
      AllSegmentsShort(lines[1..], width);
      ShortLineOneSegment(lines[0], width);
      TrimsCons(lines);
      WrappedAllCons(Trim(lines[0]), Trims(lines[1..]));
    }
  }

  lemma TrimsCons(lines: seq<string>)
    requires |lines| > 0
    ensures Trims(lines) == [Trim(lines[0])] + Trims(lines[1..])
  {
    var b := [Trim(lines[0])] + Trims(lines[1..]);
    forall i | 0 <= i < |lines|
      ensures Trims(lines)[i] == b[i]
    {
      if i > 0 {
        assert b[i] == Trims(lines[1..])[i - 1];
        assert lines[1..][i - 1] == lines[i];
      }
    }
  }

  lemma WrappedAllCons(t: string, ts: seq<string>)
    ensures WrappedAll([t] + ts) == [Wrapped(t)] + WrappedAll(ts)
  {
  }

  /** With automatic height and lines that fit once trimmed, wrapping just
      trims every line and keeps them all. */
  lemma LinesWrapShort(w: Window)
    requires Valid(w) && w.autoHeight
    requires forall i | 0 <= i < |w.raw| :: |Trim(w.raw[i])| <= Interior(w)
    ensures LinesWrap(w).0.raw == Trims(w.raw)
  {
    AllSegmentsShort(w.raw, Interior(w));
    var r := LinesWrap(w).0;
    assert |r.raw| == |w.raw|;
    forall i | 0 <= i < |w.raw|
      ensures r.raw[i] == Trims(w.raw)[i]
    {
      assert r.raw[i] == r.shown[i];
    }
  }

  /** The round trip through the operation itself: a window with automatic
      height holding one line too long for the interior, whose display
      lines all fit the buffer and were all copied, shows display lines
      that joined with single spaces give the trimmed line back. */
  lemma LinesWrapJoin(w: Window)
    requires Valid(w) && w.autoHeight && |w.raw| == 1
    requires |Trim(w.raw[0])| > Interior(w) && |Trim(w.raw[0])| > 0
    requires Trim(w.raw[0])[|Trim(w.raw[0])| - 1] != ' '
    requires AllWrapped(LineSegments(w.raw[0], Interior(w)))
    requires |LineSegments(w.raw[0], Interior(w))| <= MAX_LINES
    ensures Join(LinesWrap(w).0.raw, ' ') == Trim(w.raw[0])
  {
    var t := Trim(w.raw[0]);
    var segs := LineSegments(w.raw[0], Interior(w));
    KeptSingleLine(w);
    LinesWrapTexts(w);
    assert !AllSpaces(w.raw[0]);
    assert segs == WrapFrom(t, Interior(w), 0);
    WrapJoin(t, Interior(w), 0);
  }

  /** A single line that yields at most MAX_LINES segments keeps them all. */
  lemma KeptSingleLine(w: Window)
    requires |w.raw| == 1
    requires |LineSegments(w.raw[0], Interior(w))| <= MAX_LINES
    ensures KeptSegments(w) == LineSegments(w.raw[0], Interior(w))
  {
    assert w.raw[1..] == [];
    assert AllSegments(w.raw, Interior(w)) == LineSegments(w.raw[0], Interior(w)) + [];
  }

  /** With automatic height and every kept segment copied, the text buffer
      ends up holding exactly the copied texts. */
  lemma LinesWrapTexts(w: Window)
    requires Valid(w) && w.autoHeight
    requires AllWrapped(KeptSegments(w))
    ensures LinesWrap(w).0.raw == Texts(KeptSegments(w))
  {
    var segs := KeptSegments(w);
    var r := LinesWrap(w).0;
    assert |r.raw| == |segs|;
    forall i | 0 <= i < |segs|
      ensures r.raw[i] == Texts(segs)[i]
    {
      assert r.raw[i] == r.shown[i];
      TextsAt(segs, i);
    }
  }

  /** The `i`-th text of a run of copied segments is the `i`-th segment's. */
  lemma {:induction false} TextsAt(segs: seq<Segment>, i: nat)
    requires AllWrapped(segs) && i < |segs|
    ensures segs[i].Wrapped? && Texts(segs)[i] == segs[i].text
    decreases i
  {
    TextsCons(segs);
    if i > 0 {
      AllWrappedTail(segs);
      TextsAt(segs[1..], i - 1);
    }
  }

  /** A window sized automatically in both directions trims its lines and
      keeps all of them, and its interior is as wide as its longest line. */
  lemma AutoResizeTrims(w: Window)
    requires Valid(w) && w.autoWidth && w.autoHeight
    ensures AutoResize(w).raw == Trims(w.raw)
    ensures AutoResize(w).size.height == |w.raw| + 2
  {
    var w1 := AutoWidth(w, Longest(w.raw));
    forall i | 0 <= i < |w1.raw|
      ensures |Trim(w1.raw[i])| <= Interior(w1)
    {
    }
    LinesWrapShort(w1);
  }

  // ---------------------------------------------------------------------
  // Resizing and showing

  /** `windowAutoResize`: automatic width from the longest line, then, for
      automatic height, a wrap followed by automatic height. */
  function AutoResize(w: Window): (r: Window)
    requires Valid(w)
    ensures Valid(r)
    ensures w.autoHeight ==> r.size.height == |r.raw| + 2
    ensures !w.autoHeight ==> r.raw == w.raw
    ensures w.autoWidth ==> Interior(r) == Longest(w.raw)
    ensures r == w.(raw := r.raw, shown := r.shown, size := r.size)
  {
    var w1 := if w.autoWidth then AutoWidth(w, Longest(w.raw)) else w;
    if w1.autoHeight then AutoHeight(LinesWrap(w1).0) else w1
  }

  /** Where one display line is drawn, and what. */
  datatype Placement = Placement(x: int, y: int, text: string)

  /** The text placements of `windowShow` for the lines of a window. */
  function Placements(w: Window): (ps: seq<Placement>)
    requires |w.raw| <= |w.shown|
    ensures |ps| == |w.raw|
    ensures forall i | 0 <= i < |ps| ::
      && ps[i].text == w.shown[i]
      && ps[i].y == w.position.y + i + 1
      && ps[i].x == w.position.x + w.padding + Spacing(w, |w.shown[i]|) + 1
  {
    seq(|w.raw|, i requires 0 <= i < |w.raw| =>
      Placement(w.position.x + w.padding + Spacing(w, |w.shown[i]|) + 1, w.position.y + i + 1, w.shown[i]))
  }

  /** The wrap-or-copy decision of `windowShow`: wrap when the longest line
      reaches the width less the padding (two columns more than the
      wrapper's own interior) and wrapping is on. */
  predicate ShowWraps(w: Window) {
    Longest(w.raw) >= w.size.width - 2 * w.padding && w.lineWrap
  }

  /** The sizing step of `windowShow`: the width follows the longest line
      when it is automatic, then the height follows the line count when it
      is automatic; nothing else changes. */
  function ShowSized(w: Window): (r: Window)
    requires Valid(w)
    ensures Valid(r) && r == w.(size := r.size)
    ensures w.autoWidth ==> Interior(r) == Longest(w.raw)
    ensures !w.autoWidth ==> r.size.width == w.size.width
    ensures w.autoHeight ==> r.size.height == |w.raw| + 2
    ensures !w.autoHeight ==> r.size.height == w.size.height
  {
    var w1 := if w.autoWidth then AutoWidth(w, Longest(w.raw)) else w;
    if w.autoHeight then AutoHeight(w1) else w1
  }

  /** The layout part of `windowShow`: a hidden window is left alone;
      otherwise the window is sized, its lines wrapped or copied to the
      display, and each display line placed one row below the previous,
      inside the border, shifted by the alignment spacing. */
  function Show(w: Window): (r: (Window, seq<Placement>))
    requires Valid(w)
    ensures Valid(r.0)
    ensures !w.visible ==> r == (w, [])
    ensures w.visible ==> |r.1| == |r.0.raw| <= MAX_LINES
    ensures w.visible && w.autoHeight ==>
      forall i | 0 <= i < |r.1| :: r.0.position.y < r.1[i].y < r.0.position.y + r.0.size.height - 1
    ensures w.visible && w.autoWidth ==> r.0.raw == w.raw
    ensures r.0 == w.(raw := r.0.raw, shown := r.0.shown, size := r.0.size)
    ensures w.visible ==>
      r.0 == (if ShowWraps(ShowSized(w)) then LinesWrap(ShowSized(w)).0 else Unbuffer(ShowSized(w)))
    ensures w.visible ==> r.1 == Placements(r.0)
  {
    if !w.visible then (w, [])
    else
      var w2 := ShowSized(w);
      var w3 := if ShowWraps(w2) then LinesWrap(w2).0 else Unbuffer(w2);
      (w3, Placements(w3))
  }

  /** With automatic width the window never wraps: every line is shown as
      it is in the text buffer. */
  lemma ShowAutoWidthNoWrap(w: Window)
    requires Valid(w) && w.visible && w.autoWidth
    ensures forall i | 0 <= i < |Show(w).1| :: Show(w).1[i].text == w.raw[i]
  {
    var w1 := AutoWidth(w, Longest(w.raw));
    var w2 := if w.autoHeight then AutoHeight(w1) else w1;
    assert !ShowWraps(w2);
  }

  /** The wrap trigger and the wrapper disagree about the width: a line one
      column longer than the wrapper's interior is shown unwrapped, running
      into the right-hand padding. */
  lemma ShowTriggerMismatch(w: Window)
    requires Valid(w) && w.visible && !w.autoWidth && !w.autoHeight && w.lineWrap
    requires |w.raw| == 1 && |w.raw[0]| == Interior(w) + 1
    ensures Show(w).1 == Placements(Unbuffer(w))
    ensures |Show(w).1| == 1 && Show(w).1[0].text == w.raw[0]
    ensures |Show(w).1[0].text| > Interior(w)
  {
    assert Longest(w.raw) == |w.raw[0]|;
    assert !ShowWraps(w);
    assert Unbuffer(w).shown[0] == Unbuffer(w).shown[..1][0];
  }

  // ---------------------------------------------------------------------
  // Finding: the wrapper runs past the display slots

  /** The code as written writes one display slot per segment; ten lines
      that each wrap in two fill twenty slots, ten past the last one. */
  lemma WrapOverflowAsWritten()
    ensures var w := CreateWindow(0, 0).(size := Rectangle(6, 12), autoWidth := false,
                                         raw := seq(MAX_LINES, _ => "ab cd"));
            Valid(w) && WrapSlotsAsWritten(w) == 2 * MAX_LINES
  {
    var w := CreateWindow(0, 0).(size := Rectangle(6, 12), autoWidth := false,
                                 raw := seq(MAX_LINES, _ => "ab cd"));
    assert Interior(w) == 2;
    TwoSegmentLine();
    AllSegmentsUniform(w.raw, 2, "ab cd");
  }

  lemma TwoSegmentLine()
    ensures LineSegments("ab cd", 2) == [Wrapped("ab"), Wrapped("cd")]
  {
    TrimKeepsTail("ab cd");
    assert TrimStart("ab cd") == 0 by { assert "ab cd"[0] != ' '; }
    var t := "ab cd";
    assert Trim(t) == t;
    assert FindFirstSpace(t, 2) == 2;
    assert CopyNBytes(t, 0, 1) == Copy.Copied("ab", 1);
    assert FindFirstSpace(t, 5) == 5;
    assert CopyNBytes(t, 3, 4) == Copy.Copied("cd", 1);
    assert WrapFrom(t, 2, 3) == [Wrapped("cd")];
  }

  lemma {:induction false} AllSegmentsUniform(lines: seq<string>, width: int, line: string)
    requires forall i | 0 <= i < |lines| :: lines[i] == line
    requires |LineSegments(line, width)| == 2
    ensures |AllSegments(lines, width)| == 2 * |lines|
  {
    if |lines| > 0 {
      assert forall i | 0 <= i < |lines| - 1 :: lines[1..][i] == lines[i + 1];
      AllSegmentsUniform(lines[1..], width, line);
      assert lines[0] == line;
      assert AllSegments(lines, width) == LineSegments(line, width) + AllSegments(lines[1..], width);
    }
  }

  /** With the cap, the same window keeps MAX_LINES lines and stays valid. */
  lemma WrapOverflowCapped()
    ensures var w := CreateWindow(0, 0).(size := Rectangle(6, 12), autoWidth := false,
                                         raw := seq(MAX_LINES, _ => "ab cd"));
            |LinesWrap(w).0.raw| == MAX_LINES && Valid(LinesWrap(w).0)
  {
    WrapOverflowAsWritten();
  }
}

=== FILE: wrappers.dfy ===
/** The optional-value datatype used for partial parsers and absent inputs. */
module Wrappers {

  datatype Option<+T> = None | Some(value: T) {

    /** The carried value, or `default` when there is none. */
    function GetOr(default: T): T {
      match this
      case Some(v) => v
      case None => default
    }
  }
}
